=== FILE: README.md ===
# Render: shader toolchain, layouts and frame protocols in Dafny

Render is a small C++ renderer with two back ends, Vulkan and Direct3D 12. An
offline tool called ShaderManager compiles HLSL into the blobs each back end
loads. This project models the parts of both that are pure logic, together
with the small state machines around them:

- **Layout descriptors.**
  - Vertex-buffer layouts (`BufferLayout`): offsets are prefix sums of a type-size table, and the stride is their total.
  - `InputBufferLayout.cpp` is the same code as `BufferLayout.cpp` line for line, so the `BufferLayout` module models both.
  - The slot-keyed small-buffer and uniform layouts (`UniformsLayout`), including their alignment check and its message.
  - The register-keyed texture and sampler layouts (`TextureLayout`, `SamplerLayout`).
  - In every layout a later duplicate key replaces an earlier one, and `GetElement` on a missing key inserts a default element (`SlotMap`).
- **Shader-toolchain front end.**
  - `Compiler` covers feature-level validation against the HLSL and Vulkan whitelists; entry-point validation against the keyword, system-value and builtin tables; the `.hlsl` path pattern; output and manifest naming; the DXC argument list; and the packed build over every pushed path.
  - `CsoCompiler` covers the Direct3D 12 variant, with its accumulated argument list and nested manifest entries.
  - The regular expressions are written as deterministic parsers, and lemmas prove them sound and complete against declarative shape predicates.
- **Manifest consumers.**
  - `Shader.Instantiate` picks the manifest for the configured API.
  - `VkShader` and `D3D12Shader` turn a layout into native vertex attributes or input elements, resolve each stage's blob next to the manifest, and fix the pipeline state.
  - `ShaderLoading` and `Files` hold what the two loaders share: the format shapes, the blob path and the parent-path computation.
- **Resource and frame protocols**, abstracted over the native API.
  - `VkBuffer` covers the memory-type search, the staging upload as a trace of device events, and index-buffer counts.
  - `D3D12Context` covers the fence counter, the PRESENT/RENDER_TARGET transitions of the back buffers, resize ordering, and the RTV-handle and scissor arithmetic.
  - Native handles are opaque numbers, and GPU completion is a "completed" counter.
- **Small state machines and utilities.**
  - `LayerStack`: the layer stack with its insertion index.
  - `Sdl3Window` and `Win32Window`: the SDL3 and Win32 window event folds.
  - `ApplicationStarter`: graphics-API resolution from the configuration file.
  - `CmdArg`: the command-line argument cleaning.
  - `PngImage`: the PNG wrapper's raw-buffer and row-layout arithmetic.

Exceptions and failed asserts are values: `Wrappers.Result`/`Option` and the
`Errors.Error` datatype. Fixed-width integers are `nat` with the wrap-around
written out wherever the source truncates or wraps (`% 0x1_0000_0000`). File
contents, the file system, the JSON parser, DXC, libpng's inflate and the
clocks are parameters.

Where a header disagrees with its `.cpp` file, the model follows the `.cpp`:

- the seven-argument `TextureElement` constructor;
- the four-argument `D3D12Context` constructor;
- the `CSOCompiler` base-constructor call that passes the `.cso` and `.d3d12` extensions.

## Model

| member | source | states |
|---|---|---|
| ApplicationStarter.ApiMapper | Render/src/Core/ApplicationStarter.cpp:4-10 | The Vulkan name is always mapped to Vulkan, the D3D12 name is mapped exactly on Windows, and nothing else is mapped |
| ApplicationStarter.Start | Render/src/Core/ApplicationStarter.cpp:12-40 | A root that is neither null nor an object throws on indexing, and a `GraphicsAPI` member that is an array or object throws in `asString`. Otherwise the configuration is rewritten exactly when the file is missing or names no known API, and then Vulkan is chosen and written back. Otherwise the named API is chosen. Other keys survive a rewrite, and D3D12 is only ever chosen on Windows from an explicit setting |
| ApplicationStarter.ApiNameRoundTrip | Render/src/Core/ApplicationStarter.cpp:6-9 | Every API available on the platform maps back from its own name |
| ApplicationStarter.NamedApiIsKept | Render/src/Core/ApplicationStarter.cpp:27-37 | A file naming an available API starts that API and is not rewritten |
| ApplicationStarter.RewriteSettles | Render/src/Core/ApplicationStarter.cpp:14-33 | After a rewrite, the next start reads the rewritten file, picks the same API and rewrites nothing |
| ApplicationStarter.UnconvertibleMemberThrows | Render/src/Core/ApplicationStarter.cpp:27 | An array or object under `GraphicsAPI` makes the constructor throw, and nothing is written |
| ApplicationStarter.UnknownNameFallsBack | Render/src/Core/ApplicationStarter.cpp:27-33 | An absent, null or boolean `GraphicsAPI` falls back to Vulkan, and the document is written back with every other member kept |
| Shader.Instantiate | Render/src/Graphics/Shader.cpp:10-35 | D3D12 resolves `basepath.d3d12.json` (only on Windows), Vulkan resolves `basepath.vk.json`, and everything else gives no shader. The manifest path always extends the base path |
| Shader.ManifestRoundTrip | Render/src/Graphics/Shader.cpp:18-30 | For a source `dir/stem.hlsl`, the manifest the runtime resolves from `dir/stem` is the one the matching compiler back end writes |
| Shader.CsoManifestIsRead | ShaderManager/src/CSOCompiler.cpp:48-55 | After a successful CSO build of `dir/stem.hlsl`, the last file written is the manifest, and the D3D12 runtime opens exactly that path |
| ShaderData.ShaderDataTypeSize | ShaderManager/src/BufferLayout.cpp:3-22 | Every type except `None` has a size between 1 and 64, and size 1 means exactly `Bool`. `None` fails the "Unknown ShaderDataType!" assertion |
| ShaderData.ComponentCount | ShaderManager/src/BufferLayout.cpp:38-57 | The size is 4 bytes per component for float and unsigned types and 1 for `Bool`. `None` fails the same assertion |
| BufferLayout.NewBufferElement | ShaderManager/src/BufferLayout.cpp:33-36 | An element keeps its name, type and normalized flag, starts at offset 0 with its type's size, and cannot be made for `None` |
| BufferLayout.NewBufferLayout | ShaderManager/src/BufferLayout.cpp:84-106 | Order and every field but the offset are kept. Element i's offset is the 32-bit sum of the sizes before it, and the stride is the 32-bit total. An empty list gives the empty layout |
| BufferLayout.PlaceAt | ShaderManager/src/BufferLayout.cpp:98-104 | The offset loop gives element i the running offset plus the sizes before it, wrapped to 32 bits |
| BufferLayout.PlaceEnd | ShaderManager/src/BufferLayout.cpp:98-105 | The loop ends with the running offset advanced by the sum of all sizes, wrapped to 32 bits |
| BufferLayout.ExactWhenSmall | ShaderManager/src/InputBufferLayout.cpp:96-106 | While the total fits in 32 bits, the input layout's offsets are the exact prefix sums and the stride is the exact total |
| BufferLayout.StrideIsEndOfLast | ShaderManager/src/BufferLayout.cpp:96-106 | For a non-empty layout below 2^32 bytes in total, the stride is the last element's offset plus its size |
| BufferLayout.OffsetsStrictlyIncrease | ShaderManager/src/InputBufferLayout.cpp:3-22 | When every element is sized by its type, every size is at least 1, so below 2^32 bytes in total offsets strictly increase along the layout |
| BufferLayout.SizeBeforeMonotone | ShaderManager/src/BufferLayout.cpp:100-103 | The prefix sums never decrease, and an element ends no later than the next element's start |
| SlotMap.KeyedKeepsLast | ShaderManager/src/UniformsLayout.cpp:50-53 | Building a keyed map stores every key present in the list, and each key holds the last element that carries it |
| SlotMap.GetOrInsert | ShaderManager/src/UniformsLayout.cpp:56-59 | A lookup returns the stored element, or on a miss the default, which is then stored under the key. No other entry changes |
| SlotMap.GetOrInsertSettles | ShaderManager/src/UniformsLayout.cpp:58 | A second lookup of the same key returns the same element and leaves the map as the first lookup left it |
| UniformsLayout.MismatchMessageReadsBack | ShaderManager/src/UniformsLayout.cpp:4-11 | The mismatch reason can be parsed back into the expected attachment and the remainder `size % attachment` it names |
| UniformsLayout.NewSmallBufferElement | ShaderManager/src/UniformsLayout.cpp:20-45 | Construction throws the attachment-mismatch error exactly when the size is not a multiple of the attachment. Otherwise offset, size and slot read back unchanged |
| UniformsLayout.NewSmallBufferLayout | ShaderManager/src/UniformsLayout.cpp:47-54 | Every element's slot is present, each slot holds the last element declared for it, and the stage mask is kept |
| UniformsLayout.GetSmallBufferElement | ShaderManager/src/UniformsLayout.cpp:56-59 | A declared slot returns its element and changes nothing. An undeclared slot returns the default (size 0, slot 0xffff) and stores it |
| UniformsLayout.NewUniformElement | ShaderManager/src/UniformsLayout.cpp:79-104 | Construction throws exactly when the size is not a multiple of the buffer attachment. Otherwise type, size, slot and register read back unchanged |
| UniformsLayout.NewUniformLayout | ShaderManager/src/UniformsLayout.cpp:106-113 | Every element's slot is present, each slot holds the last element declared for it, and the allowed stages are kept |
| UniformsLayout.GetUniformElement | ShaderManager/src/UniformsLayout.cpp:115-118 | A declared slot returns its element. An undeclared slot returns and stores the default: invalid type, size 0, slot 0xffff, register 0 |
| UniformsLayout.LaterUniformWins | ShaderManager/src/UniformsLayout.cpp:109-112 | Two uniforms on one slot leave only the second |
| TextureLayout.DefaultTextureElement | ShaderManager/src/TextureLayout.cpp:4-14 | The default element wraps a 1x1 RGBA image of one white pixel. It has depth 1, a rank-2 tensor, slot 0xffff, and register, space and sampler register 0 |
| TextureLayout.DefaultImageAsWritten | ShaderManager/src/TextureLayout.cpp:6 | The default image is what the raw-buffer image constructor makes of the white pixel at 1x1 |
| TextureLayout.NewTextureElement | ShaderManager/src/TextureLayout.cpp:17-21 | The stored depth is max(1, depth). Every other argument is stored unchanged |
| TextureLayout.ImageFieldsComeFromImage | ShaderManager/src/TextureLayout.cpp:23-36 | Width, height, channels and pixel data are those of the wrapped image |
| TextureLayout.GetDepth | ShaderManager/src/TextureLayout.cpp:38-41 | The depth is read back through a 32-bit cast: unchanged while it fits, always below 2^32 |
| TextureLayout.DepthReadsBackTruncated | ShaderManager/src/TextureLayout.cpp:40 | A depth of 2^32 reads back as 0 |
| TextureLayout.NewTextureLayout | ShaderManager/src/TextureLayout.cpp:78-84 | Every element's register is present, each register holds the last element declared for it, and each stored element carries its own register |
| TextureLayout.GetTextureElement | ShaderManager/src/TextureLayout.cpp:86-89 | A declared register returns its element. An undeclared one returns and stores the default element. No other entry changes |
| TextureLayout.MissStoresRegisterZero | ShaderManager/src/TextureLayout.cpp:86-89 | After a miss on a non-zero register, the entry stored under that register claims register 0 |
| SamplerLayout.DefaultSamplerElement | ShaderManager/src/SamplerLayout.cpp:3-10 | The default sampler is linear, anisotropy factor 0, repeat addressing, comparison never, slot 0. Its register is whatever the indeterminate value was |
| SamplerLayout.DefaultsDifferOnlyInRegister | ShaderManager/src/SamplerLayout.cpp:3-10 | Two default samplers agree on every field except the uninitialised register |
| SamplerLayout.NewSamplerElement | ShaderManager/src/SamplerLayout.cpp:12-20 | All six constructor arguments read back unchanged |
| SamplerLayout.NewSamplerLayout | ShaderManager/src/SamplerLayout.cpp:52-58 | Every element's register is present, each register holds the last sampler declared for it, and each stored element carries its own register |
| SamplerLayout.GetSamplerElement | ShaderManager/src/SamplerLayout.cpp:60-63 | A declared register returns its sampler. An undeclared one returns and stores a default sampler |
| SamplerLayout.DeclaredLookupIgnoresIndeterminate | ShaderManager/src/SamplerLayout.cpp:60-63 | Looking up a declared register returns the last sampler declared for it, whatever the uninitialised register would have been |
| Text.DecimalRoundTrip | ShaderManager/src/UniformsLayout.cpp:8-9 | The decimal text a number is streamed as reads back as that number |
| Compiler.ParseVulkanVersion | ShaderManager/src/Compiler.cpp:453-461 | The parse gives a pair exactly for strings of the form `digits.digits`, with their decimal values (via the sound and complete lemmas) |
| Compiler.DigitPairSplit | ShaderManager/src/Compiler.cpp:425-433 | Digits, one non-digit separator and digits parse to their two decimal values |
| Compiler.HlslVersionParseComplete | ShaderManager/src/Compiler.cpp:425-433 | Every `_digits_digits` string parses to its major and minor numbers |
| Compiler.HlslVersionParseSound | ShaderManager/src/Compiler.cpp:425-437 | Whatever parses has the form `_digits_digits`; anything else takes the pattern error |
| Compiler.VulkanVersionParseComplete | ShaderManager/src/Compiler.cpp:453-461 | Every `digits.digits` string parses to its major and minor numbers |
| Compiler.VulkanVersionParseSound | ShaderManager/src/Compiler.cpp:453-465 | Whatever parses has the form `digits.digits`; anything else takes the pattern error |
| Compiler.ValidateHlslFeatureLevel | ShaderManager/src/Compiler.cpp:423-449 | Rejections are `InvalidHLSLVersion`. The message is the pattern message when the text does not parse and the unknown-version message when it parses but is not listed |
| Compiler.ValidateVulkanFeatureLevel | ShaderManager/src/Compiler.cpp:451-477 | Rejections are `InvalidVulkanVersion`, with the pattern message or the unknown-version message in the same way |
| Compiler.ValidHlslSpelledOut | ShaderManager/src/Compiler.cpp:8-19 | The HLSL whitelist is exactly 6.0 to 6.8 |
| Compiler.ValidVulkanSpelledOut | ShaderManager/src/Compiler.cpp:21-27 | The Vulkan whitelist is exactly 1.0 to 1.3 |
| Compiler.HlslFeatureLevelAcceptedIff | ShaderManager/src/Compiler.cpp:423-449 | A level is accepted iff it is `_`digits`_`digits with numeric major 6 and minor at most 8 |
| Compiler.VulkanFeatureLevelAcceptedIff | ShaderManager/src/Compiler.cpp:451-477 | A level is accepted iff it is digits`.`digits with numeric major 1 and minor at most 3 |
| Compiler.NewCompiler | ShaderManager/src/Compiler.cpp:318-328 | Construction succeeds iff both levels validate, and then stores its arguments with an empty path list. A rejected level throws that level's error |
| Compiler.DefaultCompilerConstructs | ShaderManager/src/Compiler.cpp:318-328 | The default arguments `_main`, `_6_0` and `1.0` construct a compiler |
| Compiler.DefaultLevelsValid | ShaderManager/src/Compiler.cpp:8-27 | The default HLSL and Vulkan levels are both on their whitelists |
| Compiler.SetHlslFeatureLevel | ShaderManager/src/Compiler.cpp:411-415 | The level is replaced iff it validates. A rejected level throws and leaves the compiler unchanged, so validity is preserved |
| Compiler.SetVulkanFeatureLevel | ShaderManager/src/Compiler.cpp:417-421 | The same, for the Vulkan level |
| Compiler.SplitShaderPath | ShaderManager/src/Compiler.cpp:341-345 | Splits a path into the directory up to its last `/` and a non-empty stem before `.hlsl`. Sound and complete against the path pattern by the next two lemmas |
| Compiler.SplitShaderPathSound | ShaderManager/src/Compiler.cpp:341 | A split path matches the pattern: a directory with no line terminator ending in `/`, then a stem with no `/`, then `.hlsl` |
| Compiler.SplitShaderPathComplete | ShaderManager/src/Compiler.cpp:341 | Every path matching the pattern splits into exactly its directory and stem |
| Compiler.PushShaderPath | ShaderManager/src/Compiler.cpp:339-357 | The path is appended iff it matches the pattern (a backslash is not a separator). Otherwise "Invalid filename" is thrown and the compiler is unchanged |
| Compiler.ValidateNameOverKeywords | ShaderManager/src/Compiler.cpp:585-611 | A name is rejected iff it is not an identifier or it is a keyword without a size suffix. The sized branch never fires on an identifier |
| Compiler.SizedKeywordAllowed | ShaderManager/src/Compiler.cpp:29-141 | `float`, a keyword that takes a size suffix, is accepted as an entry name |
| Compiler.PlainKeywordRefused | ShaderManager/src/Compiler.cpp:585-611 | `return` is refused as a keyword, and `4main` as a non-identifier |
| Compiler.SystemValueCapture | ShaderManager/src/Compiler.cpp:615-625 | The capture exists iff the name starts with `SV_` followed by a word character, and it is the longest run of word characters after `SV_` |
| Compiler.SplitEnumeration | ShaderManager/src/Compiler.cpp:616-635 | When the word is a non-empty run of non-digits followed by a non-empty run of digits (`^(\D+)(\d+)$`), it is split into the two runs, so `A_1` gives `A_` and `1`; otherwise the word is kept whole |
| Compiler.DigitFreeCaptured | ShaderManager/src/Compiler.cpp:615-635 | A name after `SV_` made of word characters without digits is captured whole, and does not split into a head and an index |
| Compiler.SplitEnumerationFindsEverySplit | ShaderManager/src/Compiler.cpp:631-635 | Every non-digits-then-digits decomposition is the one found |
| Compiler.ValidateNameOverSysValues | ShaderManager/src/Compiler.cpp:613-647 | Names with no system-value capture pass. Every rejection carries the system-value message |
| Compiler.SysValueRejectedIff | ShaderManager/src/Compiler.cpp:613-647 | A name is rejected iff its capture, with a trailing index stripped, is in the table and its flag says whether an index was stripped |
| Compiler.PlainSemanticRefused | ShaderManager/src/Compiler.cpp:613-647 | `SV_` followed by any digit-free semantic the table flags as taking no index is refused |
| Compiler.IndexedSysValueWithoutIndex | ShaderManager/src/Compiler.cpp:162 | `SV_TARGET` without an index is accepted as an entry name |
| Compiler.IndexedSysValueWithIndex | ShaderManager/src/Compiler.cpp:162 | `SV_TARGET0` is refused |
| Compiler.PlainSysValueExample | ShaderManager/src/Compiler.cpp:167 | `SV_POSITION` is refused |
| Compiler.ValidateNameOverBuiltinFunctions | ShaderManager/src/Compiler.cpp:649-660 | A name is refused iff it is exactly a listed builtin, with the "is a builtin function" message |
| Compiler.ValidateEntryPoint | ShaderManager/src/Compiler.cpp:490-494 | An entry point passes iff it passes the keyword, system-value and builtin-function checks, so `abs` is refused although it is neither a keyword nor a system value. The keyword error comes first |
| Compiler.ValidatePipeline | ShaderManager/src/Compiler.cpp:662-671 | A failed stage is fatal iff it is `vs` or `ps`, with the "is a mandatory stage" message |
| Compiler.DxcArguments | ShaderManager/src/Compiler.cpp:513-536 | The first eight arguments are `-Zpc -HV 2021 -T` stage+level `-E` stage+entry, then `-O0` in debug or `-O3`. CSO adds nothing. SPV adds `-spirv` and the Vulkan target, plus `-fvk-invert-y` exactly for `vs`, `gs` and `ds` |
| Compiler.RunDxc | ShaderManager/src/Compiler.cpp:549-558 | DXC always runs. An empty blob throws only for a mandatory stage; any other result is written to the output path |
| Compiler.CompileStage | ShaderManager/src/Compiler.cpp:481-559 | DXC runs iff the entry checks pass, and a failed check is what is thrown. The stage fails iff a check failed or a mandatory stage produced nothing. The run uses `DxcArguments` and writes `basepath.stage` plus the back end's extension |
| Compiler.CompileShaderFileSkips | ShaderManager/src/Compiler.cpp:377-380 | A path not matching the pattern is skipped: nothing built, nothing written, nothing thrown |
| Compiler.CompileShaderFileSucceedsIff | ShaderManager/src/Compiler.cpp:380-408 | A matching file builds iff the entry points are valid and neither mandatory stage comes back empty |
| Compiler.CompileShaderFileWrites | ShaderManager/src/Compiler.cpp:388-406 | A successful file writes the `vs` blob, the `ps` blob and the manifest `dir/stem.<api>.json`, in that order |
| Compiler.CompileShaderFileArguments | ShaderManager/src/Compiler.cpp:388-394 | Every stage the file builds runs with that stage's own `DxcArguments` |
| Compiler.StageWritesBlob | ShaderManager/src/Compiler.cpp:551-558 | A mandatory stage that does not throw writes its blob |
| Compiler.RunInOrderSucceedsIff | ShaderManager/src/Compiler.cpp:374-408 | Compiling the paths in order succeeds iff every matching path succeeds |
| Compiler.RunInOrderWrites | ShaderManager/src/Compiler.cpp:374-408 | A successful run writes each matching path's three files in path order, and nothing else |
| Compiler.RunInOrderBuilds | ShaderManager/src/Compiler.cpp:374-408 | A property of every build that each step keeps holds of every build in the run |
| Compiler.PackedBuildSucceedsIff | ShaderManager/src/Compiler.cpp:364-409 | A packed build succeeds iff every pushed path that matches builds cleanly, given valid entry points |
| Compiler.CompilePackedShaderSucceedsIff | ShaderManager/src/Compiler.cpp:364-409 | The same for the compiler's own entry checks, computed from its base entry |
| Compiler.PackedBuildWrites | ShaderManager/src/Compiler.cpp:364-409 | A successful packed build writes exactly the outputs of the matching paths, in push order |
| Compiler.PackedBuildArguments | ShaderManager/src/Compiler.cpp:388-394 | Every DXC run of a packed build uses its stage's own arguments |
| Compiler.ValidCompilerSkipsNothing | ShaderManager/src/Compiler.cpp:339-357 | A compiler's pushed paths all match the pattern, so the packed build skips none of them |
| Compiler.AsWrittenManifestIsUnreadable | ShaderManager/src/Compiler.cpp:392 | In the manifest as written, reading a stage's `filename` fails because the entry is a bare string |
| Compiler.CorrectedManifestNamesBlobs | ShaderManager/src/CSOCompiler.cpp:44 | With nested entries, reading a stage's `filename` gives `stem.stage` plus the back end's extension |
| CsoCompiler.NewCsoCompiler | ShaderManager/src/CSOCompiler.cpp:8-11 | Construction succeeds iff the HLSL level validates. The result is a valid CSO compiler, in debug mode, with the given entry and level, no paths and an empty argument list |
| CsoCompiler.DefaultCsoCompilerConstructs | ShaderManager/src/CSOCompiler.cpp:8-11 | The default `_main` and `_6_0` construct |
| CsoCompiler.PushArgList | ShaderManager/src/CSOCompiler.cpp:60-89 | The entry point is validated first, and a failure pushes nothing. Otherwise exactly the eight stage arguments are appended after the existing ones |
| CsoCompiler.PushArgListMatchesBase | ShaderManager/src/CSOCompiler.cpp:78-88 | From an empty list, the arguments pushed are the base compiler's DXC arguments for a CSO stage |
| CsoCompiler.CsoShaderFileSkips | ShaderManager/src/CSOCompiler.cpp:30 | A path not matching the pattern is skipped silently and the argument list is untouched |
| CsoCompiler.CsoShaderFileSucceedsIff | ShaderManager/src/CSOCompiler.cpp:27-57 | A matching file builds iff the entry points are valid and neither stage comes back empty |
| CsoCompiler.CsoShaderFileWrites | ShaderManager/src/CSOCompiler.cpp:39-55 | A successful file writes `stem.vs.cso`, `stem.ps.cso` and `dir/stem.d3d12.json`, with the manifest entries nested under `filename` |
| CsoCompiler.CsoStage | ShaderManager/src/CSOCompiler.cpp:41-46 | The stage's eight arguments are pushed onto the list, DXC runs on the command line `CompileStage` builds for the stage alone, and the list is cleared unless an exception escapes, in which case it keeps the pushed arguments. A failed entry check pushes and compiles nothing |
| CsoCompiler.CsoShaderFileArguments | ShaderManager/src/CSOCompiler.cpp:39-47 | Whatever the list held, each stage compiles with exactly its own arguments, and a matching file that compiles leaves the list empty |
| CsoCompiler.CsoBuildSucceedsIff | ShaderManager/src/CSOCompiler.cpp:17-58 | The build succeeds iff every matching pushed path builds cleanly, given valid entry points |
| CsoCompiler.CsoBuildWrites | ShaderManager/src/CSOCompiler.cpp:17-58 | A successful build writes each matching path's blobs and manifest in push order |
| CsoCompiler.CsoBuildArguments | ShaderManager/src/CSOCompiler.cpp:39-47 | Whatever the list held, every stage of the build compiles with its own eight arguments, and a finished build leaves the list empty or, if no path matched, as it was |
| CsoCompiler.CsoShaderFileFailedVertexStage | ShaderManager/src/CSOCompiler.cpp:41-46 | When the vertex stage comes back empty, the file throws before clearing, and the eight vertex arguments stay in the list |
| CsoCompiler.LeftoverArgumentsStayInList | ShaderManager/src/CSOCompiler.cpp:41-46 | Leftover arguments stay at the head of the list and the next push lands after them, but DXC still receives only the stage's own eight arguments |
| CsoCompiler.FailedStageLeavesArguments | ShaderManager/src/CSOCompiler.cpp:41-46 | After a build that failed in the vertex stage, the compiler keeps that stage's arguments in its list |
| ShaderLoading.TypeShape | Render/src/Platform/Graphics/VK/VKShader.cpp:253-268 | Every type except `None` and `Mat4` has a native format whose byte size is the type's size, with one channel per component and a float kind exactly for the float types |
| ShaderLoading.BlobPath | Render/src/Platform/Graphics/VK/VKShader.cpp:157-160 | A stage's blob path lies in the manifest's directory. It fails exactly when the stage's entry is a bare string |
| ShaderLoading.ManifestNameHasNoSeparator | ShaderManager/src/Compiler.cpp:403 | A manifest file name built from a separator-free stem contains no separator |
| ShaderLoading.BlobPathRoundTrip | Render/src/Platform/Graphics/D3D12/D3D12Shader.cpp:215-218 | For a nested manifest written for `dir/stem.hlsl` at `dir/stem.<api>.json`, the loader's blob path is `dir` plus the blob name the compiler wrote |
| ShaderLoading.AsWrittenManifestHasNoBlobPath | Render/src/Platform/Graphics/VK/VKShader.cpp:157 | A manifest as the base compiler writes it yields no blob path for a packed stage |
| Files.ReadStageField | Render/src/Platform/Graphics/VK/VKShader.cpp:157-161 | Indexing a bare-string stage entry fails. A missing stage or field reads as empty, and a present field reads as its value |
| Files.ParentPath | Render/src/Platform/Graphics/VK/VKShader.cpp:197 | A path with no separator has an empty parent. Otherwise the parent is a non-empty prefix of the path |
| Files.ParentOfFileInDir | Render/src/Platform/Graphics/D3D12/D3D12Shader.cpp:254 | The parent of a file name inside a directory ending in one `/` is that directory without the `/` |
| VkShader.NativeFormat | Render/src/Platform/Graphics/VK/VKShader.cpp:253-268 | The Vulkan format has the type's shape. It is `UNDEFINED` exactly for `None` and `Mat4` |
| VkShader.NativeFormatInjective | Render/src/Platform/Graphics/VK/VKShader.cpp:253-268 | Two types with the same defined format are the same type |
| VkShader.VertexAttributes | Render/src/Platform/Graphics/VK/VKShader.cpp:48-54 | One attribute per element: location i, binding 0, the element's offset and its native format |
| VkShader.VertexInputOf | Render/src/Platform/Graphics/VK/VKShader.cpp:40-57 | A single per-vertex binding 0 with the layout's stride, and every attribute refers to it |
| VkShader.AttributesTileStride | Render/src/Platform/Graphics/VK/VKShader.cpp:40-54 | For a layout that fits in 32 bits and has no matrices, each attribute ends where the next begins, and the last one ends at the stride |
| VkShader.MatrixAttributeIsUndefined | Render/src/Platform/Graphics/VK/VKShader.cpp:262-266 | A `Mat4` element produces an attribute with an undefined format |
| VkShader.PushShader | Render/src/Platform/Graphics/VK/VKShader.cpp:144-187 | A stage outside `vs`/`ps`, or one already loaded, does nothing. Otherwise a bare-string manifest entry throws. A stage info is produced iff the blob exists and is readable, with the resolved path and entry point. Other stages are untouched |
| VkShader.PushShaderOnce | Render/src/Platform/Graphics/VK/VKShader.cpp:152-153 | Once a stage has been pushed, pushing it again changes nothing |
| VkShader.DepthKeepsNearerOrEqual | Render/src/Platform/Graphics/VK/VKShader.cpp:243-251 | Depth test and write are on, and a fragment passes iff its depth is at most the stored depth |
| VkShader.ReleaseModules | Render/src/Platform/Graphics/VK/VKShader.cpp:111-115 | After release no stage holds a module, and the stage set and entry points are kept |
| VkShader.BuildVkShader | Render/src/Platform/Graphics/VK/VKShader.cpp:19-118 | The constructor throws iff a stage entry is a bare string. Otherwise both stage slots are as `PushShader` leaves them, the vertex input comes from the layout, the fixed state is used, the stride is the layout's and the offset 0, and all modules are released |
| VkShader.AsWrittenManifestIsRejected | Render/src/Platform/Graphics/VK/VKShader.cpp:157 | A manifest as the base compiler writes it makes the Vulkan shader constructor throw |
| VkShader.LoadsWhatTheCompilerWrote | Render/src/Platform/Graphics/VK/VKShader.cpp:144-187 | With nested manifest entries, the Vulkan shader loads each stage from the blob the compiler wrote next to the manifest |
| D3D12Shader.NativeFormat | Render/src/Platform/Graphics/D3D12/D3D12Shader.cpp:257-270 | The DXGI format has the type's shape. It is `UNKNOWN` exactly for `None` and `Mat4` |
| D3D12Shader.FormatsAgree | Render/src/Platform/Graphics/D3D12/D3D12Shader.cpp:257-270 | The DXGI and Vulkan tables give every type the same shape, and both leave the same types undefined |
| D3D12Shader.InputElements | Render/src/Platform/Graphics/D3D12/D3D12Shader.cpp:32-44 | One input element per layout element: its name, semantic index 0, its format, slot 0, its offset, per-vertex data |
| D3D12Shader.InputLayoutsAgree | Render/src/Platform/Graphics/D3D12/D3D12Shader.cpp:32-44 | The D3D12 input element i and the Vulkan attribute i have the same offset and the same format shape |
| D3D12Shader.RootSignatureBindings | Render/src/Platform/Graphics/D3D12/D3D12Shader.cpp:102-172 | The root signature binds exactly 128 bytes of root constants at b0 for the vertex stage, and a texture table at t0 and a static sampler at s0 for the pixel stage, in two parameters |
| D3D12Shader.ApplyStencil | Render/src/Platform/Graphics/D3D12/D3D12Shader.cpp:202-211 | Every stencil operation keeps the stored value within 8 bits |
| D3D12Shader.StencilAfter | Render/src/Platform/Graphics/D3D12/D3D12Shader.cpp:202-211 | The stencil value after a test stays within 8 bits |
| D3D12Shader.StencilIsInert | Render/src/Platform/Graphics/D3D12/D3D12Shader.cpp:202-211 | The stencil is enabled, but its test always passes and it never changes the stored value on either face |
| D3D12Shader.AgainstVulkanState | Render/src/Platform/Graphics/D3D12/D3D12Shader.cpp:174-211 | The D3D12 and Vulkan pipelines agree on culling, winding, depth test, write and comparison. D3D12 enables blending where Vulkan does not |
| D3D12Shader.BaseDesc | Render/src/Platform/Graphics/D3D12/D3D12Shader.cpp:49-60 | The base description has the layout's input elements, no shaders yet, a full sample mask, one render target and one sample |
| D3D12Shader.PushShader | Render/src/Platform/Graphics/D3D12/D3D12Shader.cpp:213-244 | A bare-string entry throws. Otherwise the stage's blob, read from the path next to the manifest, goes into the slot the pusher table names, with no loaded check |
| D3D12Shader.BuildD3D12Shader | Render/src/Platform/Graphics/D3D12/D3D12Shader.cpp:24-79 | The constructor throws iff a stage entry is a bare string. Otherwise the pipeline carries both stage blobs as pushed, the layout's input elements, the graphics root signature and the fixed blend and rasterizer state |
| D3D12Shader.LoadsWhatCsoWrote | Render/src/Platform/Graphics/D3D12/D3D12Shader.cpp:213-255 | For a file the CSO compiler built, the D3D12 shader loads exactly the blobs that build wrote |
| VkBuffer.FindMemoryType | Render/src/Platform/Graphics/VK/VKBuffer.cpp:68-82 | The result is the first memory type allowed by the filter whose flags include all requested properties. The assertion fails iff there is none |
| VkBuffer.CreateBufferEvent | Render/src/Platform/Graphics/VK/VKBuffer.cpp:10-28 | Creation records the id, size and usage asked for |
| VkBuffer.CreateBufferIgnoresProperties | Render/src/Platform/Graphics/VK/VKBuffer.cpp:23-24 | The requested memory properties make no difference: every buffer asks for host-sequential-write mapping |
| VkBuffer.RunCopy | Render/src/Platform/Graphics/VK/VKBuffer.cpp:53 | A copy needs both buffers and enough room in each. It overwrites the first `size` bytes of the destination with the source's and touches nothing else |
| VkBuffer.CopyTrace | Render/src/Platform/Graphics/VK/VKBuffer.cpp:30-66 | The copy is five device events, from allocating the command buffer to freeing it |
| VkBuffer.SubmitQueues | Render/src/Platform/Graphics/VK/VKBuffer.cpp:30-60 | On an idle device, allocating, recording and submitting leaves the copy queued and not yet done |
| VkBuffer.WaitRunsCopy | Render/src/Platform/Graphics/VK/VKBuffer.cpp:61-65 | Waiting for the queue runs the queued copy, and freeing the command buffer leaves the device idle |
| VkBuffer.CopyCompletes | Render/src/Platform/Graphics/VK/VKBuffer.cpp:30-66 | `CopyBuffer` on an idle device leaves it idle with the copy done |
| VkBuffer.CopyRuns | Render/src/Platform/Graphics/VK/VKBuffer.cpp:30-66 | The whole copy trace runs to the same buffers as the copy itself |
| VkBuffer.UploadPrepares | Render/src/Platform/Graphics/VK/VKBuffer.cpp:84-96 | Creating the staging buffer and filling it leaves it holding the data, next to a new zeroed destination |
| VkBuffer.UploadDeliversData | Render/src/Platform/Graphics/VK/VKBuffer.cpp:84-103 | The staging upload leaves the destination holding the first `size` bytes of the data and the staging buffer destroyed |
| VkBuffer.DestroyBeforeWaitIsMisuse | Render/src/Platform/Graphics/VK/VKBuffer.cpp:102 | Destroying the staging buffer while the copy is only submitted is refused, which is why the queue wait comes first |
| VkBuffer.DestroyAfterDeviceIdle | Render/src/Platform/Graphics/VK/VKBuffer.cpp:105-111 | Waiting for the device finishes every queued copy, after which the buffer can be destroyed |
| VkBuffer.VertexBufferFeedsTheBinding | Render/src/Platform/Graphics/VK/VKBuffer.cpp:124-129 | The vertex buffer is bound at offset 0 to binding 0, the one binding the shader declares |
| VkBuffer.NewIndexBuffer | Render/src/Platform/Graphics/VK/VKBuffer.cpp:131-137 | The count is the 32-bit truncation of the element count, and the buffer holds four bytes per index |
| VkBuffer.StageIndexBuffer | Render/src/Platform/Graphics/VK/VKBuffer.cpp:144-148 | The index buffer is bound at offset 0 |
| VkBuffer.IndexBytesMatchCount | Render/src/Platform/Graphics/VK/VKBuffer.cpp:150-153 | The reported count times four is the buffer's byte size |
| VkBuffer.IndexCountWraps | Render/src/Platform/Graphics/VK/VKBuffer.cpp:134 | 2^32 indices give a count of 0, and the byte size wraps to 0 as well |
| D3D12Context.WaitForFence | Render/src/D3D12Context.cpp:274-279 | Waiting raises the completed counter to the target (the current fence value for -1). It only records a wait when the target is not yet reached, and nothing else changes |
| D3D12Context.WaitIsIdempotent | Render/src/D3D12Context.cpp:274-279 | Waiting twice for the same value is waiting once |
| D3D12Context.FlushTraceShape | Render/src/D3D12Context.cpp:265-272 | Flushing n times signals and waits for each of the next n fence values in turn |
| D3D12Context.FlushQueue | Render/src/D3D12Context.cpp:265-272 | The fence advances by n and, after a flush, everything up to it has completed. Nothing else changes |
| D3D12Context.FlushComposes | Render/src/D3D12Context.cpp:265-272 | Flushing m times and then n times is flushing m + n times |
| D3D12Context.ReceiveCommands | Render/src/D3D12Context.cpp:50-65 | Receiving needs the back buffer in PRESENT. It moves that buffer alone to RENDER_TARGET, makes it current and records the barrier |
| D3D12Context.DispatchCommands | Render/src/D3D12Context.cpp:67-91 | Dispatching needs the current buffer in RENDER_TARGET. It returns it to PRESENT, signals the next fence value and waits for it |
| D3D12Context.FramePairRestores | Render/src/D3D12Context.cpp:50-91 | Receive followed by dispatch brings every back buffer back to PRESENT with the queue drained |
| D3D12Context.ReceiveTwiceFails | Render/src/D3D12Context.cpp:52-56 | A back buffer cannot be received twice without a dispatch in between |
| D3D12Context.DispatchBeforeReceiveFails | Render/src/D3D12Context.cpp:6-24 | A fresh context has no current buffer in RENDER_TARGET, so dispatching first is refused |
| D3D12Context.RtvHandles | Render/src/D3D12Context.cpp:220-225 | Handle i is the heap start plus i increments, in 64-bit arithmetic |
| D3D12Context.RtvHandlesStep | Render/src/D3D12Context.cpp:220-225 | Consecutive handles are one increment apart while no wrap occurs |
| D3D12Context.RtvHandlesDistinct | Render/src/D3D12Context.cpp:220-225 | With a positive increment and no wrap, the handles are pairwise distinct |
| D3D12Context.ToLong | Render/src/D3D12Context.cpp:251 | The cast to a 32-bit signed long keeps the value modulo 2^32 within the signed range |
| D3D12Context.ViewportAndScissor | Render/src/D3D12Context.cpp:241-254 | The viewport takes the window size, and the scissor runs from the origin to the size cast to long |
| D3D12Context.ScissorCoversWindow | Render/src/D3D12Context.cpp:241-254 | Below 2^31 the scissor is exactly the window |
| D3D12Context.WideScissorIsNegative | Render/src/D3D12Context.cpp:251 | A width of 2^31 or more gives a negative scissor edge |
| D3D12Context.AcquireTrace | Render/src/D3D12Context.cpp:256-263 | Back buffer i is fetched into RTV handle i, in order |
| D3D12Context.GetTargets | Render/src/D3D12Context.cpp:256-263 | Fetching the buffers puts every back buffer in PRESENT and records one acquisition per handle |
| D3D12Context.WindowResize | Render/src/D3D12Context.cpp:113-121 | The queue is flushed once per frame in flight before the buffers are released and reacquired. All buffers end in PRESENT, and the viewport and scissor take the new size |
| D3D12Context.ResizeReleasesAfterFlush | Render/src/D3D12Context.cpp:113-121 | Every back buffer is released only after the last flush wait |
| D3D12Context.FrameAfterResize | Render/src/D3D12Context.cpp:113-121 | After a resize, any back buffer can be received and dispatched again |
| D3D12Context.NewContext | Render/src/D3D12Context.cpp:6-24 | A new context has its buffers acquired in PRESENT, fence 0, a drained queue, the RTV handles laid out from the heap start, and no current buffer |
| LayerStack.FirstIndex | Render/src/Core/LayerStack.cpp:31 | The index `find` returns: the first position holding the layer |
| LayerStack.RemoveFirst | Render/src/Core/LayerStack.cpp:35 | Erasing a found layer removes one entry; a missing layer leaves the list as it is |
| LayerStack.RemoveFirstMultiset | Render/src/Core/LayerStack.cpp:35 | Erasing removes exactly one occurrence of the layer |
| LayerStack.RemoveFirstCutsFirst | Render/src/Core/LayerStack.cpp:42-46 | Erasing cuts out the first occurrence and keeps the rest in order |
| LayerStack.PushLayer | Render/src/Core/LayerStack.cpp:16-21 | The layer goes in at the insertion index, which moves up by one. The entries on either side keep their order, and the layer is attached |
| LayerStack.PushOverlay | Render/src/Core/LayerStack.cpp:23-27 | The overlay goes at the end, the insertion index is kept, and it is attached |
| LayerStack.PopLayer | Render/src/Core/LayerStack.cpp:29-38 | A missing layer changes nothing. A present one is detached and its first occurrence is cut out, the rest keeping their order, and the index drops by one whatever kind it was |
| LayerStack.PopOverlay | Render/src/Core/LayerStack.cpp:40-49 | A missing overlay changes nothing. A present one is detached and its first occurrence is cut out, the rest keeping their order, and the index is kept |
| LayerStack.Simulates | Render/src/Core/LayerStack.cpp:16-49 | When each pop names an entry of its own kind, one operation on the stack is the same operation on a pair of lists: layers, then overlays |
| LayerStack.RunSimulates | Render/src/Core/LayerStack.cpp:16-49 | The same for any sequence of such operations, and the stack stays well-formed |
| LayerStack.EmptyIsEmptySplit | Render/src/Core/LayerStack.cpp:3-6 | The empty stack is the empty pair of lists |
| LayerStack.PopLayerOfOverlayUnderflows | Render/src/Core/LayerStack.cpp:36 | Popping an overlay with `PopLayer` on a stack with no layers takes the index below zero |
| LayerStack.WrongKindPopReordersLayers | Render/src/Core/LayerStack.cpp:29-38 | Popping an overlay with `PopLayer` lowers the index, so the next layer goes in front of an earlier layer |
| Sdl3Window.NewWindow | Render/src/Platform/Window/SDL3/SDL3Window.cpp:5-18 | A new window keeps its size and id and has no flag set and no resizer |
| Sdl3Window.ConnectResizer | Render/src/Platform/Window/SDL3/SDL3Window.cpp:92-95 | Connecting turns forwarding on and changes nothing else |
| Sdl3Window.Update | Render/src/Platform/Window/SDL3/SDL3Window.cpp:66-90 | No event changes width, height, id or the resizer |
| Sdl3Window.UpdateAppend | Render/src/Platform/Window/SDL3/SDL3Window.cpp:69 | Handling a then b is handling a + b, with the calls concatenated |
| Sdl3Window.MinimizedFollowsLastEvent | Render/src/Platform/Window/SDL3/SDL3Window.cpp:71-74 | Minimized is what the last minimize or restore event set, or as before when there was none |
| Sdl3Window.CloseIsSticky | Render/src/Platform/Window/SDL3/SDL3Window.cpp:77-80 | Should-close ends set iff it was set or some event was a quit or a close request for this window |
| Sdl3Window.FullScreenParity | Render/src/Platform/Window/SDL3/SDL3Window.cpp:81-88 | Fullscreen ends flipped iff the space presses are odd in number |
| Sdl3Window.TogglesIn | Render/src/Platform/Window/SDL3/SDL3Window.cpp:81-88 | The space presses among the events are at most the events |
| Sdl3Window.TwoPressesRestore | Render/src/Platform/Window/SDL3/SDL3Window.cpp:81-88 | Two presses restore the window and tell SDL about both changes |
| Sdl3Window.NoResizerNoResize | Render/src/Platform/Window/SDL3/SDL3Window.cpp:75-76 | Without a resizer no resize is forwarded |
| Sdl3Window.MinimizedSwallowsResizes | Render/src/Platform/Window/SDL3/SDL3Window.cpp:75-76 | A minimized window forwards no resize until a restore event |
| Sdl3Window.ResizeIsForwarded | Render/src/Platform/Window/SDL3/SDL3Window.cpp:75-76 | A visible window with a resizer forwards a resize as its 32-bit unsigned size |
| Sdl3Window.SizeIsFixed | Render/src/Platform/Window/SDL3/SDL3Window.cpp:25-33 | Width and height read back their constructor values whatever the events |
| Win32Window.NewWindow | Render/src/Win32Window.cpp:5-7 | A new window keeps its size and has no flag set and no resizer |
| Win32Window.ConnectResizer | Render/src/Win32Window.cpp:85-88 | Connecting turns forwarding on and changes nothing else |
| Win32Window.ApplyWindowResize | Render/src/Win32Window.cpp:112-120 | A resize goes to the resizer iff one is connected |
| Win32Window.ResizeDeliversClientSize | Render/src/Win32Window.cpp:112-120 | When the old and new outer rectangles have the same borders, the resizer receives exactly the new client size |
| Win32Window.WindowResizer | Render/src/Win32Window.cpp:122-171 | With no window attached only the default procedure runs. Otherwise the window stays attached, and before the default procedure, which always runs last, there are only resizes and reads through `lParam` |
| Win32Window.Handle | Render/src/Win32Window.cpp:129-166 | No message changes the stored size, the maximized flag or the resizer. A `WM_SIZE` maximize reads a rectangle at the address `lParam`, resizer or not, and so does a restore of a window flagged maximized. Only `WM_SIZE` makes such a read, and `WM_SIZING` resizes from the rectangle it points to |
| Win32Window.CloseSetsShouldClose | Render/src/Win32Window.cpp:131-134 | Close and quit set should-close and change nothing else |
| Win32Window.MinimizeAndRestore | Render/src/Win32Window.cpp:139-158 | A minimize sets minimized and a restore clears it |
| Win32Window.MaximizedNeverSet | Render/src/Win32Window.cpp:122-171 | No message sets maximized or changes the stored size |
| Win32Window.RestoreNeverResizes | Render/src/Win32Window.cpp:149-158 | On a constructed window a restore never forwards a resize, whatever came before |
| Win32Window.SizingForwardsSize | Render/src/Win32Window.cpp:162-166 | A `WM_SIZING` message forwards the new client size when the borders match |
| Win32Window.ClientSizeOf | Render/src/Win32Window.cpp:144-158 | The width and height a `WM_SIZE` message packs in `lParam` each fit in a word |
| Win32Window.ClientSizeRoundTrip | Render/src/Win32Window.cpp:144-158 | Packing a client size that fits in words and reading it back gives the same size |
| Win32Window.MaximizeReadsSizeAsPointer | Render/src/Win32Window.cpp:144-148 | Maximizing to 1920 x 1017 makes the procedure read a rectangle at address 0x03F90780 |
| Win32Window.HandleCorrected | Render/src/Win32Window.cpp:135-161 | With `WM_SIZE` read correctly, a maximize forwards the packed client size when a resizer is connected. Nothing is forwarded without a resizer, there are only resizes, and every other message is handled as in the source |
| Win32Window.CorrectedMaximizeForwardsSize | Render/src/Win32Window.cpp:144-148 | In the corrected procedure, maximizing to a size that fits in words forwards exactly that size |
| CmdArg.FirstToken | TargetView/src/target.cpp:40 | The token is the maximal run of non-space characters after the leading white space |
| CmdArg.FirstTokenOfWord | TargetView/src/target.cpp:40 | White space, a word, then white space or the end, reads as that word |
| CmdArg.RemoveQuotes | TargetView/src/target.cpp:41-44 | The result has no double quote and is no longer than the input |
| CmdArg.RemoveQuotesKeepsUnquoted | TargetView/src/target.cpp:41-44 | A string without quotes is left as it is |
| CmdArg.RemoveQuotesIdempotent | TargetView/src/target.cpp:41-44 | Removing quotes twice is removing them once |
| CmdArg.EraseQuotes | TargetView/src/target.cpp:41-44 | The find-and-erase loop leaves the string with every quote removed and the other characters in order |
| CmdArg.ReadCmdArg | TargetView/src/target.cpp:37-45 | The output is the first token with its quotes erased, so it has no quote and no white space |
| CmdArg.QuotedPathIsUnquoted | TargetView/src/target.cpp:37-45 | A quoted program path followed by arguments is cleaned to the bare path |
| CmdArg.QuotedSpaceIsCut | TargetView/src/target.cpp:37-45 | A quoted path containing a space is cut at the space, because tokenising comes before quote removal |
| CmdArg.BlankLineGivesEmpty | TargetView/src/target.cpp:37-45 | A command line of white space gives the empty string |
| CmdArg.CleanArgIdempotent | TargetView/src/target.cpp:37-45 | Cleaning an already cleaned argument gives it back |
| CmdArg.InstalledPathIsCut | TargetView/src/target.cpp:37-45 | A program under `C:\Program Files` is read as `C:\Program` |
| CmdArg.QuotedArgument | TargetView/src/target.cpp:37-45 | The quote-aware argument has no quote and is no longer than its input |
| CmdArg.QuotedArgumentInside | TargetView/src/target.cpp:37-45 | Inside quotes, white space is kept up to the closing quote |
| CmdArg.QuotedPathIsKept | TargetView/src/target.cpp:37-45 | With quoting honoured, a quoted path followed by arguments is read whole, white space included |
| CmdArg.UnquotedWordAgrees | TargetView/src/target.cpp:37-45 | A word without quote or white space is read the same with quoting honoured |
| CmdArg.ProgramPathAgreesUnquoted | TargetView/src/target.cpp:37-45 | On a first token without quotes, the corrected reading and the source's agree |
| CmdArg.InstalledPathIsKept | TargetView/src/target.cpp:37-45 | The corrected reading keeps `C:\Program Files\Render.exe` whole |
| PngImage.RawImage | Utils/src/PNGImage.cpp:17-24 | The image is 4-channel with the given size. It copies the first `4*w*h` bytes of the buffer, with that product taken in 32-bit arithmetic |
| PngImage.RawImageWrapsAround | Utils/src/PNGImage.cpp:22-23 | At 0x8000 x 0x8000 the product wraps to 0, so the image holds no data and is not well-formed |
| PngImage.RawImageExact | Utils/src/PNGImage.cpp:17-24 | With the product in full, the image is well-formed and holds the buffer's bytes |
| PngImage.RawImageAgreesWhenSmall | Utils/src/PNGImage.cpp:17-24 | While `4*w*h` fits in 32 bits, the constructor as written and the corrected one agree |
| PngImage.CheckSignature | Utils/src/PNGImage.cpp:100-105 | The check passes iff the first eight bytes are the PNG signature, and then the rest follows. Otherwise the "not a PNG" assertion fails |
| PngImage.ColorTypeCodeRoundTrip | Utils/src/PNGImage.cpp:107-129 | Each colour type reads back from libpng's code for it |
| PngImage.ExpandPixel | Utils/src/PNGImage.cpp:107-129 | RGBA is kept, RGB gets an opaque alpha, and grey is replicated with an opaque alpha. Any other colour type fails the expansion assertion |
| PngImage.RowsInBoundsWhenSmall | Utils/src/PNGImage.cpp:143-151 | While `4*w*h` fits in 32 bits, the allocation is the whole image and every row pointer's row ends inside it |
| PngImage.RowPastAllocation | Utils/src/PNGImage.cpp:143-151 | Once `4*w*h` wraps, some row starts below 2^32 but ends at or past 2^32, beyond the wrapped allocation |
| PngImage.RowsInBoundsIff | Utils/src/PNGImage.cpp:143-151 | Every row the source points at stays inside the allocation iff `4*w*h` does not wrap |
| PngImage.DecodeAsWritten | Utils/src/PNGImage.cpp:137-156 | The source's decode: an unexpandable colour type fails the assertion; otherwise it succeeds iff every 32-bit row pointer's row lies inside the 32-bit allocation, and writes out of bounds when one does not. A result holds the allocated byte count |
| PngImage.DecodeWrapsAround | Utils/src/PNGImage.cpp:143-151 | At 0x8000 x 0x8000 the allocation wraps to 0 while row 1 starts at byte 0x20000, and decoding writes out of bounds |
| PngImage.DecodeContents | Utils/src/PNGImage.cpp:131-156 | The corrected decode, with the byte count and row offsets in full: it succeeds iff the colour type can be expanded, and then gives a well-formed 4-channel image of the PNG's size |
| PngImage.DecodeAgreesWhenSmall | Utils/src/PNGImage.cpp:137-156 | While `4*w*h` fits in 32 bits, the source's decode and the corrected one give the same result, and the 32-bit row offsets equal the exact ones |
| PngImage.RowsTile | Utils/src/PNGImage.cpp:147-152 | With exact row offsets, row 0 starts at 0, each row begins where the previous one ends, and the last row ends at `4*w*h` |
| PngImage.ByteInOneRow | Utils/src/PNGImage.cpp:147-153 | With exact row offsets, every byte of the image lies in exactly one row |
| PngImage.DecodedPixelAt | Utils/src/PNGImage.cpp:147-156 | In the corrected decode, the byte at row y, column x, channel k is channel k of the expanded source pixel (x, y) |
| PngImage.LoadFromMemory | Utils/src/PNGImage.cpp:55-77 | A buffer without the signature fails the assertion. Loading succeeds iff the signature matches and the colour type can be expanded, and a loaded image is 4-channel and well-formed. It decodes with the corrected `DecodeContents` |
| PngImage.LoadResumesAfterSignature | Utils/src/PNGImage.cpp:55-77 | Loading a signed buffer decodes exactly what follows the signature |

## Left out

- The native API calls. These include the Vulkan, D3D12, DXGI, SDL3 and Win32 objects, device creation, swap chains, pipeline objects, command lists and descriptor heaps. The model keeps what decides their arguments and their order.
- `Compiler::SetBaseEntry` and `Compiler::SetBuildMode` are not modelled. They are plain assignments with no validation; the model's compiler carries `baseEntry` and `debugMode` as fields.
- The builtin-function table contains duplicates. It is modelled as a set, which gives the same membership.
- The `CSOCompiler` base-class constructor with the extension arguments is not part of this model. It is taken to validate the HLSL level, store the `.cso` and `.d3d12` extensions and leave the Vulkan level at its default.
- File reading is not modelled: `ReadShaderSource`, `std::ifstream` and the JSON parser. Files are a map from path to blob, and manifests are a datatype, so unparsable JSON is not modelled.
- ApplicationStarter.Start: the configuration is the JSON value the file parsed to. A file `Json::Reader` cannot parse is not modelled. A number's rendering by `asString` is carried as text rather than computed.
- CsoCompiler.CsoStage: `CSOCompiler.cpp` uses `m_ArgList`, `m_BackendExtension` and `m_GraphicsAPIExtension`, which `Compiler.hpp` does not declare, so it was written against a `Compiler` revision that is not part of this model. The model calls the `CompileStage` of `Compiler.cpp:481-559`, which builds its own DXC arguments. `m_ArgList` is therefore kept and cleared but never reaches DXC.
- The entry checks of a packed build are evaluated once and passed to every stage. The source re-evaluates them per stage, but they are deterministic in the base entry and stage name, so the result is the same.
- Files.ParentPath: Windows root names (`C:`) and UNC prefixes are not treated specially. Only `/`, plus `\` on Windows, separate components.
- Release builds compile `assert` out. The model takes the debug behaviour, where the assert fires. In release, `FindMemoryType` would return 0xffffffff and `ShaderDataTypeSize` would return 0.
- Several source enumerations are kept abstract or left out, because no computation in the modelled code depends on them:
  - the `BufferType` enumerators beyond the invalid one;
  - mip levels;
  - PNG bit depths other than 8;
  - interlacing.
- Floating-point pipeline state is not modelled: viewport depths, clear colour, line width, blend constants, LOD bias and depth bias.
- D3D12Shader.RootSignatureBindings: the descriptor-table size of `ROOT_PARAMETER1` is taken to be that of `ROOT_PARAMETER`, so `NumParameters` is 2.
- VkBuffer: a new buffer's contents are modelled as zeros. Vulkan leaves them undefined, and no modelled step reads them before the copy overwrites them.
- VkBuffer.CreateBufferEvent: `FindMemoryType` is not called by `CreateBuffer`, which lets the allocator choose the memory. The two are modelled separately.
- `Render/src/Platform/Graphics/VK/VKBuffer.cpp` is the only buffer implementation modelled. The generic `Buffer.cpp` stride and the older `Render/src/LayerStack` are not part of this model.
- VkShader.BuildVkShader: when `PushShader` returns early, the constructor pushes a stage description that was never initialised. The model gives such a slot no value (`None`) rather than inventing its contents.
- D3D12Context.WaitForFence: the 30-second event wait and the `Sleep` polling are not modelled. Completion is an abstract counter that the wait raises to its target.
- D3D12Context: the 64-bit fence counter is a `nat` and does not wrap, since 2^64 signals are out of reach.
- D3D12Context: `ClearFrameBuffer`, `Present`, `StageViewportAndScissors`, `GetGPUName` and `SetClearColor` are not modelled. They only forward values to the command list or the swap chain.
- D3D12Context.ReceiveCommands: a barrier from a state the buffer is not in is undefined behaviour in D3D12. It is modelled as a refusal (`None`).
- Win32Window.WindowResizer: memory is not modelled. A `WM_SIZING` rectangle, which `lParam` really points to, is an input. A `WM_SIZE` read through `lParam` is recorded as a `ReadRectAt` call, not evaluated (see Findings).
- Win32Window: `Update` handles one message per `PeekMessage`. The model's `Run` folds a sequence of messages, one call at a time.
- LayerStack: the header for `Render/src/Core/LayerStack.cpp` is not part of this model. The insertion index is modelled as an `int`, so its underflow shows.
- CmdArg.ReadCmdArg: the failure state of the `istringstream` is not modelled. A blank line gives the empty string.
- UniformsLayout.NewSmallBufferElement and UniformsLayout.NewUniformElement require a positive attachment, because the source divides by it and a zero divisor is undefined behaviour.
- PngImage.CheckSignature requires at least eight bytes, because the source copies eight bytes out of the buffer unconditionally.
- PngImage.LoadFromMemory: libpng's inflate is a function parameter, and its own error paths (`longjmp`) are not modelled. It decodes with the corrected `DecodeContents`; the source's wrapped allocation is `PngImage.DecodeAsWritten` (see Findings).

## Findings

| source | as written | input that shows it | evidently intended | confidence | as-written member | corrected member |
|---|---|---|---|---|---|---|
| ShaderManager/src/Compiler.cpp:392 | The base compiler writes `BinShaders[stage]` as a bare file-name string. Both loaders index `BinShaders[stage]["filename"]`, so they fail on it (VKShader.cpp:157, D3D12Shader.cpp:215) | any `dir/stem.hlsl` built by `Compiler::CompilePackedShader`, then loaded as a Vulkan shader | nest the name under `"filename"`, as CSOCompiler.cpp:44 does | not executed | Compiler.AsWrittenManifestIsUnreadable | Compiler.CorrectedManifestNamesBlobs |
| Utils/src/PNGImage.cpp:22-23 | The raw-buffer constructor computes the byte count `4 * width * height` in 32-bit unsigned arithmetic, which wraps | width = height = 0x8000: the count wraps to 0 and the image holds no pixels | compute the count without wrapping | not executed | PngImage.RawImageWrapsAround | PngImage.RawImageExact |
| Utils/src/PNGImage.cpp:143-151 | `SetPNGMembers` allocates `m_Width * m_Height * m_Channels` bytes in 32-bit arithmetic, and `LoadPNGImage` points row i at `i * m_Width * m_Channels`, also in 32 bits. `png_read_image` then writes `4*w` bytes through every row pointer | width = height = 0x8000: the allocation wraps to 0 bytes and row 1 starts at byte 0x20000, so every row is written out of bounds | compute the size and the offsets in `size_t` | not executed | PngImage.DecodeWrapsAround | PngImage.DecodeContents |
| Render/src/Win32Window.cpp:146 | On `WM_SIZE` with `SIZE_MAXIMIZED`, and at line 155 on a restore of a window flagged maximized, the procedure casts `lParam` to a `RECT` pointer and `ApplyWindowResize` dereferences it. For `WM_SIZE`, `lParam` is the client size, with the width in the low word and the height in the high word | a maximize to a 1920 x 1017 client area: `lParam` is 0x03F90780, and the procedure reads a rectangle at that address | forward `LOWORD(lParam)` and `HIWORD(lParam)` | not executed | Win32Window.MaximizeReadsSizeAsPointer | Win32Window.CorrectedMaximizeForwardsSize |
| TargetView/src/target.cpp:39-44 | `ReadCmdArg` cuts the command line at the first white space and only then erases quotes. So a quoted program path that contains a space loses everything after the space | `"C:\Program Files\Render.exe"` gives `C:\Program` | read the quoted path whole, as Windows quotes it | not executed | CmdArg.InstalledPathIsCut | CmdArg.InstalledPathIsKept |

=== FILE: application_starter.dfy ===
/**
 * Start-up configuration: which graphics API the application runs on, read
 * from a JSON file that is created, or repaired, with the Vulkan default.
 * The file's existence and the document it parses to are inputs; the rewrite, if
 * any, is an output.
 */
module ApplicationStarter {
  import opened Wrappers
  import opened Errors

  /** The graphics APIs a configuration can name. */
  datatype GraphicsApi = VulkanApi | D3D12Api

  const ApiKey := "GraphicsAPI"
  const VulkanName := "SAMPLE_RENDER_GRAPHICS_API_VK"
  const D3D12Name := "SAMPLE_RENDER_GRAPHICS_API_D3D12"

  /** The configuration name of an API. */
  function ApiName(api: GraphicsApi): string {
    match api
    case VulkanApi => VulkanName
    case D3D12Api => D3D12Name
  }

  /** The names the configuration may hold: Direct3D 12 only in a Windows build. */
  function ApiMapper(windows: bool): (m: map<string, GraphicsApi>)
    ensures VulkanName in m && m[VulkanName] == VulkanApi
    ensures D3D12Name in m <==> windows
    ensures windows ==> m[D3D12Name] == D3D12Api
    ensures forall name :: name in m ==> name == VulkanName || name == D3D12Name
  {
    if windows then map[VulkanName := VulkanApi, D3D12Name := D3D12Api]
    else map[VulkanName := VulkanApi]
  }

  /** A parsed JSON value as jsoncpp holds it; a number carries the text `asString` renders it as. */
  datatype Json =
    | JNull
    | JBool(b: bool)
    | JNumber(text: string)
    | JString(s: string)
    | JArray(items: seq<Json>)
    | JObject(members: map<string, Json>)

  /** The values a non-const `operator[](key)` accepts: null, which it turns into an empty object, and objects. */
  predicate Indexable(v: Json) {
    v.JNull? || v.JObject?
  }

  /** The member `operator[](key)` reaches: one that is absent is created as null. */
  function MemberOf(v: Json, key: string): Json
    requires Indexable(v)
  {
    if v.JObject? && key in v.members then v.members[key] else JNull
  }

  /** `v[key] = value` on an indexable value: null becomes an object, and the other members stay. */
  function WithMember(v: Json, key: string, value: Json): (r: Json)
    requires Indexable(v)
    ensures r.JObject? && key in r.members && r.members[key] == value
    ensures forall k :: k != key ==> (k in r.members <==> v.JObject? && k in v.members)
    ensures v.JObject? ==> forall k :: k in v.members && k != key ==> r.members[k] == v.members[k]
  {
    match v
    case JObject(m) => JObject(m[key := value])
    case _ => JObject(map[key := value])
  }

  /** The values `asString` converts: all but arrays and objects. */
  predicate Convertible(v: Json) {
    !v.JArray? && !v.JObject?
  }

  /** `asString()`: null reads as the empty string, booleans as `true`/`false`, and arrays and objects throw. */
  function AsString(v: Json): (r: Result<string, Error>)
    ensures r.Ok? <==> Convertible(v)
    ensures r.Err? ==> r.error == JsonNotConvertibleToString
    ensures v.JString? ==> r == Ok(v.s)
    ensures v.JNull? ==> r == Ok("")
  {
    match v
    case JNull => Ok("")
    case JBool(b) => Ok(if b then "true" else "false")
    case JNumber(text) => Ok(text)
    case JString(s) => Ok(s)
    case _ => Err(JsonNotConvertibleToString)
  }

  /** A document from which `m_Starter["GraphicsAPI"].asString()` returns without throwing. */
  predicate Readable(root: Json) {
    Indexable(root) && Convertible(MemberOf(root, ApiKey))
  }

  /** What `m_Starter["GraphicsAPI"].asString()` returns on a readable document. */
  function ConfiguredName(root: Json): string
    requires Readable(root)
  {
    AsString(MemberOf(root, ApiKey)).value
  }

  /** The document the start-up writes when it falls back to Vulkan, starting from `root`. */
  function VulkanDocument(root: Json): Json
    requires Indexable(root)
  {
    WithMember(root, ApiKey, JString(VulkanName))
  }

  /** The API chosen and the document written back, if one is. */
  datatype Startup = Startup(api: GraphicsApi, rewrite: Option<Json>)

  /**
   * `ApplicationStarter(jsonFilepath)`: a missing file is created naming
   * Vulkan; otherwise `root` is what the file parsed to. A root that is
   * neither null nor an object, or an API member that is an array or an
   * object, throws out of the constructor. A known name is used as it is
   * and nothing is written; any other name, or none, falls back to Vulkan,
   * and the document is written back with that name and its other members
   * kept.
   */
  function Start(fileExists: bool, root: Json, windows: bool): (r: Result<Startup, Error>)
    ensures r.Ok? <==> !fileExists || Readable(root)
    ensures fileExists && !Indexable(root) ==> r == Err(JsonNotAnObject)
    ensures fileExists && Indexable(root) && !Readable(root) ==> r == Err(JsonNotConvertibleToString)
    ensures !fileExists ==> r == Ok(Startup(VulkanApi, Some(JObject(map[ApiKey := JString(VulkanName)]))))
    ensures r.Ok? ==> (r.value.rewrite.None? <==> fileExists && ConfiguredName(root) in ApiMapper(windows))
    ensures r.Ok? && r.value.rewrite.None? ==> r.value.api == ApiMapper(windows)[ConfiguredName(root)]
    ensures r.Ok? && r.value.rewrite.Some? ==>
              && r.value.api == VulkanApi
              && r.value.rewrite.value.JObject? && ApiKey in r.value.rewrite.value.members
              && r.value.rewrite.value.members[ApiKey] == JString(VulkanName)
    ensures fileExists && root.JObject? && r.Ok? && r.value.rewrite.Some? ==>
              forall k :: k in root.members && k != ApiKey ==>
                k in r.value.rewrite.value.members && r.value.rewrite.value.members[k] == root.members[k]
    ensures r.Ok? && r.value.api == D3D12Api ==> windows && fileExists && ConfiguredName(root) == D3D12Name
  {
    if !fileExists then Ok(Startup(VulkanApi, Some(VulkanDocument(JNull))))
    else if !Indexable(root) then Err(JsonNotAnObject)
    else
      var name :- AsString(MemberOf(root, ApiKey));
      if name in ApiMapper(windows) then Ok(Startup(ApiMapper(windows)[name], None))
      else Ok(Startup(VulkanApi, Some(VulkanDocument(root))))
  }

  /** Every API the build supports is named by its own configuration name. */
  lemma ApiNameRoundTrip(api: GraphicsApi, windows: bool)
    requires api == VulkanApi || windows
    ensures ApiName(api) in ApiMapper(windows) && ApiMapper(windows)[ApiName(api)] == api
  {
  }

  /** A file naming a supported API starts that API and is left alone. */
  lemma NamedApiIsKept(api: GraphicsApi, root: Json, windows: bool)
    requires api == VulkanApi || windows
    requires root.JObject? && ApiKey in root.members && root.members[ApiKey] == JString(ApiName(api))
    ensures Start(true, root, windows) == Ok(Startup(api, None))
  {
    ApiNameRoundTrip(api, windows);
  }

  /** Whatever the start-up writes is read back, the next time, as the same API with nothing to write. */
  lemma RewriteSettles(fileExists: bool, root: Json, windows: bool)
    requires Start(fileExists, root, windows).Ok? && Start(fileExists, root, windows).value.rewrite.Some?
    ensures var r := Start(fileExists, root, windows).value;
            Start(true, r.rewrite.value, windows) == Ok(Startup(r.api, None))
  {
    var r := Start(fileExists, root, windows).value;
    NamedApiIsKept(VulkanApi, r.rewrite.value, windows);
  }

  /** A document whose API member is an array or an object never starts, and nothing is written. */
  lemma UnconvertibleMemberThrows(members: map<string, Json>, windows: bool)
    requires ApiKey in members && (members[ApiKey].JArray? || members[ApiKey].JObject?)
    ensures Start(true, JObject(members), windows) == Err(JsonNotConvertibleToString)
  {
  }

  /** An absent member or one that reads as no known name, a boolean for instance, falls back to Vulkan. */
  lemma UnknownNameFallsBack(members: map<string, Json>, windows: bool)
    requires ApiKey !in members || members[ApiKey].JNull? || members[ApiKey].JBool?
    ensures Start(true, JObject(members), windows) == Ok(Startup(VulkanApi, Some(JObject(members[ApiKey := JString(VulkanName)]))))
  {
  }
}

=== FILE: buffer_layout.dfy ===
/**
 * A vertex buffer layout: named, typed elements placed one after the other,
 * each at the sum of the sizes before it, with the stride the total.
 * Offsets and the stride are `uint32_t` in the source and wrap at 2^32.
 */
module BufferLayout {
  import W = Wrappers
  import opened Errors
  import opened ShaderData
  import opened Bytes

  datatype BufferElement = BufferElement(name: string, dataType: ShaderDataType, size: nat, offset: nat, normalized: bool)

  /** The element the default constructor makes: no name, no type, size and offset 0. */
  const DefaultElement := BufferElement("", ShaderDataType.None, 0, 0, false)

  /** `BufferElement(type, name, normalized)`: the size comes from the type table; the offset waits for the layout. */
  function NewBufferElement(t: ShaderDataType, name: string, normalized: bool): (r: W.Result<BufferElement, Error>)
    ensures r.Ok? <==> t != ShaderDataType.None
    ensures r.Err? ==> r.error == AssertionFailure(UnknownTypeMessage)
    ensures r.Ok? ==> r.value.name == name && r.value.dataType == t && r.value.normalized == normalized
    ensures r.Ok? ==> r.value.offset == 0 && 1 <= r.value.size <= 64
  {
    var size :- ShaderDataTypeSize(t);
    W.Ok(BufferElement(name, t, size, 0, normalized))
  }

  /** An element as its type says it should be: sized by the type table. */
  predicate Sized(e: BufferElement) {
    e.dataType != ShaderDataType.None && e.size == ShaderDataTypeSize(e.dataType).value
  }

  datatype BufferLayout = BufferLayout(elements: seq<BufferElement>, stride: nat)

  /** The default layout: no elements, stride 0. */
  const EmptyLayout := BufferLayout([], 0)

  /** The sum of the sizes of the first `i` elements, without wrap-around. */
  function SizeBefore(es: seq<BufferElement>, i: nat): nat
    requires i <= |es|
  {
    if i == 0 then 0 else SizeBefore(es, i - 1) + es[i - 1].size
  }

  /** The total size of a sequence of elements. */
  function TotalSize(es: seq<BufferElement>): nat {
    SizeBefore(es, |es|)
  }

  /**
   * The loop of `CalculateOffsetsAndStride` from a running 32-bit offset:
   * each element gets the offset, which then grows by its size. The stride
   * grows by the same sizes from the same start, so it ends equal to the
   * offset.
   */
  function Place(es: seq<BufferElement>, offset: nat): (r: (seq<BufferElement>, nat))
    ensures |r.0| == |es|
    decreases |es|
  {
    if |es| == 0 then ([], offset)
    else
      var (rest, end) := Place(es[1..], (offset + es[0].size) % U32);
      ([es[0].(offset := offset)] + rest, end)
  }

  /** One step of the running offset, seen from the start: adding after a 32-bit wrap-around is adding before it. */
  lemma WrapStep(offset: nat, head: nat, tail: nat)
    ensures ((offset + head) % U32 + tail) % U32 == (offset + (head + tail)) % U32
  {
  }

  /** Sums over a tail are sums over the whole minus its head. */
  lemma {:induction false} SizeBeforeTail(es: seq<BufferElement>, i: nat)
    requires 0 < |es| && i < |es|
    ensures es[0].size + SizeBefore(es[1..], i) == SizeBefore(es, i + 1)
  {
    if i > 0 {
      SizeBeforeTail(es, i - 1);
      assert es[1..][i - 1] == es[i];
    }
  }

  /** The loop places element `i` at the running start plus the sizes before it, wrapped. */
  lemma {:induction false} PlaceAt(es: seq<BufferElement>, offset: nat, i: nat)
    requires offset < U32 && i < |es|
    ensures Place(es, offset).0[i] == es[i].(offset := (offset + SizeBefore(es, i)) % U32)
    decreases |es|
  {
    if i > 0 {
      var next := (offset + es[0].size) % U32;
      PlaceAt(es[1..], next, i - 1);
      assert Place(es, offset).0[i] == Place(es[1..], next).0[i - 1];
      assert es[1..][i - 1] == es[i];
      SizeBeforeTail(es, i - 1);
      WrapStep(offset, es[0].size, SizeBefore(es[1..], i - 1));
    }
  }

  /** The running offset ends at the start plus the total, wrapped. */
  lemma {:induction false} PlaceEnd(es: seq<BufferElement>, offset: nat)
    requires offset < U32
    ensures Place(es, offset).1 == (offset + TotalSize(es)) % U32
    decreases |es|
  {
    if |es| > 0 {
      var next := (offset + es[0].size) % U32;
      PlaceEnd(es[1..], next);
      SizeBeforeTail(es, |es| - 1);
      WrapStep(offset, es[0].size, TotalSize(es[1..]));
    }
  }

  /**
   * `BufferLayout(elements)`, from an initializer list or a vector alike:
   * the elements keep their order, names, types, sizes and flags; element
   * `i` is placed at the wrapped sum of the sizes before it, and the stride
   * is the wrapped total.
   */
  function NewBufferLayout(es: seq<BufferElement>): (l: BufferLayout)
    ensures |l.elements| == |es|
    ensures forall i :: 0 <= i < |es| ==> l.elements[i] == es[i].(offset := SizeBefore(es, i) % U32)
    ensures l.stride == TotalSize(es) % U32
    ensures |es| == 0 ==> l == EmptyLayout
  {
    PlaceEnd(es, 0);
    forall i | 0 <= i < |es|
      ensures Place(es, 0).0[i] == es[i].(offset := SizeBefore(es, i) % U32)
    {
      PlaceAt(es, 0, i);
    }
    var (placed, end) := Place(es, 0);
    BufferLayout(placed, end)
  }

  /** The sums before each element only grow. */
  lemma {:induction false} SizeBeforeMonotone(es: seq<BufferElement>, i: nat, j: nat)
    requires i <= j <= |es|
    ensures i < j ==> SizeBefore(es, i) + es[i].size <= SizeBefore(es, j)
    ensures SizeBefore(es, i) <= SizeBefore(es, j)
    decreases j - i
  {
    if i < j {
      SizeBeforeMonotone(es, i, j - 1);
    }
  }

  /** Below 2^32 in total nothing wraps: offsets are the exact sums, the stride the exact total. */
  lemma ExactWhenSmall(es: seq<BufferElement>, i: nat)
    requires TotalSize(es) < U32 && i < |es|
    ensures NewBufferLayout(es).elements[i].offset == SizeBefore(es, i)
    ensures NewBufferLayout(es).stride == TotalSize(es)
  {
    SizeBeforeMonotone(es, i, |es|);
    var l := NewBufferLayout(es);
    assert l.elements[i] == es[i].(offset := SizeBefore(es, i) % U32);
    assert SizeBefore(es, i) % U32 == SizeBefore(es, i);
  }

  /** Below 2^32 in total the stride is where the last element ends. */
  lemma StrideIsEndOfLast(es: seq<BufferElement>)
    requires TotalSize(es) < U32 && |es| > 0
    ensures var l := NewBufferLayout(es);
            l.stride == l.elements[|es| - 1].offset + l.elements[|es| - 1].size
  {
    ExactWhenSmall(es, |es| - 1);
  }

  /**
   * When every element is sized by its type, every size is at least one
   * byte, so below 2^32 in total offsets strictly increase.
   */
  lemma OffsetsStrictlyIncrease(es: seq<BufferElement>, i: nat, j: nat)
    requires TotalSize(es) < U32 && forall k :: 0 <= k < |es| ==> Sized(es[k])
    requires i < j < |es|
    ensures NewBufferLayout(es).elements[i].offset < NewBufferLayout(es).elements[j].offset
  {
    ExactWhenSmall(es, i);
    ExactWhenSmall(es, j);
    assert Sized(es[i]);
    SizeBeforeMonotone(es, i, j);
  }
}

=== FILE: compiler.dfy ===
/**
 * The HLSL shader compiler front end (`Compiler`): feature-level validation,
 * shader path registration, entry-point name checks, the DXC argument list
 * and the packed build that writes one blob per stage plus a JSON manifest.
 * DXC itself is an input: the set of output paths for which it produces an
 * empty blob.
 */
module Compiler {
  import opened Wrappers
  import opened Errors
  import opened Text
  import opened Files

  datatype HLSLBackend = CSO | SPV

  /** The extension of a compiled stage blob. */
  function BinaryExtension(backend: HLSLBackend): string {
    match backend
    case CSO => ".cso"
    case SPV => ".spv"
  }

  /** The graphics API tag of the manifest file name. */
  function ApiExtension(backend: HLSLBackend): string {
    match backend
    case CSO => ".d3d12"
    case SPV => ".vk"
  }

  /** The stages every packed shader is built for, in build order. */
  const PackedStages: seq<string> := ["vs", "ps"]

  /** The accepted shader-model versions `_6_0` … `_6_8`. */
  const ValidHlsl: seq<(nat, nat)> := [(6, 0), (6, 1), (6, 2), (6, 3), (6, 4), (6, 5), (6, 6), (6, 7), (6, 8)]

  /** The accepted Vulkan target environments `1.0` … `1.3`. */
  const ValidVulkan: seq<(nat, nat)> := [(1, 0), (1, 1), (1, 2), (1, 3)]

  /** The HLSL keywords the keyword table flags `true`: types that take a size suffix (`float4`, `int2x3`). */
  const SizedKeywords: set<string> := {
    "bool", "double", "float", "half", "int", "min16float", "min10float", "min16int",
    "min12int", "min16uint", "uint"
  }

  /** The HLSL keywords the keyword table flags `false`. */
  const PlainKeywords: set<string> := {
    "AppendStructuredBuffer", "BlendState", "break", "Buffer", "ByteAddressBuffer",
    "case", "cbuffer", "centroid", "class", "column_major", "compile", "CompileShader",
    "const", "continue", "ConsumeStructuredBuffer", "default", "DepthStencilState",
    "discard", "do", "else", "export", "extern", "false", "for", "GeometryShader",
    "groupshared", "if", "in", "inline", "inout", "InputPatch", "interface",
    "line", "lineadj", "linear", "LineStream", "matrix", "namespace", "nointerpolation",
    "noperspective", "NULL", "out", "OutputPatch", "packoffset", "pass", "PixelShader",
    "point", "PointStream", "precise", "RasterizerState", "return", "register",
    "row_major", "RWBuffer", "RWByteAddressBuffer", "RWStructuredBuffer", "RWTexture1D",
    "RWTexture1DArray", "RWTexture2D", "RWTexture2DArray", "RWTexture3D", "sample",
    "sampler", "SamplerState", "SamplerComparisonState", "shared", "snorm", "static",
    "string", "struct", "switch", "StructuredBuffer", "tbuffer", "technique",
    "technique10", "technique11", "texture", "Texture1D", "Texture1DArray", "Texture2D",
    "Texture2DArray", "Texture2DMS", "Texture2DMSArray", "Texture3D", "TextureCube",
    "TextureCubeArray", "true", "typedef", "triangle", "triangleadj", "TriangleStream",
    "uniform", "unorm", "unsigned", "vector", "VertexShader", "void", "volatile",
    "while"
  }

  /** The system-value semantics the table flags `true`: those used with an index (`SV_TARGET0`). */
  const IndexedSysValues: set<string> := {
    "CLIPDISTANCE", "CULLDISTANCE", "TARGET"
  }

  /** The system-value semantics the table flags `false`. */
  const PlainSysValues: set<string> := {
    "COVERAGE", "DEPTH", "DEPTHGREATEREQUAL", "DEPTHLESSEQUAL", "DISPATCHTHREADID",
    "DOMAINLOCATION", "GROUPID", "GROUPINDEX", "GROUPTHREADID", "GSINSTANCEID",
    "INNERCOVERAGE", "INSIDETESSFACTOR", "INSTANCEID", "ISFRONTFACE", "OUTPUTCONTROLPOINTID",
    "POSITION", "PRIMITIVEID", "RENDERTARGETARRAYINDEX", "SAMPLEINDEX", "STENCILREF",
    "TESSFACTOR", "VERTEXID", "VIEWPORTARRAYINDEX", "SHADINGRATE"
  }

  /** The keyword table's entry for `name`: its flag, or None when `name` is not a keyword. */
  function KeywordFlag(name: string): Option<bool> {
    if name in SizedKeywords then Some(true) else if name in PlainKeywords then Some(false) else None
  }

  /** The system-value table's entry for `word`. */
  function SysValueFlag(word: string): Option<bool> {
    if word in IndexedSysValues then Some(true) else if word in PlainSysValues then Some(false) else None
  }

  /** HLSL intrinsic function names; the source's list repeats a few, which does not change membership. */
  const BuiltinFunctions: set<string> := {
    "abort", "abs", "acos", "all", "AllMemoryBarrier", "AllMemoryBarrierWithGroupSync",
    "any", "asdouble", "asfloat", "asin", "asint", "asuint", "asuint", "atan",
    "atan2", "ceil", "CheckAccessFullyMapped", "clamp", "clip", "cos", "cosh",
    "countbits", "cross", "D3DCOLORtoUBYTE4", "ddx", "ddx_coarse", "ddx_fine",
    "ddy", "ddy_coarse", "ddy_fine", "degrees", "determinant", "DeviceMemoryBarrier",
    "DeviceMemoryBarrierWithGroupSync", "distance", "dot", "dst", "errorf", "EvaluateAttributeCentroid",
    "EvaluateAttributeAtSample", "EvaluateAttributeSnapped", "exp", "exp2", "f16tof32",
    "f32tof16", "faceforward", "firstbithigh", "firstbitlow", "floor", "fma",
    "fmod", "frac", "frexp", "fwidth", "GetRenderTargetSampleCount", "GetRenderTargetSamplePosition",
    "GroupMemoryBarrier", "GroupMemoryBarrierWithGroupSync", "InterlockedAdd",
    "InterlockedAnd", "InterlockedCompareExchange", "InterlockedCompareStore",
    "InterlockedExchange", "InterlockedMax", "InterlockedMin", "InterlockedOr",
    "InterlockedXor", "isfinite", "isinf", "isnan", "ldexp", "length", "lerp",
    "lit", "log", "log10", "log2", "mad", "max", "min", "modf", "msad4", "mul",
    "noise", "normalize", "pow", "printf", "Process2DQuadTessFactorsAvg", "Process2DQuadTessFactorsMax",
    "Process2DQuadTessFactorsMin", "ProcessIsolineTessFactors", "ProcessQuadTessFactorsAvg",
    "ProcessQuadTessFactorsMax", "ProcessQuadTessFactorsMin", "ProcessTriTessFactorsAvg",
    "ProcessTriTessFactorsMax", "ProcessTriTessFactorsMin", "radians", "rcp",
    "reflect", "refract", "reversebits", "round", "rsqrt", "saturate", "sign",
    "sin", "sincos", "sinh", "smoothstep", "sqrt", "step", "tan", "tanh", "tex1D",
    "tex1D", "tex1Dbias", "tex1Dgrad", "tex1Dlod", "tex1Dproj", "tex2D", "tex2D",
    "tex2Dbias", "tex2Dgrad", "tex2Dlod", "tex2Dproj", "tex3D", "tex3D", "tex3Dbias",
    "tex3Dgrad", "tex3Dlod", "tex3Dproj", "texCUBE", "texCUBE", "texCUBEbias",
    "texCUBEgrad", "texCUBElod", "texCUBEproj", "transpose", "trunc"
  }

  datatype Compiler = Compiler(
    backend: HLSLBackend,
    baseEntry: string,
    hlslFeatureLevel: string,
    vulkanFeatureLevel: string,
    debugMode: bool,
    shaderFilepaths: seq<string>)

  // ---------------------------------------------------------------------
  // Feature levels
  // ---------------------------------------------------------------------

  /** `version` is `_<major>_<minor>` with both parts runs of digits: what `^_(\d+)_(\d+)$` matches. */
  ghost predicate HlslVersionShape(version: string, major: string, minor: string) {
    IsDigitRun(major) && IsDigitRun(minor) && version == "_" + major + "_" + minor
  }

  /** `version` is `<major>.<minor>` with both parts runs of digits: what `^(\d+)\.(\d+)$` matches. */
  ghost predicate VulkanVersionShape(version: string, major: string, minor: string) {
    IsDigitRun(major) && IsDigitRun(minor) && version == major + "." + minor
  }

  /**
   * Splits `s` at its first `sep` into two digit runs and reads them as
   * numbers. Reading into `uint32_t` saturates on overflow, which can never
   * land on a table entry, so unbounded numbers accept the same strings.
   */
  function ParseDigitPair(s: string, sep: char): Option<(nat, nat)> {
    var k := IndexOf(s, sep);
    if k < |s| && IsDigitRun(s[..k]) && IsDigitRun(s[k + 1..]) then
      Some((DecimalValue(s[..k]), DecimalValue(s[k + 1..])))
    else None
  }

  function ParseHlslVersion(version: string): Option<(nat, nat)> {
    if |version| > 0 && version[0] == '_' then ParseDigitPair(version[1..], '_') else None
  }

  function ParseVulkanVersion(version: string): Option<(nat, nat)> {
    ParseDigitPair(version, '.')
  }

  lemma DigitPairSplit(s: string, sep: char, major: string, minor: string)
    requires !IsDigit(sep)
    requires IsDigitRun(major) && IsDigitRun(minor) && s == major + [sep] + minor
    ensures ParseDigitPair(s, sep) == Some((DecimalValue(major), DecimalValue(minor)))
  {
    assert s[|major|] == sep;
    assert forall j :: 0 <= j < |major| ==> s[j] == major[j];
    assert IndexOf(s, sep) == |major|;
    assert s[..|major|] == major;
    assert s[|major| + 1..] == minor;
  }

  /** Every string of the pattern's shape parses to the numbers its digits spell. */
  lemma HlslVersionParseComplete(version: string, major: string, minor: string)
    requires HlslVersionShape(version, major, minor)
    ensures ParseHlslVersion(version) == Some((DecimalValue(major), DecimalValue(minor)))
  {
    assert version[1..] == major + ['_'] + minor;
    DigitPairSplit(version[1..], '_', major, minor);
  }

  /** Only strings of the pattern's shape parse. */
  lemma HlslVersionParseSound(version: string)
    requires ParseHlslVersion(version).Some?
    ensures exists major, minor :: HlslVersionShape(version, major, minor)
              && ParseHlslVersion(version) == Some((DecimalValue(major), DecimalValue(minor)))
  {
    var s := version[1..];
    var k := IndexOf(s, '_');
    assert version == "_" + s[..k] + "_" + s[k + 1..];
    assert HlslVersionShape(version, s[..k], s[k + 1..]);
  }

  lemma VulkanVersionParseComplete(version: string, major: string, minor: string)
    requires VulkanVersionShape(version, major, minor)
    ensures ParseVulkanVersion(version) == Some((DecimalValue(major), DecimalValue(minor)))
  {
    assert version == major + ['.'] + minor;
    DigitPairSplit(version, '.', major, minor);
  }

  lemma VulkanVersionParseSound(version: string)
    requires ParseVulkanVersion(version).Some?
    ensures exists major, minor :: VulkanVersionShape(version, major, minor)
              && ParseVulkanVersion(version) == Some((DecimalValue(major), DecimalValue(minor)))
  {
    var k := IndexOf(version, '.');
    assert version == version[..k] + "." + version[k + 1..];
    assert VulkanVersionShape(version, version[..k], version[k + 1..]);
  }

  const HlslPatternMessage := "The HLSL version must match the pattern \"^_(\\d+ )_(\\d+)$\""
  const VulkanPatternMessage := "The HLSL version must match the pattern \"^(\\d+)\\.(\\d+)$\""
  const UnknownVersionMessage := "The valid HLSL versions are: {}"

  /** `ValidateHLSLFeatureLevel`: a malformed string and an unknown version are told apart by the message. */
  function ValidateHlslFeatureLevel(version: string): (r: Result<(), Error>)
    ensures r.Err? ==> r.error.InvalidHLSLVersion?
    ensures r.Err? && ParseHlslVersion(version).None? ==> r.error.reason == HlslPatternMessage
    ensures r.Err? && ParseHlslVersion(version).Some? ==> r.error.reason == UnknownVersionMessage
  {
    match ParseHlslVersion(version)
    case None => Err(InvalidHLSLVersion(HlslPatternMessage))
    case Some(v) => if v in ValidHlsl then Ok(()) else Err(InvalidHLSLVersion(UnknownVersionMessage))
  }

  /** `ValidateVulkanFeatureLevel`; its messages still say "HLSL". */
  function ValidateVulkanFeatureLevel(version: string): (r: Result<(), Error>)
    ensures r.Err? ==> r.error.InvalidVulkanVersion?
    ensures r.Err? && ParseVulkanVersion(version).None? ==> r.error.reason == VulkanPatternMessage
    ensures r.Err? && ParseVulkanVersion(version).Some? ==> r.error.reason == UnknownVersionMessage
  {
    match ParseVulkanVersion(version)
    case None => Err(InvalidVulkanVersion(VulkanPatternMessage))
    case Some(v) => if v in ValidVulkan then Ok(()) else Err(InvalidVulkanVersion(UnknownVersionMessage))
  }

  /** The HLSL table spelled out: major 6, minor 0 to 8. */
  lemma ValidHlslSpelledOut(v: (nat, nat))
    ensures v in ValidHlsl <==> v.0 == 6 && v.1 <= 8
  {
    if v.0 == 6 && v.1 <= 8 {
      assert v == ValidHlsl[v.1];
    }
  }

  /** The Vulkan table spelled out: major 1, minor 0 to 3. */
  lemma ValidVulkanSpelledOut(v: (nat, nat))
    ensures v in ValidVulkan <==> v.0 == 1 && v.1 <= 3
  {
    if v.0 == 1 && v.1 <= 3 {
      assert v == ValidVulkan[v.1];
    }
  }

  /** An HLSL level is accepted exactly when it reads `_6_<m>` with `m <= 8`, leading zeros allowed. */
  lemma HlslFeatureLevelAcceptedIff(version: string)
    ensures ValidateHlslFeatureLevel(version).Ok? <==>
              exists major, minor :: HlslVersionShape(version, major, minor)
                && DecimalValue(major) == 6 && DecimalValue(minor) <= 8
  {
    var p := ParseHlslVersion(version);
    if p.Some? {
      ValidHlslSpelledOut(p.value);
      HlslVersionParseSound(version);
    }
    if exists major, minor :: HlslVersionShape(version, major, minor) && DecimalValue(major) == 6 && DecimalValue(minor) <= 8 {
      var major, minor :| HlslVersionShape(version, major, minor) && DecimalValue(major) == 6 && DecimalValue(minor) <= 8;
      HlslVersionParseComplete(version, major, minor);
    }
  }

  /** A Vulkan level is accepted exactly when it reads `1.<m>` with `m <= 3`, leading zeros allowed. */
  lemma VulkanFeatureLevelAcceptedIff(version: string)
    ensures ValidateVulkanFeatureLevel(version).Ok? <==>
              exists major, minor :: VulkanVersionShape(version, major, minor)
                && DecimalValue(major) == 1 && DecimalValue(minor) <= 3
  {
    var p := ParseVulkanVersion(version);
    if p.Some? {
      ValidVulkanSpelledOut(p.value);
      VulkanVersionParseSound(version);
    }
    if exists major, minor :: VulkanVersionShape(version, major, minor) && DecimalValue(major) == 1 && DecimalValue(minor) <= 3 {
      var major, minor :| VulkanVersionShape(version, major, minor) && DecimalValue(major) == 1 && DecimalValue(minor) <= 3;
      VulkanVersionParseComplete(version, major, minor);
    }
  }

  // ---------------------------------------------------------------------
  // The compiler object
  // ---------------------------------------------------------------------

  /** What every constructed compiler keeps true: valid levels, and only well-formed shader paths. */
  predicate Valid(c: Compiler) {
    ValidateHlslFeatureLevel(c.hlslFeatureLevel).Ok?
    && ValidateVulkanFeatureLevel(c.vulkanFeatureLevel).Ok?
    && forall i :: 0 <= i < |c.shaderFilepaths| ==> SplitShaderPath(c.shaderFilepaths[i]).Some?
  }

  /**
   * The constructor: the HLSL level is checked first, then the Vulkan level;
   * debug mode starts on and no shader paths are registered.
   */
  function NewCompiler(backend: HLSLBackend, baseEntry: string, hlslFeatureLevel: string, vulkanFeatureLevel: string)
    : (r: Result<Compiler, Error>)
    ensures r.Ok? <==> ValidateHlslFeatureLevel(hlslFeatureLevel).Ok? && ValidateVulkanFeatureLevel(vulkanFeatureLevel).Ok?
    ensures ValidateHlslFeatureLevel(hlslFeatureLevel).Err? ==> r.Err? && r.error.InvalidHLSLVersion?
    ensures r.Ok? ==> Valid(r.value) && r.value.debugMode && r.value.shaderFilepaths == []
    ensures r.Ok? ==> r.value.hlslFeatureLevel == hlslFeatureLevel && r.value.vulkanFeatureLevel == vulkanFeatureLevel
    ensures r.Ok? ==> r.value.backend == backend && r.value.baseEntry == baseEntry
  {
    var _ :- ValidateHlslFeatureLevel(hlslFeatureLevel);
    var _ :- ValidateVulkanFeatureLevel(vulkanFeatureLevel);
    Ok(Compiler(backend, baseEntry, hlslFeatureLevel, vulkanFeatureLevel, true, []))
  }

  /** The constructor's defaults: entry `_main`, shader model `_6_0`, Vulkan `1.0`. */
  lemma DefaultCompilerConstructs(backend: HLSLBackend)
    ensures NewCompiler(backend, "_main", "_6_0", "1.0").Ok?
  {
    DefaultLevelsValid();
  }

  lemma DefaultLevelsValid()
    ensures ValidateHlslFeatureLevel("_6_0").Ok?
    ensures ValidateVulkanFeatureLevel("1.0").Ok?
  {
    DefaultHlslLevelValid();
    DefaultVulkanLevelValid();
  }

  lemma DefaultHlslLevelValid()
    ensures ValidateHlslFeatureLevel("_6_0").Ok?
  {
    HlslVersionParseComplete("_6_0", "6", "0");
    assert ParseHlslVersion("_6_0") == Some((6, 0));
    ValidHlslSpelledOut((6, 0));
  }

  lemma DefaultVulkanLevelValid()
    ensures ValidateVulkanFeatureLevel("1.0").Ok?
  {
    VulkanVersionParseComplete("1.0", "1", "0");
    assert ParseVulkanVersion("1.0") == Some((1, 0));
    ValidVulkanSpelledOut((1, 0));
  }

  /** `SetHLSLFeatureLevel`: a rejected level leaves the stored one untouched. */
  function SetHlslFeatureLevel(c: Compiler, version: string): (r: Outcome<Compiler>)
    ensures r.thrown.None? <==> ValidateHlslFeatureLevel(version).Ok?
    ensures r.thrown.None? ==> r.after == c.(hlslFeatureLevel := version)
    ensures r.thrown.Some? ==> r.after == c
    ensures Valid(c) ==> Valid(r.after)
  {
    match ValidateHlslFeatureLevel(version)
    case Ok(_) => Outcome(c.(hlslFeatureLevel := version), None)
    case Err(e) => Outcome(c, Some(e))
  }

  /** `SetVulkanFeatureLevel`: a rejected level leaves the stored one untouched. */
  function SetVulkanFeatureLevel(c: Compiler, version: string): (r: Outcome<Compiler>)
    ensures r.thrown.None? <==> ValidateVulkanFeatureLevel(version).Ok?
    ensures r.thrown.None? ==> r.after == c.(vulkanFeatureLevel := version)
    ensures r.thrown.Some? ==> r.after == c
    ensures Valid(c) ==> Valid(r.after)
  {
    match ValidateVulkanFeatureLevel(version)
    case Ok(_) => Outcome(c.(vulkanFeatureLevel := version), None)
    case Err(e) => Outcome(c, Some(e))
  }

  // ---------------------------------------------------------------------
  // Shader paths: ^(.*[\/])([^\/]+)\.hlsl$
  // ---------------------------------------------------------------------

  /** What ECMAScript `.` refuses to match. */
  predicate IsLineTerminator(c: char) {
    c == '\n' || c == '\r'
  }

  /**
   * `path` is `dir + stem + ".hlsl"`: `dir` ends in '/' and holds no line
   * terminator (it is `.*[\/]`), `stem` is non-empty and holds no '/'.
   */
  ghost predicate ShaderPathShape(path: string, dir: string, stem: string) {
    && path == dir + stem + ".hlsl"
    && |dir| > 0 && dir[|dir| - 1] == '/'
    && (forall i :: 0 <= i < |dir| ==> !IsLineTerminator(dir[i]))
    && |stem| > 0 && '/' !in stem
  }

  /** The two capture groups of the shader path pattern, or None when `regex_match` fails. */
  function SplitShaderPath(path: string): Option<(string, string)> {
    if !EndsWith(path, ".hlsl") then None
    else
      var body := path[..|path| - 5];
      var k := LastIndexOf(body, '/');
      if k < 0 then None
      else
        var dir := body[..k + 1];
        var stem := body[k + 1..];
        if |stem| > 0 && forall i :: 0 <= i < |dir| ==> !IsLineTerminator(dir[i]) then Some((dir, stem))
        else None
  }

  /** Whatever the split returns has the pattern's shape. */
  lemma SplitShaderPathSound(path: string)
    requires SplitShaderPath(path).Some?
    ensures ShaderPathShape(path, SplitShaderPath(path).value.0, SplitShaderPath(path).value.1)
  {
    var body := path[..|path| - 5];
    var k := LastIndexOf(body, '/');
    assert path == body + ".hlsl";
    assert body == body[..k + 1] + body[k + 1..];
  }

  /** Every path of the pattern's shape splits, and into exactly its directory and stem. */
  lemma SplitShaderPathComplete(path: string, dir: string, stem: string)
    requires ShaderPathShape(path, dir, stem)
    ensures SplitShaderPath(path) == Some((dir, stem))
  {
    assert path[|path| - 5..] == ".hlsl";
    var body := path[..|path| - 5];
    assert body == dir + stem;
    assert body[|dir| - 1] == '/';
    assert forall j :: |dir| <= j < |body| ==> body[j] == stem[j - |dir|];
    assert LastIndexOf(body, '/') == |dir| - 1;
    assert body[..|dir|] == dir;
    assert body[|dir|..] == stem;
  }

  /** `PushShaderPath`: only paths of the pattern's shape are registered. */
  function PushShaderPath(c: Compiler, path: string): (r: Outcome<Compiler>)
    ensures r.thrown.None? <==> exists dir, stem :: ShaderPathShape(path, dir, stem)
    ensures r.thrown.None? ==> r.after == c.(shaderFilepaths := c.shaderFilepaths + [path])
    ensures r.thrown.Some? ==> r.after == c && r.thrown == Some(InvalidFilepath("Invalid filename"))
    ensures Valid(c) ==> Valid(r.after)
  {
    if SplitShaderPath(path).Some? then
      SplitShaderPathSound(path);
      Outcome(c.(shaderFilepaths := c.shaderFilepaths + [path]), None)
    else
      assert forall dir, stem :: ShaderPathShape(path, dir, stem) ==> SplitShaderPath(path).Some? by {
        forall dir, stem | ShaderPathShape(path, dir, stem) {
          SplitShaderPathComplete(path, dir, stem);
        }
      }
      Outcome(c, Some(InvalidFilepath("Invalid filename")))
  }

  // ---------------------------------------------------------------------
  // Entry-point names
  // ---------------------------------------------------------------------

  /** `[a-zA-Z_][a-zA-Z0-9_]*` over the whole name. */
  predicate IsIdentifier(name: string) {
    && |name| > 0
    && (IsAsciiLetter(name[0]) || name[0] == '_')
    && forall i :: 1 <= i < |name| ==> IsWordChar(name[i])
  }

  predicate IsSizeDigit(c: char) {
    '1' <= c <= '4'
  }

  /** `([1-4]|[1-4]x[1-4])` over the whole name. */
  predicate IsSizeSuffix(name: string) {
    || (|name| == 1 && IsSizeDigit(name[0]))
    || (|name| == 3 && IsSizeDigit(name[0]) && name[1] == 'x' && IsSizeDigit(name[2]))
  }

  const IdentifierMessage := "The name must start with a letter or \"_\" and can only be followed by a letter a digit or \"_\""

  /**
   * `ValidateNameOverKeywords`. The size-suffix test is a full match, so it
   * fires only on a bare `1`…`4` or `AxB`, whose lazily captured prefix is
   * empty; for any identifier the whole name is looked up with `false`.
   */
  function ValidateNameOverKeywords(name: string): (r: Result<(), Error>)
    ensures r.Err? <==> !IsIdentifier(name) || KeywordFlag(name) == Some(false)
    ensures r.Err? ==> r.error.InvalidName?
  {
    if !IsIdentifier(name) then Err(InvalidName(IdentifierMessage))
    else
      var usesSizer := IsSizeSuffix(name);
      var subType := if usesSizer then "" else name;
      if KeywordFlag(subType) == Some(usesSizer) then Err(InvalidName("You cannot use HLSL keywords"))
      else Ok(())
  }

  /**
   * A sized type name used bare is looked up with the flag `false`, so it
   * passes: only the plain keywords are refused as entry points.
   */
  lemma SizedKeywordAllowed()
    ensures ValidateNameOverKeywords("float").Ok?
  {
    assert IsIdentifier("float");
  }

  /** ...while a plain keyword, or a name that is not an identifier, is refused. */
  lemma PlainKeywordRefused()
    ensures ValidateNameOverKeywords("return").Err?
    ensures ValidateNameOverKeywords("4main").Err?
  {
    assert IsIdentifier("return");
    assert !IsIdentifier("4main");
  }

  /** The length of the longest run of `\w` characters at the start of `s`. */
  function WordRunLength(s: string): (n: nat)
    ensures n <= |s|
    ensures forall i :: 0 <= i < n ==> IsWordChar(s[i])
    ensures n < |s| ==> !IsWordChar(s[n])
    ensures (forall i :: 0 <= i < |s| ==> IsWordChar(s[i])) ==> n == |s|
  {
    if |s| == 0 || !IsWordChar(s[0]) then 0 else 1 + WordRunLength(s[1..])
  }

  /** Group 1 of `^SV_(\w+)` (greedy), or None when the search fails. */
  function SystemValueCapture(name: string): (r: Option<string>)
    ensures r.Some? <==> StartsWith(name, "SV_") && |name| > 3 && IsWordChar(name[3])
    ensures r.Some? ==> |r.value| > 0 && StartsWith(name[3..], r.value)
    ensures r.Some? ==> forall i :: 0 <= i < |r.value| ==> IsWordChar(r.value[i])
    ensures r.Some? ==> 3 + |r.value| == |name| || !IsWordChar(name[3 + |r.value|])
  {
    if StartsWith(name, "SV_") && |name| > 3 && IsWordChar(name[3]) then
      var n := WordRunLength(name[3..]);
      Some(name[3..][..n])
    else None
  }

  /** `word` is a non-empty run of non-digits followed by a non-empty run of digits. */
  predicate EnumeratedSplit(word: string, base: string, index: string) {
    && word == base + index
    && |base| > 0 && (forall i :: 0 <= i < |base| ==> !IsDigit(base[i]))
    && IsDigitRun(index)
  }

  /** The index of the first digit of `s`, or `|s|`. */
  function FirstDigit(s: string): (k: nat)
    ensures k <= |s|
    ensures k < |s| ==> IsDigit(s[k])
    ensures forall i :: 0 <= i < k ==> !IsDigit(s[i])
  {
    if |s| == 0 || IsDigit(s[0]) then 0 else 1 + FirstDigit(s[1..])
  }

  /**
   * `^(\D+)(\d+)$` applied to the captured word: the non-digit head and
   * `true` when it matches, the word itself and `false` when it does not.
   */
  function SplitEnumeration(word: string): (r: (string, bool))
    ensures |r.0| <= |word|
    ensures r.1 ==> EnumeratedSplit(word, r.0, word[|r.0|..])
    ensures !r.1 ==> r.0 == word
  {
    var k := FirstDigit(word);
    if 0 < k < |word| && AllDigits(word[k..]) then
      assert word == word[..k] + word[k..];
      (word[..k], true)
    else (word, false)
  }

  /** A word splits into head and index in at most one way, and `SplitEnumeration` finds it. */
  lemma SplitEnumerationFindsEverySplit(word: string, base: string, index: string)
    requires EnumeratedSplit(word, base, index)
    ensures SplitEnumeration(word) == (base, true)
  {
    assert forall i :: 0 <= i < |base| ==> word[i] == base[i];
    assert word[|base|] == index[0];
    assert FirstDigit(word) == |base|;
    assert word[|base|..] == index;
    assert word[..|base|] == base;
  }

  /** The lookup the source performs on a captured word: clashes when the table's flag equals the split's. */
  ghost predicate SystemValueClash(word: string) {
    || (exists base, index :: EnumeratedSplit(word, base, index) && SysValueFlag(base) == Some(true))
    || ((forall base, index :: !EnumeratedSplit(word, base, index)) && SysValueFlag(word) == Some(false))
  }

  function SystemValueMessage(name: string): string {
    name + " is a HLSL System Value (SV_) and cannot be used"
  }

  /** `ValidateNameOverSysValues`: names that do not start with `SV_<word>` always pass. */
  function ValidateNameOverSysValues(name: string): (r: Result<(), Error>)
    ensures SystemValueCapture(name).None? ==> r.Ok?
    ensures r.Err? ==> r.error == InvalidName(SystemValueMessage(name))
  {
    match SystemValueCapture(name)
    case None => Ok(())
    case Some(word) =>
      var (treated, enumerated) := SplitEnumeration(word);
      if SysValueFlag(treated) == Some(enumerated) then Err(InvalidName(SystemValueMessage(name)))
      else Ok(())
  }

  /**
   * A name is rejected as a system value exactly when its captured word is an
   * indexed semantic with an index (`SV_TARGET0`) or a non-indexed one
   * without (`SV_POSITION`).
   */
  lemma SysValueRejectedIff(name: string)
    ensures ValidateNameOverSysValues(name).Err? <==>
              SystemValueCapture(name).Some? && SystemValueClash(SystemValueCapture(name).value)
  {
    if SystemValueCapture(name).Some? {
      var word := SystemValueCapture(name).value;
      var (treated, enumerated) := SplitEnumeration(word);
      if enumerated {
        assert EnumeratedSplit(word, treated, word[|treated|..]);
        forall base, index | EnumeratedSplit(word, base, index)
          ensures base == treated
        {
          SplitEnumerationFindsEverySplit(word, base, index);
        }
      } else {
        forall base, index | EnumeratedSplit(word, base, index)
          ensures false
        {
          SplitEnumerationFindsEverySplit(word, base, index);
        }
      }
    }
  }

  /** An indexed semantic is free to use without its index... */
  lemma IndexedSysValueWithoutIndex()
    ensures ValidateNameOverSysValues("SV_TARGET").Ok?
  {
    DigitFreeCaptured("TARGET");
    assert "SV_" + "TARGET" == "SV_TARGET";
    assert "TARGET" !in PlainSysValues;
  }

  /** A semantic whose name has no digit is captured whole and does not split. */
  lemma DigitFreeCaptured(word: string)
    requires |word| > 0
    requires forall i | 0 <= i < |word| :: IsWordChar(word[i]) && !IsDigit(word[i])
    ensures SystemValueCapture("SV_" + word) == Some(word)
    ensures SplitEnumeration(word) == (word, false)
  {
    var name := "SV_" + word;
    assert name[..3] == "SV_" && name[3..] == word;
    WholeWordCaptured(name);
    assert FirstDigit(word) == |word|;
  }

  /** ...and taken with one. */
  lemma IndexedSysValueWithIndex()
    ensures ValidateNameOverSysValues("SV_TARGET0").Err?
  {
    Target0Captured();
    assert "TARGET" in IndexedSysValues;
  }

  lemma Target0Captured()
    ensures SystemValueCapture("SV_TARGET0") == Some("TARGET0")
    ensures SplitEnumeration("TARGET0") == ("TARGET", true)
  {
    assert StartsWith("SV_TARGET0", "SV_");
    assert "SV_TARGET0"[3..] == "TARGET0";
    WholeWordCaptured("SV_TARGET0");
    assert "TARGET" + "0" == "TARGET0";
    SplitEnumerationFindsEverySplit("TARGET0", "TARGET", "0");
  }

  /** When everything after `SV_` is a word character, the whole rest is captured. */
  lemma WholeWordCaptured(name: string)
    requires StartsWith(name, "SV_") && |name| > 3
    requires forall i | 3 <= i < |name| :: IsWordChar(name[i])
    ensures SystemValueCapture(name) == Some(name[3..])
  {
    var w := name[3..];
    assert IsWordChar(w[0]);
    assert forall i | 0 <= i < |w| :: IsWordChar(w[i]);
    var n := WordRunLength(w);
    assert w[..n] == w;
  }

  /** A non-indexed semantic is taken as is. */
  lemma PlainSysValueExample(name: string)
    requires name == "SV_POSITION"
    ensures ValidateNameOverSysValues(name).Err?
  {
    var word := name[3..];
    assert word == "POSITION";
    assert name == "SV_" + word;
    PositionIsPlain(word);
    PlainSemanticRefused(word);
  }

  /** Every non-indexed semantic named without an index is refused. */
  lemma PlainSemanticRefused(word: string)
    requires |word| > 0
    requires forall i | 0 <= i < |word| :: IsWordChar(word[i]) && !IsDigit(word[i])
    requires SysValueFlag(word) == Some(false)
    ensures ValidateNameOverSysValues("SV_" + word).Err?
  {
    DigitFreeCaptured(word);
  }

  lemma PositionIsPlain(word: string)
    requires word == "POSITION"
    ensures SysValueFlag(word) == Some(false)
  {
    assert word in PlainSysValues;
  }

  /** `ValidateNameOverBuiltinFunctions`: the message names the intrinsic found. */
  function ValidateNameOverBuiltinFunctions(name: string): (r: Result<(), Error>)
    ensures r.Err? <==> name in BuiltinFunctions
    ensures r.Err? ==> r.error == InvalidName(name + " is a builtin function")
  {
    if name in BuiltinFunctions then Err(InvalidName(name + " is a builtin function")) else Ok(())
  }

  /** The three name checks in the order the source runs them; the first failure is the one thrown. */
  function ValidateEntryPoint(name: string): (r: Result<(), Error>)
    ensures r.Ok? <==> ValidateNameOverKeywords(name).Ok? && ValidateNameOverSysValues(name).Ok?
                        && ValidateNameOverBuiltinFunctions(name).Ok?
    ensures ValidateNameOverKeywords(name).Err? ==> r == ValidateNameOverKeywords(name)
  {
    var _ :- ValidateNameOverKeywords(name);
    var _ :- ValidateNameOverSysValues(name);
    ValidateNameOverBuiltinFunctions(name)
  }

  /** `ValidatePipeline`: a stage whose compilation produced nothing is fatal only for `vs` and `ps`. */
  function ValidatePipeline(stage: string): (r: Result<(), Error>)
    ensures r.Err? <==> stage in PackedStages
    ensures r.Err? ==> r.error == InvalidPipeline(stage + " is a mandatory stage")
  {
    if stage == "ps" || stage == "vs" then Err(InvalidPipeline(stage + " is a mandatory stage")) else Ok(())
  }

  // ---------------------------------------------------------------------
  // Compiling a stage
  // ---------------------------------------------------------------------

  /** The stages whose Y axis is flipped for Vulkan. */
  const InvertedYStages: set<string> := {"vs", "gs", "ds"}

  /** The eight arguments every DXC call starts with: language options, target, entry point, optimisation. */
  function StageArguments(target: string, entryPoint: string, debug: bool): seq<string> {
    ["-Zpc", "-HV", "2021", "-T", target, "-E", entryPoint, if debug then "-O0" else "-O3"]
  }

  /** The DXC command line of one stage. */
  function DxcArguments(c: Compiler, stage: string): (args: seq<string>)
    ensures |args| >= 8
    ensures args[..8] == StageArguments(stage + c.hlslFeatureLevel, stage + c.baseEntry, c.debugMode)
    ensures c.backend == CSO ==> |args| == 8
    ensures c.backend == SPV ==> |args| >= 10 && args[8] == "-spirv"
                                 && args[9] == "-fspv-target-env=vulkan" + c.vulkanFeatureLevel
    ensures c.backend == SPV ==> (|args| == 11 <==> stage in InvertedYStages)
    ensures |args| == 11 ==> args[10] == "-fvk-invert-y"
  {
    var common := StageArguments(stage + c.hlslFeatureLevel, stage + c.baseEntry, c.debugMode);
    match c.backend
    case CSO => common
    case SPV =>
      var vulkan := ["-spirv", "-fspv-target-env=vulkan" + c.vulkanFeatureLevel];
      if stage == "vs" || stage == "gs" || stage == "ds" then common + vulkan + ["-fvk-invert-y"]
      else common + vulkan
  }

  /** Where a stage's blob is written: next to the source, named after the stage and the backend. */
  function StageOutputPath(c: Compiler, basepath: string, stage: string): string {
    basepath + "." + stage + BinaryExtension(c.backend)
  }

  /** One DXC call: the stage, its command line, where its blob goes, and whether a blob was written. */
  datatype StageBuild = StageBuild(stage: string, args: seq<string>, outputPath: string, wroteBlob: bool)

  /** A stage compilation: the DXC call, if it got that far, and the exception, if one escaped. */
  datatype StageRun = StageRun(build: Option<StageBuild>, thrown: Option<Error>)

  /** The blob a DXC call wrote, if any. */
  function BlobWrites(b: StageBuild): seq<FileWrite> {
    if b.wroteBlob then [BlobWrite(b.outputPath)] else []
  }

  /**
   * The tail of `CompileStage` shared by every compiler: DXC runs with
   * `args`; an empty blob is fatal for a mandatory stage and only logged
   * for any other; a non-empty one is written next to the source.
   */
  function RunDxc(stage: string, args: seq<string>, outputPath: string, emptyBlob: bool): (r: StageRun)
    ensures r.build == Some(StageBuild(stage, args, outputPath, !emptyBlob))
    ensures r.thrown.Some? <==> emptyBlob && stage in PackedStages
    ensures r.thrown.Some? ==> r.thrown == Some(InvalidPipeline(stage + " is a mandatory stage"))
  {
    var build := StageBuild(stage, args, outputPath, !emptyBlob);
    if emptyBlob then
      match ValidatePipeline(stage)
      case Ok(_) => StageRun(Some(build), None)
      case Err(e) => StageRun(Some(build), Some(e))
    else StageRun(Some(build), None)
  }

  /**
   * The outcomes of the name checks on the entry points of the two packed
   * stages, `vs + baseEntry` and `ps + baseEntry`. They depend on nothing
   * but the base entry, so a build computes them once and hands each stage
   * its own.
   */
  datatype EntryChecks = EntryChecks(vs: Result<(), Error>, ps: Result<(), Error>)

  function CheckEntryPoints(c: Compiler): EntryChecks {
    EntryChecks(ValidateEntryPoint("vs" + c.baseEntry), ValidateEntryPoint("ps" + c.baseEntry))
  }

  /**
   * `CompileStage`. `check` is the outcome of validating the entry point
   * `stage + baseEntry`, which comes before DXC is called at all;
   * `emptyBlob` is DXC's answer: true when it produced no object code.
   */
  function CompileStage(c: Compiler, check: Result<(), Error>, stage: string, basepath: string, emptyBlob: bool): (r: StageRun)
    ensures r.build.Some? <==> check.Ok?
    ensures check.Err? ==> r.thrown == Some(check.error)
    ensures r.thrown.None? <==> check.Ok? && !(emptyBlob && stage in PackedStages)
    ensures r.build.Some? ==> r.build.value.stage == stage && r.build.value.args == DxcArguments(c, stage)
    ensures r.build.Some? ==> r.build.value.outputPath == StageOutputPath(c, basepath, stage)
    ensures r.build.Some? ==> r.build.value.wroteBlob == !emptyBlob
  {
    match check
    case Err(e) => StageRun(None, Some(e))
    case Ok(_) => RunDxc(stage, DxcArguments(c, stage), StageOutputPath(c, basepath, stage), emptyBlob)
  }

  // ---------------------------------------------------------------------
  // The packed build
  // ---------------------------------------------------------------------

  /** What the build sees of the world: files that exist, and outputs DXC leaves empty. */
  datatype BuildEnv = BuildEnv(existing: set<string>, emptyBlobs: set<string>)

  datatype FileWrite = BlobWrite(path: string) | ManifestWrite(path: string, manifest: Manifest)

  /** The files a build wrote and the DXC calls it made, in order, and the exception that ended it early, if any. */
  datatype PackRun = PackRun(writes: seq<FileWrite>, builds: seq<StageBuild>, thrown: Option<Error>)

  const NothingDone := PackRun([], [], None)

  function BuildsOf(r: StageRun): seq<StageBuild> {
    if r.build.Some? then [r.build.value] else []
  }

  function WritesOf(r: StageRun): seq<FileWrite> {
    if r.build.Some? then BlobWrites(r.build.value) else []
  }

  /**
   * The JSON value a stage's blob name is stored as: a bare string as
   * `Compiler::CompilePackedShader` writes it, or `{ "filename": ... }` as
   * the backends read it.
   */
  function StageEntryFor(nested: bool, filename: string): StageEntry {
    if nested then Fields(map["filename" := filename]) else BareName(filename)
  }

  function StageFilename(c: Compiler, stem: string, stage: string): string {
    stem + "." + stage + BinaryExtension(c.backend)
  }

  function ManifestFor(c: Compiler, stem: string, nested: bool): Manifest {
    Manifest(
      map["vs" := StageEntryFor(nested, StageFilename(c, stem, "vs")),
          "ps" := StageEntryFor(nested, StageFilename(c, stem, "ps"))],
      c.hlslFeatureLevel,
      if c.backend == SPV then Some(c.vulkanFeatureLevel) else None)
  }

  /** Where the manifest of a source goes: next to it, tagged with the graphics API. */
  function ManifestPath(c: Compiler, basepath: string): string {
    basepath + ApiExtension(c.backend) + ".json"
  }

  /**
   * One registered path: skipped when it does not match the pattern, else
   * checked for existence, compiled stage by stage and described by a
   * manifest next to the source.
   */
  function CompileShaderFile(c: Compiler, checks: EntryChecks, path: string, env: BuildEnv, nested: bool): PackRun {
    match SplitShaderPath(path)
    case None => NothingDone
    case Some((dir, stem)) =>
      var basepath := dir + stem;
      if path !in env.existing then PackRun([], [], Some(InvalidFilepath("File not found")))
      else
        var vs := CompileStage(c, checks.vs, "vs", basepath, StageOutputPath(c, basepath, "vs") in env.emptyBlobs);
        if vs.thrown.Some? then PackRun(WritesOf(vs), BuildsOf(vs), vs.thrown)
        else
          var ps := CompileStage(c, checks.ps, "ps", basepath, StageOutputPath(c, basepath, "ps") in env.emptyBlobs);
          var stages := PackRun(WritesOf(vs) + WritesOf(ps), BuildsOf(vs) + BuildsOf(ps), ps.thrown);
          if ps.thrown.Some? then stages
          else stages.(writes := stages.writes + [ManifestWrite(ManifestPath(c, basepath), ManifestFor(c, stem, nested))])
  }

  /**
   * The registered paths in order, each handled by `step` from the state the
   * previous one left; the first exception stops the build, keeping what was
   * done before it.
   */
  function RunInOrder<S>(step: (S, string) -> (PackRun, S), state: S, paths: seq<string>): (PackRun, S)
    decreases |paths|
  {
    if |paths| == 0 then (NothingDone, state)
    else
      var (first, next) := step(state, paths[0]);
      if first.thrown.Some? then (first, next)
      else
        var (rest, last) := RunInOrder(step, next, paths[1..]);
        (PackRun(first.writes + rest.writes, first.builds + rest.builds, rest.thrown), last)
  }

  function CompilePaths(c: Compiler, checks: EntryChecks, paths: seq<string>, env: BuildEnv, nested: bool): PackRun {
    RunInOrder((u: (), p: string) => (CompileShaderFile(c, checks, p, env, nested), u), (), paths).0
  }

  /** `Compiler::CompilePackedShader` as written: stage entries are bare strings. */
  function CompilePackedShader(c: Compiler, env: BuildEnv): PackRun {
    CompilePaths(c, CheckEntryPoints(c), c.shaderFilepaths, env, false)
  }

  /** The build with stage entries as `{ "filename": ... }`, the layout the shader loaders read. */
  function CompilePackedShaderCorrected(c: Compiler, env: BuildEnv): PackRun {
    CompilePaths(c, CheckEntryPoints(c), c.shaderFilepaths, env, true)
  }

  /** The registered paths the build does not skip. */
  function MatchingPaths(paths: seq<string>): (m: seq<string>)
    ensures |m| <= |paths|
    ensures forall i :: 0 <= i < |m| ==> SplitShaderPath(m[i]).Some?
  {
    if |paths| == 0 then []
    else (if SplitShaderPath(paths[0]).Some? then [paths[0]] else []) + MatchingPaths(paths[1..])
  }

  /** A per-file step that leaves paths outside the pattern, and its state, alone. */
  ghost predicate SkipsUnmatched<S(!new)>(step: (S, string) -> (PackRun, S)) {
    forall s, p :: SplitShaderPath(p).None? ==> step(s, p) == (NothingDone, s)
  }

  /** A run in order finishes exactly when every matching path's step finishes, given that this does not depend on the state. */
  lemma {:induction false} RunInOrderSucceedsIff<S(!new)>(step: (S, string) -> (PackRun, S), state: S, paths: seq<string>, ok: string -> bool)
    requires SkipsUnmatched(step)
    requires forall s, p :: SplitShaderPath(p).Some? ==> (step(s, p).0.thrown.None? <==> ok(p))
    ensures RunInOrder(step, state, paths).0.thrown.None? <==>
              forall i :: 0 <= i < |paths| && SplitShaderPath(paths[i]).Some? ==> ok(paths[i])
    decreases |paths|
  {
    if |paths| > 0 {
      RunInOrderSucceedsIff(step, step(state, paths[0]).1, paths[1..], ok);
      assert forall i :: 1 <= i < |paths| ==> paths[i] == paths[1..][i - 1];
    }
  }

  /** A finished run writes, per matching path in order, the three files that path's step writes. */
  lemma {:induction false} RunInOrderWrites<S(!new)>(step: (S, string) -> (PackRun, S), state: S, paths: seq<string>, out: string -> seq<FileWrite>)
    requires SkipsUnmatched(step)
    requires forall s, p :: SplitShaderPath(p).Some? && step(s, p).0.thrown.None? ==> step(s, p).0.writes == out(p)
    requires forall p :: |out(p)| == 3
    requires RunInOrder(step, state, paths).0.thrown.None?
    ensures var run := RunInOrder(step, state, paths).0;
            var m := MatchingPaths(paths);
            && |run.writes| == 3 * |m|
            && forall i :: 0 <= i < |m| ==> run.writes[3 * i..3 * i + 3] == out(m[i])
    decreases |paths|
  {
    if |paths| > 0 {
      var run := RunInOrder(step, state, paths).0;
      var (first, next) := step(state, paths[0]);
      var rest := RunInOrder(step, next, paths[1..]).0;
      var m := MatchingPaths(paths);
      var tail := MatchingPaths(paths[1..]);
      RunInOrderWrites(step, next, paths[1..], out);
      assert run.writes == first.writes + rest.writes;
      if SplitShaderPath(paths[0]).Some? {
        WritesCons(run.writes, first.writes, rest.writes, paths[0], m, tail, out);
      } else {
        assert m == tail;
      }
    }
  }

  /** One path's three files in front of the blocks of the paths after it. */
  lemma WritesCons(w: seq<FileWrite>, first: seq<FileWrite>, rest: seq<FileWrite>, p: string, m: seq<string>, tail: seq<string>,
                   out: string -> seq<FileWrite>)
    requires w == first + rest && m == [p] + tail && first == out(p) && |first| == 3
    requires |rest| == 3 * |tail| && forall i :: 0 <= i < |tail| ==> rest[3 * i..3 * i + 3] == out(tail[i])
    ensures |w| == 3 * |m|
    ensures forall i :: 0 <= i < |m| ==> w[3 * i..3 * i + 3] == out(m[i])
  {
    forall i | 0 <= i < |m|
      ensures w[3 * i..3 * i + 3] == out(m[i])
    {
      if i == 0 {
        assert w[0..3] == first;
      } else {
        assert m[i] == tail[i - 1];
        assert w[3 * i..3 * i + 3] == rest[3 * (i - 1)..3 * (i - 1) + 3];
      }
    }
  }

  /**
   * A state property every step keeps when it finishes, and a property of
   * DXC calls every step's calls have when it starts from such a state,
   * hold for the whole run.
   */
  lemma {:induction false} RunInOrderBuilds<S(!new)>(step: (S, string) -> (PackRun, S), state: S, paths: seq<string>,
                                                     inv: S -> bool, good: StageBuild -> bool)
    requires SkipsUnmatched(step)
    requires inv(state)
    requires forall s, p :: inv(s) ==> forall j :: 0 <= j < |step(s, p).0.builds| ==> good(step(s, p).0.builds[j])
    requires forall s, p :: inv(s) && step(s, p).0.thrown.None? ==> inv(step(s, p).1)
    ensures var (run, last) := RunInOrder(step, state, paths);
            && (forall j :: 0 <= j < |run.builds| ==> good(run.builds[j]))
            && (run.thrown.None? ==> inv(last))
    decreases |paths|
  {
    if |paths| > 0 {
      var (first, next) := step(state, paths[0]);
      if first.thrown.None? {
        RunInOrderBuilds(step, next, paths[1..], inv, good);
        var rest := RunInOrder(step, next, paths[1..]).0;
        assert forall j :: |first.builds| <= j < |first.builds| + |rest.builds| ==>
                 (first.builds + rest.builds)[j] == rest.builds[j - |first.builds|];
      }
    }
  }

  /** What a path compiles without error on: it exists and DXC fills both mandatory stages. */
  predicate BuildsCleanly(c: Compiler, path: string, env: BuildEnv)
    requires SplitShaderPath(path).Some?
  {
    var basepath := SplitShaderPath(path).value.0 + SplitShaderPath(path).value.1;
    && path in env.existing
    && StageOutputPath(c, basepath, "vs") !in env.emptyBlobs
    && StageOutputPath(c, basepath, "ps") !in env.emptyBlobs
  }

  /** Both packed stages' entry points pass the name checks. */
  predicate EntryPointsValid(checks: EntryChecks) {
    checks.vs.Ok? && checks.ps.Ok?
  }

  /** The three files one shader source turns into, in the order they are written. */
  function ShaderOutputs(c: Compiler, path: string, nested: bool): seq<FileWrite>
    requires SplitShaderPath(path).Some?
  {
    var (dir, stem) := SplitShaderPath(path).value;
    [BlobWrite(StageOutputPath(c, dir + stem, "vs")),
     BlobWrite(StageOutputPath(c, dir + stem, "ps")),
     ManifestWrite(ManifestPath(c, dir + stem), ManifestFor(c, stem, nested))]
  }

  /** A source path that does not match the pattern is skipped without a word. */
  lemma CompileShaderFileSkips(c: Compiler, checks: EntryChecks, path: string, env: BuildEnv, nested: bool)
    requires SplitShaderPath(path).None?
    ensures CompileShaderFile(c, checks, path, env, nested) == NothingDone
  {
  }

  /** A matching source compiles without an exception exactly when its entry points are valid and it builds cleanly. */
  lemma CompileShaderFileSucceedsIff(c: Compiler, checks: EntryChecks, path: string, env: BuildEnv, nested: bool)
    requires SplitShaderPath(path).Some?
    ensures CompileShaderFile(c, checks, path, env, nested).thrown.None? <==> EntryPointsValid(checks) && BuildsCleanly(c, path, env)
  {
    var (dir, stem) := SplitShaderPath(path).value;
    var basepath := dir + stem;
    assert "vs" in PackedStages && "ps" in PackedStages;
    if path in env.existing {
      var vs := CompileStage(c, checks.vs, "vs", basepath, StageOutputPath(c, basepath, "vs") in env.emptyBlobs);
      var ps := CompileStage(c, checks.ps, "ps", basepath, StageOutputPath(c, basepath, "ps") in env.emptyBlobs);
      assert CompileShaderFile(c, checks, path, env, nested).thrown.None? <==> vs.thrown.None? && ps.thrown.None?;
    }
  }

  /** A matching source that compiles writes its two blobs and then its manifest. */
  lemma CompileShaderFileWrites(c: Compiler, checks: EntryChecks, path: string, env: BuildEnv, nested: bool)
    requires SplitShaderPath(path).Some?
    requires CompileShaderFile(c, checks, path, env, nested).thrown.None?
    ensures CompileShaderFile(c, checks, path, env, nested).writes == ShaderOutputs(c, path, nested)
  {
    var (dir, stem) := SplitShaderPath(path).value;
    var basepath := dir + stem;
    StageWritesBlob(c, checks.vs, "vs", basepath, StageOutputPath(c, basepath, "vs") in env.emptyBlobs);
    StageWritesBlob(c, checks.ps, "ps", basepath, StageOutputPath(c, basepath, "ps") in env.emptyBlobs);
  }

  /** A packed stage that compiles has written its blob, and nothing else. */
  lemma StageWritesBlob(c: Compiler, check: Result<(), Error>, stage: string, basepath: string, emptyBlob: bool)
    requires stage == "vs" || stage == "ps"
    ensures CompileStage(c, check, stage, basepath, emptyBlob).thrown.None? ==>
              WritesOf(CompileStage(c, check, stage, basepath, emptyBlob)) == [BlobWrite(StageOutputPath(c, basepath, stage))]
  {
    assert stage in PackedStages;
  }

  /** Every DXC call in `builds` uses the command line its stage calls for. */
  ghost predicate ArgumentsMatch(c: Compiler, builds: seq<StageBuild>) {
    forall j :: 0 <= j < |builds| ==> builds[j].args == DxcArguments(c, builds[j].stage)
  }

  /** Every DXC call made for one source uses the command line its stage calls for. */
  lemma CompileShaderFileArguments(c: Compiler, checks: EntryChecks, path: string, env: BuildEnv, nested: bool)
    ensures ArgumentsMatch(c, CompileShaderFile(c, checks, path, env, nested).builds)
  {
    var run := CompileShaderFile(c, checks, path, env, nested);
    if SplitShaderPath(path).Some? && path in env.existing {
      var (dir, stem) := SplitShaderPath(path).value;
      var basepath := dir + stem;
      var vs := CompileStage(c, checks.vs, "vs", basepath, StageOutputPath(c, basepath, "vs") in env.emptyBlobs);
      assert ArgumentsMatch(c, BuildsOf(vs));
      if vs.thrown.None? {
        var ps := CompileStage(c, checks.ps, "ps", basepath, StageOutputPath(c, basepath, "ps") in env.emptyBlobs);
        assert ArgumentsMatch(c, BuildsOf(ps));
        assert run.builds == BuildsOf(vs) + BuildsOf(ps);
        ArgumentsMatchAppend(c, BuildsOf(vs), BuildsOf(ps));
      } else {
        assert run.builds == BuildsOf(vs);
      }
    }
  }

  lemma ArgumentsMatchAppend(c: Compiler, a: seq<StageBuild>, b: seq<StageBuild>)
    requires ArgumentsMatch(c, a) && ArgumentsMatch(c, b)
    ensures ArgumentsMatch(c, a + b)
  {
    forall j | 0 <= j < |a + b|
      ensures (a + b)[j].args == DxcArguments(c, (a + b)[j].stage)
    {
      if j >= |a| {
        assert (a + b)[j] == b[j - |a|];
      }
    }
  }

  /**
   * A build finishes without an exception exactly when every matching path
   * builds cleanly, and, if there is one, both entry points pass the name
   * checks.
   */
  lemma PackedBuildSucceedsIff(c: Compiler, checks: EntryChecks, paths: seq<string>, env: BuildEnv, nested: bool)
    ensures CompilePaths(c, checks, paths, env, nested).thrown.None? <==>
              forall i :: 0 <= i < |paths| && SplitShaderPath(paths[i]).Some? ==>
                EntryPointsValid(checks) && BuildsCleanly(c, paths[i], env)
  {
    var step := (u: (), p: string) => (CompileShaderFile(c, checks, p, env, nested), u);
    var ok := p => SplitShaderPath(p).Some? && EntryPointsValid(checks) && BuildsCleanly(c, p, env);
    forall u: (), p | SplitShaderPath(p).None? ensures step(u, p) == (NothingDone, u) {
      CompileShaderFileSkips(c, checks, p, env, nested);
    }
    forall u: (), p | SplitShaderPath(p).Some? ensures step(u, p).0.thrown.None? <==> ok(p) {
      CompileShaderFileSucceedsIff(c, checks, p, env, nested);
    }
    RunInOrderSucceedsIff(step, (), paths, ok);
  }

  /**
   * `Compiler::CompilePackedShader` finishes without an exception exactly
   * when every registered path that matches builds cleanly and, if one
   * does, both packed entry points pass the three name checks.
   */
  lemma CompilePackedShaderSucceedsIff(c: Compiler, env: BuildEnv)
    ensures CompilePackedShader(c, env).thrown.None? <==>
              forall i :: 0 <= i < |c.shaderFilepaths| && SplitShaderPath(c.shaderFilepaths[i]).Some? ==>
                && ValidateEntryPoint("vs" + c.baseEntry).Ok? && ValidateEntryPoint("ps" + c.baseEntry).Ok?
                && BuildsCleanly(c, c.shaderFilepaths[i], env)
  {
    PackedBuildSucceedsIff(c, CheckEntryPoints(c), c.shaderFilepaths, env, false);
  }

  /**
   * A build that finishes writes, for each matching path in order, the
   * vertex blob, the pixel blob and then the manifest next to the source.
   */
  lemma PackedBuildWrites(c: Compiler, checks: EntryChecks, paths: seq<string>, env: BuildEnv, nested: bool)
    requires CompilePaths(c, checks, paths, env, nested).thrown.None?
    ensures var run := CompilePaths(c, checks, paths, env, nested);
            var m := MatchingPaths(paths);
            && |run.writes| == 3 * |m|
            && forall i :: 0 <= i < |m| ==> run.writes[3 * i..3 * i + 3] == ShaderOutputs(c, m[i], nested)
  {
    var step := (u: (), p: string) => (CompileShaderFile(c, checks, p, env, nested), u);
    var out := p => if SplitShaderPath(p).Some? then ShaderOutputs(c, p, nested) else [BlobWrite(""), BlobWrite(""), BlobWrite("")];
    forall u: (), p | SplitShaderPath(p).None? ensures step(u, p) == (NothingDone, u) {
      CompileShaderFileSkips(c, checks, p, env, nested);
    }
    forall u: (), p | SplitShaderPath(p).Some? && step(u, p).0.thrown.None? ensures step(u, p).0.writes == out(p) {
      CompileShaderFileWrites(c, checks, p, env, nested);
    }
    RunInOrderWrites(step, (), paths, out);
  }

  /** Every DXC call of a build uses the command line its stage calls for. */
  lemma PackedBuildArguments(c: Compiler, checks: EntryChecks, paths: seq<string>, env: BuildEnv, nested: bool)
    ensures var run := CompilePaths(c, checks, paths, env, nested);
            forall j :: 0 <= j < |run.builds| ==> run.builds[j].args == DxcArguments(c, run.builds[j].stage)
  {
    var step := (u: (), p: string) => (CompileShaderFile(c, checks, p, env, nested), u);
    forall u: (), p | SplitShaderPath(p).None? ensures step(u, p) == (NothingDone, u) {
      CompileShaderFileSkips(c, checks, p, env, nested);
    }
    forall u: (), p ensures forall j :: 0 <= j < |step(u, p).0.builds| ==> step(u, p).0.builds[j].args == DxcArguments(c, step(u, p).0.builds[j].stage) {
      CompileShaderFileArguments(c, checks, p, env, nested);
    }
    RunInOrderBuilds(step, (), paths, (u: ()) => true, (b: StageBuild) => b.args == DxcArguments(c, b.stage));
  }

  /** Under the invariant no registered path is skipped. */
  lemma {:induction false} ValidCompilerSkipsNothing(paths: seq<string>)
    requires forall i :: 0 <= i < |paths| ==> SplitShaderPath(paths[i]).Some?
    ensures MatchingPaths(paths) == paths
    decreases |paths|
  {
    if |paths| > 0 {
      ValidCompilerSkipsNothing(paths[1..]);
    }
  }

  /**
   * The manifest `Compiler::CompilePackedShader` writes stores each stage's
   * blob name as a bare string, so a loader asking for its `filename` field
   * gets a jsoncpp exception instead of the name.
   */
  lemma AsWrittenManifestIsUnreadable(c: Compiler, stem: string, stage: string)
    requires stage in PackedStages
    ensures ReadStageField(ManifestFor(c, stem, false), stage, "filename") == Err(JsonNotAnObject)
  {
  }

  /** With nested entries a loader reads back exactly the blob file name the build wrote. */
  lemma CorrectedManifestNamesBlobs(c: Compiler, stem: string, stage: string)
    requires stage in PackedStages
    ensures ReadStageField(ManifestFor(c, stem, true), stage, "filename") == Ok(StageFilename(c, stem, stage))
  {
  }
}

=== FILE: cso_compiler.dfy ===
/**
 * The Direct3D 12 shader compiler: a `Compiler` fixed to the CSO backend
 * that pushes each stage's DXC arguments onto an argument list it keeps
 * between stages, compiles through the base `CompileStage`, and writes
 * manifests whose stage entries are `{ "filename": ... }` objects.
 */
module CsoCompiler {
  import opened Wrappers
  import opened Errors
  import C = Compiler

  /** The compiler proper and the argument list `PushArgList` fills and the build loop clears. */
  datatype CsoCompiler = CsoCompiler(base: C.Compiler, argList: seq<string>)

  /** The base object is built with `.cso` blobs and `.d3d12` manifests; no Vulkan level is ever used. */
  function NewCsoCompiler(baseEntry: string, hlslFeatureLevel: string): (r: Result<CsoCompiler, Error>)
    ensures r.Ok? <==> C.ValidateHlslFeatureLevel(hlslFeatureLevel).Ok?
    ensures r.Err? ==> r.error.InvalidHLSLVersion?
    ensures r.Ok? ==> C.Valid(r.value.base) && r.value.base.backend == C.CSO && r.value.argList == []
    ensures r.Ok? ==> r.value.base.baseEntry == baseEntry && r.value.base.hlslFeatureLevel == hlslFeatureLevel
    ensures r.Ok? ==> r.value.base.debugMode && r.value.base.shaderFilepaths == []
  {
    C.DefaultLevelsValid();
    var base :- C.NewCompiler(C.CSO, baseEntry, hlslFeatureLevel, "1.0");
    Ok(CsoCompiler(base, []))
  }

  /** The header's defaults, entry `_main` and shader model `_6_0`, construct. */
  lemma DefaultCsoCompilerConstructs()
    ensures NewCsoCompiler("_main", "_6_0").Ok?
  {
    C.DefaultLevelsValid();
  }

  /**
   * `PushArgList`: the entry point `stage + baseEntry` is checked first
   * (`check` is the outcome); only then are the eight arguments of the
   * stage appended to whatever the list already holds.
   */
  function PushArgList(base: C.Compiler, check: Result<(), Error>, argList: seq<string>, stage: string): (r: Result<seq<string>, Error>)
    ensures r.Ok? <==> check.Ok?
    ensures r.Err? ==> r.error == check.error
    ensures r.Ok? ==> |r.value| == |argList| + 8 && r.value[..|argList|] == argList
    ensures r.Ok? ==> r.value[|argList|..] == C.StageArguments(stage + base.hlslFeatureLevel, stage + base.baseEntry, base.debugMode)
  {
    var _ :- check;
    Ok(argList + C.StageArguments(stage + base.hlslFeatureLevel, stage + base.baseEntry, base.debugMode))
  }

  /** Pushed onto an empty list, the arguments are the command line the base compiler builds for a CSO stage. */
  lemma PushArgListMatchesBase(base: C.Compiler, check: Result<(), Error>, stage: string)
    requires base.backend == C.CSO && check.Ok?
    ensures PushArgList(base, check, [], stage) == Ok(C.DxcArguments(base, stage))
  {
    var args := C.DxcArguments(base, stage);
    assert args == args[..8];
  }

  /**
   * One stage of the loop: push the arguments onto the list, compile the
   * stage, then clear the list. `CompileStage` assembles the DXC command
   * line itself, from the stage alone, so the list is kept but never read.
   * An exception from either step skips the clearing, so the list keeps
   * what was pushed.
   */
  function CsoStage(base: C.Compiler, check: Result<(), Error>, argList: seq<string>, stage: string, basepath: string, emptyBlob: bool)
    : (r: (C.StageRun, seq<string>))
    ensures r.0.build.Some? <==> check.Ok?
    ensures r.0.thrown.None? <==> check.Ok? && !(emptyBlob && stage in C.PackedStages)
    ensures r.0.build.Some? ==> r.0.build.value == C.StageBuild(stage, C.DxcArguments(base, stage),
                                                               C.StageOutputPath(base, basepath, stage), !emptyBlob)
    ensures r.0.thrown.None? ==> r.1 == []
    ensures r.0.build.None? ==> r.1 == argList
    ensures r.0.build.Some? && r.0.thrown.Some? ==> r.1 == PushArgList(base, check, argList, stage).value
  {
    match PushArgList(base, check, argList, stage)
    case Err(e) => (C.StageRun(None, Some(e)), argList)
    case Ok(args) =>
      var run := C.CompileStage(base, check, stage, basepath, emptyBlob);
      if run.thrown.Some? then (run, args) else (run, [])
  }

  /**
   * One registered path of `CSOCompiler::CompilePackedShader`: skipped when
   * it does not match the pattern, else compiled `vs` then `ps`, then the
   * manifest is written next to the source.
   */
  function CsoShaderFile(base: C.Compiler, checks: C.EntryChecks, argList: seq<string>, path: string, env: C.BuildEnv): (C.PackRun, seq<string>) {
    match C.SplitShaderPath(path)
    case None => (C.NothingDone, argList)
    case Some((dir, stem)) =>
      var basepath := dir + stem;
      var (vs, afterVs) := CsoStage(base, checks.vs, argList, "vs", basepath, C.StageOutputPath(base, basepath, "vs") in env.emptyBlobs);
      if vs.thrown.Some? then (C.PackRun(C.WritesOf(vs), C.BuildsOf(vs), vs.thrown), afterVs)
      else
        var (ps, afterPs) := CsoStage(base, checks.ps, afterVs, "ps", basepath, C.StageOutputPath(base, basepath, "ps") in env.emptyBlobs);
        var stages := C.PackRun(C.WritesOf(vs) + C.WritesOf(ps), C.BuildsOf(vs) + C.BuildsOf(ps), ps.thrown);
        if ps.thrown.Some? then (stages, afterPs)
        else (stages.(writes := stages.writes + [C.ManifestWrite(C.ManifestPath(base, basepath), C.ManifestFor(base, stem, true))]), afterPs)
  }

  /** The registered paths in order, under given entry-point checks: the run and the compiler it leaves behind. */
  function CsoBuild(cso: CsoCompiler, checks: C.EntryChecks, env: C.BuildEnv): (C.PackRun, CsoCompiler) {
    var (run, argList) := C.RunInOrder((a: seq<string>, p: string) => CsoShaderFile(cso.base, checks, a, p, env), cso.argList, cso.base.shaderFilepaths);
    (run, cso.(argList := argList))
  }

  /** `CSOCompiler::CompilePackedShader`: the run and the compiler it leaves behind. */
  function CompilePackedShader(cso: CsoCompiler, env: C.BuildEnv): (C.PackRun, CsoCompiler) {
    CsoBuild(cso, C.CheckEntryPoints(cso.base), env)
  }

  /** What a path needs to compile here: DXC fills both mandatory stages. No existence check is made. */
  predicate CsoBuildsCleanly(base: C.Compiler, path: string, env: C.BuildEnv)
    requires C.SplitShaderPath(path).Some?
  {
    var basepath := C.SplitShaderPath(path).value.0 + C.SplitShaderPath(path).value.1;
    && C.StageOutputPath(base, basepath, "vs") !in env.emptyBlobs
    && C.StageOutputPath(base, basepath, "ps") !in env.emptyBlobs
  }

  lemma CsoShaderFileSkips(base: C.Compiler, checks: C.EntryChecks, argList: seq<string>, path: string, env: C.BuildEnv)
    requires C.SplitShaderPath(path).None?
    ensures CsoShaderFile(base, checks, argList, path, env) == (C.NothingDone, argList)
  {
  }

  /** A matching source compiles without an exception exactly when its entry points are valid and DXC fills both stages. */
  lemma CsoShaderFileSucceedsIff(base: C.Compiler, checks: C.EntryChecks, argList: seq<string>, path: string, env: C.BuildEnv)
    requires C.SplitShaderPath(path).Some?
    ensures CsoShaderFile(base, checks, argList, path, env).0.thrown.None? <==> C.EntryPointsValid(checks) && CsoBuildsCleanly(base, path, env)
  {
    var (dir, stem) := C.SplitShaderPath(path).value;
    var basepath := dir + stem;
    assert "vs" in C.PackedStages && "ps" in C.PackedStages;
    var (vs, afterVs) := CsoStage(base, checks.vs, argList, "vs", basepath, C.StageOutputPath(base, basepath, "vs") in env.emptyBlobs);
    var (ps, afterPs) := CsoStage(base, checks.ps, afterVs, "ps", basepath, C.StageOutputPath(base, basepath, "ps") in env.emptyBlobs);
    assert CsoShaderFile(base, checks, argList, path, env).0.thrown.None? <==> vs.thrown.None? && ps.thrown.None?;
  }

  /** A matching source that compiles writes its two blobs and then a manifest with `{ "filename": ... }` entries. */
  lemma CsoShaderFileWrites(base: C.Compiler, checks: C.EntryChecks, argList: seq<string>, path: string, env: C.BuildEnv)
    requires C.SplitShaderPath(path).Some?
    requires CsoShaderFile(base, checks, argList, path, env).0.thrown.None?
    ensures CsoShaderFile(base, checks, argList, path, env).0.writes == C.ShaderOutputs(base, path, true)
  {
    var (dir, stem) := C.SplitShaderPath(path).value;
    var basepath := dir + stem;
    assert "vs" in C.PackedStages && "ps" in C.PackedStages;
    var (vs, afterVs) := CsoStage(base, checks.vs, argList, "vs", basepath, C.StageOutputPath(base, basepath, "vs") in env.emptyBlobs);
    var (ps, afterPs) := CsoStage(base, checks.ps, afterVs, "ps", basepath, C.StageOutputPath(base, basepath, "ps") in env.emptyBlobs);
    assert C.WritesOf(vs) == [C.BlobWrite(C.StageOutputPath(base, basepath, "vs"))];
    assert C.WritesOf(ps) == [C.BlobWrite(C.StageOutputPath(base, basepath, "ps"))];
  }

  /**
   * Whatever the list held, every DXC call for one source sees exactly the
   * command line of its own stage, and a matching source that compiles
   * leaves the list empty.
   */
  lemma CsoShaderFileArguments(base: C.Compiler, checks: C.EntryChecks, argList: seq<string>, path: string, env: C.BuildEnv)
    ensures var (run, after) := CsoShaderFile(base, checks, argList, path, env);
            && (forall j :: 0 <= j < |run.builds| ==> run.builds[j].args == C.DxcArguments(base, run.builds[j].stage))
            && (run.thrown.None? ==> after == if C.SplitShaderPath(path).Some? then [] else argList)
  {
    if C.SplitShaderPath(path).Some? {
      var (dir, stem) := C.SplitShaderPath(path).value;
      var basepath := dir + stem;
      var (vs, afterVs) := CsoStage(base, checks.vs, argList, "vs", basepath, C.StageOutputPath(base, basepath, "vs") in env.emptyBlobs);
      if vs.thrown.None? {
        var (ps, afterPs) := CsoStage(base, checks.ps, afterVs, "ps", basepath, C.StageOutputPath(base, basepath, "ps") in env.emptyBlobs);
        assert forall j :: 0 <= j < |C.BuildsOf(ps)| ==> C.BuildsOf(ps)[j].args == C.DxcArguments(base, C.BuildsOf(ps)[j].stage);
      }
      assert forall j :: 0 <= j < |C.BuildsOf(vs)| ==> C.BuildsOf(vs)[j].args == C.DxcArguments(base, C.BuildsOf(vs)[j].stage);
    }
  }

  /**
   * A build finishes without an exception exactly when, if any registered
   * path matches, both entry points are valid and DXC fills both stages of
   * every matching path.
   */
  lemma CsoBuildSucceedsIff(cso: CsoCompiler, checks: C.EntryChecks, env: C.BuildEnv)
    ensures CsoBuild(cso, checks, env).0.thrown.None? <==>
              forall i :: 0 <= i < |cso.base.shaderFilepaths| && C.SplitShaderPath(cso.base.shaderFilepaths[i]).Some? ==>
                C.EntryPointsValid(checks) && CsoBuildsCleanly(cso.base, cso.base.shaderFilepaths[i], env)
  {
    var base := cso.base;
    var step := (a: seq<string>, p: string) => CsoShaderFile(base, checks, a, p, env);
    var ok := p => C.SplitShaderPath(p).Some? && C.EntryPointsValid(checks) && CsoBuildsCleanly(base, p, env);
    forall a: seq<string>, p | C.SplitShaderPath(p).None? ensures step(a, p) == (C.NothingDone, a) {
      CsoShaderFileSkips(base, checks, a, p, env);
    }
    forall a: seq<string>, p | C.SplitShaderPath(p).Some? ensures step(a, p).0.thrown.None? <==> ok(p) {
      CsoShaderFileSucceedsIff(base, checks, a, p, env);
    }
    C.RunInOrderSucceedsIff(step, cso.argList, base.shaderFilepaths, ok);
  }

  /**
   * A build that finishes writes, for each matching path in order, the
   * vertex blob `<dir><stem>.vs.cso`, the pixel blob and the manifest
   * `<dir><stem>.d3d12.json` naming both blobs.
   */
  lemma CsoBuildWrites(cso: CsoCompiler, checks: C.EntryChecks, env: C.BuildEnv)
    requires CsoBuild(cso, checks, env).0.thrown.None?
    ensures var run := CsoBuild(cso, checks, env).0;
            var m := C.MatchingPaths(cso.base.shaderFilepaths);
            && |run.writes| == 3 * |m|
            && forall i :: 0 <= i < |m| ==> run.writes[3 * i..3 * i + 3] == C.ShaderOutputs(cso.base, m[i], true)
  {
    var base := cso.base;
    var step := (a: seq<string>, p: string) => CsoShaderFile(base, checks, a, p, env);
    var out := p => if C.SplitShaderPath(p).Some? then C.ShaderOutputs(base, p, true) else [C.BlobWrite(""), C.BlobWrite(""), C.BlobWrite("")];
    forall a: seq<string>, p | C.SplitShaderPath(p).None? ensures step(a, p) == (C.NothingDone, a) {
      CsoShaderFileSkips(base, checks, a, p, env);
    }
    forall a: seq<string>, p | C.SplitShaderPath(p).Some? && step(a, p).0.thrown.None? ensures step(a, p).0.writes == out(p) {
      CsoShaderFileWrites(base, checks, a, p, env);
    }
    C.RunInOrderWrites(step, cso.argList, base.shaderFilepaths, out);
  }

  /**
   * Whatever the list held, every DXC call of a build sees exactly the
   * eight arguments of its own stage, and a build that finishes leaves the
   * list empty, or as it was when no registered path matched.
   */
  lemma CsoBuildArguments(cso: CsoCompiler, checks: C.EntryChecks, env: C.BuildEnv)
    requires cso.base.backend == C.CSO
    ensures var (run, after) := CsoBuild(cso, checks, env);
            && (forall j :: 0 <= j < |run.builds| ==> run.builds[j].args == C.DxcArguments(cso.base, run.builds[j].stage)
                                                      && |run.builds[j].args| == 8)
            && (run.thrown.None? ==> after.argList == [] || after.argList == cso.argList)
  {
    var base := cso.base;
    var start := cso.argList;
    var step := (a: seq<string>, p: string) => CsoShaderFile(base, checks, a, p, env);
    forall a: seq<string>, p | C.SplitShaderPath(p).None? ensures step(a, p) == (C.NothingDone, a) {
      CsoShaderFileSkips(base, checks, a, p, env);
    }
    forall a: seq<string>, p
      ensures forall j :: 0 <= j < |step(a, p).0.builds| ==> step(a, p).0.builds[j].args == C.DxcArguments(base, step(a, p).0.builds[j].stage)
                                                             && |step(a, p).0.builds[j].args| == 8
      ensures (a == [] || a == start) && step(a, p).0.thrown.None? ==> step(a, p).1 == [] || step(a, p).1 == start
    {
      CsoShaderFileArguments(base, checks, a, p, env);
    }
    C.RunInOrderBuilds(step, start, base.shaderFilepaths, (a: seq<string>) => a == [] || a == start,
                       (b: C.StageBuild) => b.args == C.DxcArguments(base, b.stage) && |b.args| == 8);
  }

  /** For one source, an empty `vs` blob throws before the list is cleared, so the pushed arguments stay in it. */
  lemma CsoShaderFileFailedVertexStage(base: C.Compiler, checks: C.EntryChecks, argList: seq<string>, path: string, env: C.BuildEnv)
    requires C.SplitShaderPath(path).Some? && C.EntryPointsValid(checks)
    requires C.StageOutputPath(base, C.SplitShaderPath(path).value.0 + C.SplitShaderPath(path).value.1, "vs") in env.emptyBlobs
    ensures var (run, after) := CsoShaderFile(base, checks, argList, path, env);
            && run.thrown == Some(InvalidPipeline("vs is a mandatory stage"))
            && after == PushArgList(base, checks.vs, argList, "vs").value
  {
    assert "vs" in C.PackedStages;
    assert "vs" + " is a mandatory stage" == "vs is a mandatory stage";
  }

  /**
   * Arguments left over from an earlier build stay at the head of the list
   * and the next push lands after them, yet the DXC call is made with the
   * stage's own eight arguments only.
   */
  lemma LeftoverArgumentsStayInList(cso: CsoCompiler, checks: C.EntryChecks, path: string, env: C.BuildEnv)
    requires cso.base.backend == C.CSO && cso.base.shaderFilepaths == [path]
    requires C.SplitShaderPath(path).Some? && C.EntryPointsValid(checks)
    requires C.StageOutputPath(cso.base, C.SplitShaderPath(path).value.0 + C.SplitShaderPath(path).value.1, "vs") in env.emptyBlobs
    ensures var (run, after) := CsoBuild(cso, checks, env);
            && |run.builds| == 1 && run.builds[0].args == C.DxcArguments(cso.base, "vs")
            && after.argList == cso.argList + C.DxcArguments(cso.base, "vs")
  {
    var base := cso.base;
    var step := (a: seq<string>, p: string) => CsoShaderFile(base, checks, a, p, env);
    CsoShaderFileFailedVertexStage(base, checks, cso.argList, path, env);
    PushArgListMatchesBase(base, checks.vs, "vs");
    assert C.RunInOrder(step, cso.argList, [path]) == step(cso.argList, path);
  }

  /**
   * When a mandatory stage comes back empty the exception skips the
   * clearing: the compiler keeps that stage's eight arguments, and the next
   * build pushes its own after them.
   */
  lemma FailedStageLeavesArguments(cso: CsoCompiler, checks: C.EntryChecks, path: string, env: C.BuildEnv)
    requires cso.base.backend == C.CSO && cso.argList == [] && cso.base.shaderFilepaths == [path]
    requires C.SplitShaderPath(path).Some? && C.EntryPointsValid(checks)
    requires C.StageOutputPath(cso.base, C.SplitShaderPath(path).value.0 + C.SplitShaderPath(path).value.1, "vs") in env.emptyBlobs
    ensures var (run, after) := CsoBuild(cso, checks, env);
            && run.thrown == Some(InvalidPipeline("vs is a mandatory stage"))
            && after.argList == C.DxcArguments(cso.base, "vs")
  {
    var base := cso.base;
    var step := (a: seq<string>, p: string) => CsoShaderFile(base, checks, a, p, env);
    CsoShaderFileFailedVertexStage(base, checks, [], path, env);
    PushArgListMatchesBase(base, checks.vs, "vs");
    assert C.RunInOrder(step, [], [path]) == step([], path);
  }
}

=== FILE: d3d12_context.dfy ===
/**
 * The Direct3D 12 frame protocol, abstracted over the native API: the fence
 * counter that `FlushQueue` raises and `WaitForFence` waits on, the
 * PRESENT/RENDER_TARGET transitions of the current back buffer around a
 * frame, the order of work in a window resize, and the arithmetic of the
 * render-target descriptor handles and the scissor rectangle.
 *
 * The GPU is reduced to one number, the fence's completed value: a wait on
 * a value the GPU has not reached yet ends once it has reached it. Every
 * native call the context makes is recorded in a log of events.
 */
module D3D12Context {
  import opened Wrappers
  import opened Bytes

  /** The states a swap-chain buffer moves between; a freshly acquired buffer is in PRESENT. */
  datatype ResourceState = Present | RenderTarget

  /** A `D3D12_RECT`, in signed 32-bit `LONG` coordinates. */
  datatype Rect = Rect(left: int, top: int, right: int, bottom: int)

  /** The native calls the context makes, in the order it makes them. */
  datatype ContextEvent =
    | Signal(value: nat)
    | Wait(value: nat)
    | Barrier(target: nat, before: ResourceState, after: ResourceState)
    | Close
    | Execute
    | ResetAllocator
    | ResetList
    | Release(target: nat)
    | ResizeBuffers(width: nat, height: nat)
    | Acquire(target: nat, handle: nat)

  /**
   * The context: the fence value last signalled and the value the GPU has
   * completed, the swap-chain buffers (`None` once released), their
   * descriptor handles, the current back buffer, the viewport size, the
   * scissor and the log of native calls.
   */
  datatype Context = Context(
    framesInFlight: nat,
    fenceValue: nat,
    completed: nat,
    targets: seq<Option<ResourceState>>,
    rtvHandles: seq<nat>,
    currentBuffer: nat,
    width: nat,
    height: nat,
    scissor: Rect,
    log: seq<ContextEvent>)

  /** One buffer and one descriptor handle per frame in flight. */
  predicate Valid(c: Context) {
    |c.targets| == c.framesInFlight && |c.rtvHandles| == c.framesInFlight
  }

  /** The GPU has not completed a value that was never signalled. */
  predicate Coherent(c: Context) {
    c.completed <= c.fenceValue
  }

  /** Every signalled value has completed: no work is in flight. */
  predicate Drained(c: Context) {
    c.completed == c.fenceValue
  }

  /** Every swap-chain buffer is held and ready to be presented. */
  predicate AllPresent(c: Context) {
    forall i :: 0 <= i < |c.targets| ==> c.targets[i] == Some(Present)
  }

  function Max(a: nat, b: nat): nat {
    if a < b then b else a
  }

  // ---------------------------------------------------------------------
  // The fence counter
  // ---------------------------------------------------------------------

  /** The default argument of `WaitForFence`: `-1` as a `UINT64`. */
  const Sentinel: nat := U64 - 1

  /** The value a wait targets: the sentinel stands for the last value signalled. */
  function WaitTarget(c: Context, fenceValue: nat): nat {
    if fenceValue == Sentinel then c.fenceValue else fenceValue
  }

  /**
   * `WaitForFence(fenceValue)`: nothing happens when the GPU has already
   * completed the target; otherwise the context waits until it has.
   */
  function WaitForFence(c: Context, fenceValue: nat): (r: Context)
    ensures r.completed == Max(c.completed, WaitTarget(c, fenceValue))
    ensures c.completed >= WaitTarget(c, fenceValue) ==> r == c
    ensures c.completed < WaitTarget(c, fenceValue) ==> r.log == c.log + [Wait(WaitTarget(c, fenceValue))]
    ensures r.(completed := c.completed, log := c.log) == c
  {
    var target := WaitTarget(c, fenceValue);
    if c.completed < target then c.(completed := target, log := c.log + [Wait(target)])
    else c
  }

  /** A second wait on the same value returns at once. */
  lemma WaitIsIdempotent(c: Context, fenceValue: nat)
    ensures WaitForFence(WaitForFence(c, fenceValue), fenceValue) == WaitForFence(c, fenceValue)
  {
  }

  /** One turn of `FlushQueue`: signal the next value, then wait for it. */
  function SignalAndWait(c: Context): Context {
    var next := c.fenceValue + 1;
    WaitForFence(c.(fenceValue := next, log := c.log + [Signal(next)]), Sentinel)
  }

  /** The calls a flush of `n` makes on a coherent context whose last value is `v`. */
  function FlushTrace(v: nat, n: nat): (t: seq<ContextEvent>)
    ensures |t| == 2 * n
    decreases n
  {
    if n == 0 then [] else [Signal(v + 1), Wait(v + 1)] + FlushTrace(v + 1, n - 1)
  }

  /** Turn `i` of a flush signals `v + i + 1` and then waits for exactly that value. */
  lemma {:induction false} FlushTraceShape(v: nat, n: nat, i: nat)
    requires i < n
    ensures FlushTrace(v, n)[2 * i] == Signal(v + i + 1)
    ensures FlushTrace(v, n)[2 * i + 1] == Wait(v + i + 1)
    decreases n
  {
    if i > 0 {
      FlushTraceShape(v + 1, n - 1, i - 1);
      assert FlushTrace(v, n)[2 * i] == FlushTrace(v + 1, n - 1)[2 * (i - 1)];
      assert FlushTrace(v, n)[2 * i + 1] == FlushTrace(v + 1, n - 1)[2 * (i - 1) + 1];
    }
  }

  /**
   * `FlushQueue(flushCount)`: the counter rises by exactly `flushCount`, the
   * GPU ends having completed the last value, and nothing but the counter,
   * the completed value and the log changes. On a coherent context every
   * turn signals the next value and waits for it.
   */
  function FlushQueue(c: Context, n: nat): (r: Context)
    ensures r.fenceValue == c.fenceValue + n
    ensures n > 0 ==> r.completed == Max(c.completed, c.fenceValue + n)
    ensures n == 0 ==> r == c
    ensures r.(fenceValue := c.fenceValue, completed := c.completed, log := c.log) == c
    ensures Coherent(c) ==> Coherent(r) && r.log == c.log + FlushTrace(c.fenceValue, n)
    decreases n
  {
    if n == 0 then c
    else
      var s := SignalAndWait(c);
      var r := FlushQueue(s, n - 1);
      assert Coherent(c) ==> r.log == c.log + FlushTrace(c.fenceValue, n) by {
        if Coherent(c) {
          assert s.log == c.log + [Signal(c.fenceValue + 1), Wait(c.fenceValue + 1)];
          assert c.log + [Signal(c.fenceValue + 1), Wait(c.fenceValue + 1)] + FlushTrace(c.fenceValue + 1, n - 1)
              == c.log + FlushTrace(c.fenceValue, n);
        }
      }
      r
  }

  /** Flushing `m` times and then `n` times is flushing `m + n` times. */
  lemma {:induction false} FlushComposes(c: Context, m: nat, n: nat)
    ensures FlushQueue(FlushQueue(c, m), n) == FlushQueue(c, m + n)
    decreases m
  {
    if m > 0 {
      var s := SignalAndWait(c);
      FlushComposes(s, m - 1, n);
      assert FlushQueue(c, m) == FlushQueue(s, m - 1);
      assert FlushQueue(c, m + n) == FlushQueue(s, m - 1 + n);
    }
  }

  // ---------------------------------------------------------------------
  // One frame
  // ---------------------------------------------------------------------

  /**
   * `ReceiveCommands`: the swap chain's current back buffer becomes the
   * current buffer and moves PRESENT -> RENDER_TARGET. A buffer the swap
   * chain does not hold, or one not in PRESENT, makes the barrier invalid.
   */
  function ReceiveCommands(c: Context, backBuffer: nat): (r: Option<Context>)
    ensures r.Some? <==> backBuffer < |c.targets| && c.targets[backBuffer] == Some(Present)
    ensures r.Some? ==> |r.value.targets| == |c.targets|
    ensures r.Some? ==> r.value.currentBuffer == backBuffer && r.value.targets[backBuffer] == Some(RenderTarget)
    ensures r.Some? ==> forall i :: 0 <= i < |c.targets| && i != backBuffer ==> r.value.targets[i] == c.targets[i]
    ensures r.Some? ==> r.value.log == c.log + [Barrier(backBuffer, Present, RenderTarget)]
    ensures r.Some? ==> r.value.(currentBuffer := c.currentBuffer, targets := c.targets, log := c.log) == c
  {
    if backBuffer < |c.targets| && c.targets[backBuffer] == Some(Present) then
      Some(c.(currentBuffer := backBuffer,
              targets := c.targets[backBuffer := Some(RenderTarget)],
              log := c.log + [Barrier(backBuffer, Present, RenderTarget)]))
    else None
  }

  /**
   * `DispatchCommands`: the current buffer moves back RENDER_TARGET ->
   * PRESENT; the list is closed and executed; the queue is flushed once;
   * only then are the allocator and the list reset, so the reset never
   * reaches work the GPU is still running.
   */
  function DispatchCommands(c: Context): (r: Option<Context>)
    ensures r.Some? <==> c.currentBuffer < |c.targets| && c.targets[c.currentBuffer] == Some(RenderTarget)
    ensures r.Some? ==> r.value.targets == c.targets[c.currentBuffer := Some(Present)]
    ensures r.Some? ==> r.value.fenceValue == c.fenceValue + 1
    ensures r.Some? && Coherent(c) ==> Drained(r.value)
    ensures r.Some? && Coherent(c) ==>
              r.value.log == c.log + [Barrier(c.currentBuffer, RenderTarget, Present), Close, Execute]
                                   + FlushTrace(c.fenceValue, 1) + [ResetAllocator, ResetList]
    ensures r.Some? ==> r.value.(targets := c.targets, fenceValue := c.fenceValue, completed := c.completed, log := c.log) == c
  {
    var index := c.currentBuffer;
    if index < |c.targets| && c.targets[index] == Some(RenderTarget) then
      var closed := c.(targets := c.targets[index := Some(Present)],
                       log := c.log + [Barrier(index, RenderTarget, Present), Close, Execute]);
      var flushed := FlushQueue(closed, 1);
      Some(flushed.(log := flushed.log + [ResetAllocator, ResetList]))
    else None
  }

  /**
   * A frame on a context with every buffer presentable and no work in
   * flight: whichever buffer the swap chain hands out, receiving and
   * dispatching succeed, every buffer is presentable again, the counter has
   * risen by one and the GPU has completed it.
   */
  lemma FramePairRestores(c: Context, backBuffer: nat)
    requires AllPresent(c) && Coherent(c) && backBuffer < |c.targets|
    ensures ReceiveCommands(c, backBuffer).Some?
    ensures var r := DispatchCommands(ReceiveCommands(c, backBuffer).value);
            && r.Some? && AllPresent(r.value) && Drained(r.value)
            && r.value.targets == c.targets
            && r.value.fenceValue == c.fenceValue + 1
            && r.value.currentBuffer == backBuffer
  {
    var received := ReceiveCommands(c, backBuffer).value;
    assert received.targets[backBuffer := Some(Present)] == c.targets;
  }

  /** Receiving the same buffer twice without a dispatch in between is an invalid barrier. */
  lemma ReceiveTwiceFails(c: Context, backBuffer: nat)
    requires ReceiveCommands(c, backBuffer).Some?
    ensures ReceiveCommands(ReceiveCommands(c, backBuffer).value, backBuffer).None?
  {
  }

  // ---------------------------------------------------------------------
  // Descriptor handles, viewport and scissor
  // ---------------------------------------------------------------------

  /** `rtvHeapStartHandle.ptr + i * m_RTVHeapIncrement`, in 64-bit arithmetic. */
  function RtvHandle(start: nat, increment: nat, i: nat): (h: nat)
    ensures h < U64
  {
    (start + i * increment) % U64
  }

  /** `CreateRenderTargetView`: one handle per frame in flight. */
  function RtvHandles(start: nat, increment: nat, n: nat): (hs: seq<nat>)
    ensures |hs| == n
    ensures forall i :: 0 <= i < n ==> hs[i] == RtvHandle(start, increment, i)
  {
    seq(n, i requires 0 <= i < n => RtvHandle(start, increment, i))
  }

  /** Consecutive handles are one increment apart, modulo 2^64. */
  lemma RtvHandlesStep(start: nat, increment: nat, n: nat, i: nat)
    requires i + 1 < n
    ensures var hs := RtvHandles(start, increment, n);
            hs[i + 1] == (hs[i] + increment) % U64
  {
    var a := start + i * increment;
    assert start + (i + 1) * increment == a + increment;
  }

  /** While the heap does not wrap the address space, distinct frames get distinct handles. */
  lemma RtvHandlesDistinct(start: nat, increment: nat, n: nat, i: nat, j: nat)
    requires increment > 0 && n > 0 && start + (n - 1) * increment < U64
    requires i < j < n
    ensures var hs := RtvHandles(start, increment, n);
            hs[i] < hs[j]
  {
    assert i * increment < j * increment;
    assert j * increment <= (n - 1) * increment;
  }

  /** A `uint32_t` cast to the 32-bit signed `LONG` of a `D3D12_RECT`. */
  function ToLong(x: nat): (l: int)
    requires x < U32
    ensures -0x8000_0000 <= l < 0x8000_0000
    ensures l % U32 == x
  {
    if x < 0x8000_0000 then x else x - U32
  }

  /** `CreateViewportAndScissor`: the viewport covers the window and the scissor is `(0, 0, width, height)`. */
  function ViewportAndScissor(c: Context, width: nat, height: nat): (r: Context)
    requires width < U32 && height < U32
    ensures r.width == width && r.height == height
    ensures r.scissor == Rect(0, 0, ToLong(width), ToLong(height))
    ensures r.(width := c.width, height := c.height, scissor := c.scissor) == c
  {
    c.(width := width, height := height, scissor := Rect(0, 0, ToLong(width), ToLong(height)))
  }

  /** On any window narrower and shorter than 2^31 the scissor is exactly the window. */
  lemma ScissorCoversWindow(c: Context, width: nat, height: nat)
    requires width < 0x8000_0000 && height < 0x8000_0000
    ensures var s := ViewportAndScissor(c, width, height).scissor;
            s.left == 0 && s.top == 0 && s.right - s.left == width && s.bottom - s.top == height
  {
  }

  /** A width of 2^31 or more becomes a negative right edge. */
  lemma WideScissorIsNegative(c: Context, width: nat, height: nat)
    requires 0x8000_0000 <= width < U32 && height < U32
    ensures ViewportAndScissor(c, width, height).scissor.right < 0
  {
  }

  // ---------------------------------------------------------------------
  // Swap-chain buffers and resizing
  // ---------------------------------------------------------------------

  /** The acquisition calls of `GetTargets`: buffer `i` is fetched and viewed through handle `i`. */
  function AcquireTrace(handles: seq<nat>): (t: seq<ContextEvent>)
    ensures |t| == |handles|
    ensures forall i :: 0 <= i < |t| ==> t[i] == Acquire(i, handles[i])
  {
    seq(|handles|, i requires 0 <= i < |handles| => Acquire(i, handles[i]))
  }

  /** The release calls of `WindowResize`, buffer 0 first. */
  function ReleaseTrace(n: nat): (t: seq<ContextEvent>)
    ensures |t| == n
    ensures forall i :: 0 <= i < n ==> t[i] == Release(i)
  {
    seq(n, i requires 0 <= i < n => Release(i))
  }

  /** `GetTargets`: every buffer is fetched again, in PRESENT, and given its view. */
  function GetTargets(c: Context): (r: Context)
    requires Valid(c)
    ensures Valid(r) && AllPresent(r)
    ensures r.log == c.log + AcquireTrace(c.rtvHandles)
    ensures r.(targets := c.targets, log := c.log) == c
  {
    c.(targets := seq(c.framesInFlight, _ => Some(Present)), log := c.log + AcquireTrace(c.rtvHandles))
  }

  /**
   * `WindowResize(width, height)`: the queue is flushed once per frame in
   * flight before any buffer is released; then every buffer is released,
   * the swap chain resized, the buffers fetched again and the viewport and
   * scissor rebuilt for the new size.
   */
  function WindowResize(c: Context, width: nat, height: nat): (r: Context)
    requires Valid(c) && width < U32 && height < U32
    ensures Valid(r) && AllPresent(r)
    ensures r.fenceValue == c.fenceValue + c.framesInFlight
    ensures Coherent(c) ==> Coherent(r)
    ensures Coherent(c) && c.framesInFlight > 0 ==> Drained(r)
    ensures Coherent(c) ==>
              r.log == c.log + FlushTrace(c.fenceValue, c.framesInFlight) + ReleaseTrace(c.framesInFlight)
                             + [ResizeBuffers(width, height)] + AcquireTrace(c.rtvHandles)
    ensures r.rtvHandles == c.rtvHandles && r.framesInFlight == c.framesInFlight && r.currentBuffer == c.currentBuffer
    ensures r.width == width && r.height == height && r.scissor == Rect(0, 0, ToLong(width), ToLong(height))
  {
    var n := c.framesInFlight;
    var flushed := FlushQueue(c, n);
    var released := flushed.(targets := seq(n, _ => None), log := flushed.log + ReleaseTrace(n));
    var resized := released.(log := released.log + [ResizeBuffers(width, height)]);
    ViewportAndScissor(GetTargets(resized), width, height)
  }

  /**
   * Where the releases start in the log of a resize: everything before
   * them is the flush, whose last call waited for the last value signalled
   * (when there is a frame in flight at all).
   */
  lemma ResizeReleasesAfterFlush(c: Context, width: nat, height: nat, k: nat)
    requires Valid(c) && Coherent(c) && width < U32 && height < U32
    requires k < c.framesInFlight
    ensures var r := WindowResize(c, width, height);
            var at := |c.log| + 2 * c.framesInFlight;
            && at + k < |r.log|
            && r.log[at + k] == Release(k)
            && r.log[at - 1] == Wait(c.fenceValue + c.framesInFlight)
  {
    var n := c.framesInFlight;
    var r := WindowResize(c, width, height);
    var at := |c.log| + 2 * n;
    FlushTraceShape(c.fenceValue, n, n - 1);
    assert r.log[at - 1] == FlushTrace(c.fenceValue, n)[2 * (n - 1) + 1];
    assert r.log[at + k] == ReleaseTrace(n)[k];
  }

  // ---------------------------------------------------------------------
  // Construction
  // ---------------------------------------------------------------------

  /**
   * `D3D12Context(width, height, windowHandle, framesInFlight)`: the fence
   * starts at 0 with nothing completed, the viewport and scissor match the
   * window, one descriptor handle per frame is laid out from the heap start,
   * every buffer is fetched in PRESENT, and no back buffer is current yet
   * (`UINT` -1).
   */
  function NewContext(width: nat, height: nat, framesInFlight: nat, heapStart: nat, increment: nat): (c: Context)
    requires width < U32 && height < U32 && framesInFlight < U32
    ensures Valid(c) && AllPresent(c) && Drained(c) && c.fenceValue == 0
    ensures c.rtvHandles == RtvHandles(heapStart, increment, framesInFlight)
    ensures c.width == width && c.height == height && c.scissor == Rect(0, 0, ToLong(width), ToLong(height))
    ensures c.currentBuffer == U32 - 1
    ensures c.log == AcquireTrace(c.rtvHandles)
  {
    var blank := Context(framesInFlight, 0, 0, seq(framesInFlight, _ => None),
                         RtvHandles(heapStart, increment, framesInFlight), U32 - 1, 0, 0, Rect(0, 0, 0, 0), []);
    var sized := ViewportAndScissor(blank, width, height);
    GetTargets(sized)
  }

  /** No frame has been received on a new context, so dispatching first is an invalid barrier. */
  lemma DispatchBeforeReceiveFails(width: nat, height: nat, framesInFlight: nat, heapStart: nat, increment: nat)
    requires width < U32 && height < U32 && framesInFlight < U32
    ensures DispatchCommands(NewContext(width, height, framesInFlight, heapStart, increment)).None?
  {
  }

  /** After a resize every buffer can carry a frame again, whichever the swap chain picks. */
  lemma FrameAfterResize(c: Context, width: nat, height: nat, backBuffer: nat)
    requires Valid(c) && Coherent(c) && width < U32 && height < U32
    requires backBuffer < c.framesInFlight
    ensures var resized := WindowResize(c, width, height);
            var r := DispatchCommands(ReceiveCommands(resized, backBuffer).value);
            r.Some? && AllPresent(r.value) && Drained(r.value)
  {
    FramePairRestores(WindowResize(c, width, height), backBuffer);
  }
}

=== FILE: d3d12_shader.dfy ===
/**
 * The Direct3D 12 shader: the input layout it derives from a buffer layout,
 * its root signature, the fixed pipeline state it sets, and the stage blobs
 * it loads through the manifest. Device calls are left out; a blob is its
 * bytes.
 */
module D3D12Shader {
  import opened Wrappers
  import opened Errors
  import opened Files
  import opened Bytes
  import SD = ShaderData
  import BL = BufferLayout
  import SL = ShaderLoading
  import C = Compiler
  import Vk = VkShader
  import Sh = Shader
  import AS = ApplicationStarter

  // ---------------------------------------------------------------------
  // Formats and input layout
  // ---------------------------------------------------------------------

  /** The `DXGI_FORMAT` values an input element can have. */
  datatype DxgiFormat =
    | Unknown
    | R32Float | R32G32Float | R32G32B32Float | R32G32B32A32Float
    | R32Uint | R32G32Uint | R32G32B32Uint | R32G32B32A32Uint
    | R8Uint

  /** What a format's name says: its channels, their width and how they are read; nothing for `UNKNOWN`. */
  function DxgiFormatShape(f: DxgiFormat): Option<SL.FormatShape> {
    match f
    case Unknown => None
    case R32Float => Some(SL.FormatShape(1, 32, SL.SignedFloat))
    case R32G32Float => Some(SL.FormatShape(2, 32, SL.SignedFloat))
    case R32G32B32Float => Some(SL.FormatShape(3, 32, SL.SignedFloat))
    case R32G32B32A32Float => Some(SL.FormatShape(4, 32, SL.SignedFloat))
    case R32Uint => Some(SL.FormatShape(1, 32, SL.UnsignedInt))
    case R32G32Uint => Some(SL.FormatShape(2, 32, SL.UnsignedInt))
    case R32G32B32Uint => Some(SL.FormatShape(3, 32, SL.UnsignedInt))
    case R32G32B32A32Uint => Some(SL.FormatShape(4, 32, SL.UnsignedInt))
    case R8Uint => Some(SL.FormatShape(1, 8, SL.UnsignedInt))
  }

  /** `GetNativeFormat`: the format whose shape is the one the type needs; `UNKNOWN` for a matrix and for `None`. */
  function NativeFormat(t: SD.ShaderDataType): (f: DxgiFormat)
    ensures DxgiFormatShape(f) == SL.TypeShape(t)
    ensures f == Unknown <==> t == SD.ShaderDataType.None || t == SD.Mat4
  {
    match t
    case Float => R32Float
    case Float2 => R32G32Float
    case Float3 => R32G32B32Float
    case Float4 => R32G32B32A32Float
    case Uint => R32Uint
    case Uint2 => R32G32Uint
    case Uint3 => R32G32B32Uint
    case Uint4 => R32G32B32A32Uint
    case Bool => R8Uint
    case _ => Unknown
  }

  /**
   * The two backends agree on every type: the same channel count, width and
   * base type, and both have no format for exactly the same types.
   */
  lemma FormatsAgree(t: SD.ShaderDataType)
    ensures DxgiFormatShape(NativeFormat(t)) == Vk.VkFormatShape(Vk.NativeFormat(t))
    ensures NativeFormat(t) == Unknown <==> Vk.NativeFormat(t) == Vk.Undefined
  {
  }

  datatype InputClassification = PerVertexData | PerInstanceData

  /** A `D3D12_INPUT_ELEMENT_DESC`. */
  datatype InputElement = InputElement(
    semanticName: string, semanticIndex: nat, format: DxgiFormat,
    inputSlot: nat, alignedByteOffset: nat, slotClass: InputClassification, stepRate: nat)

  /**
   * The constructor's element loop: one input element per layout element,
   * named by the element, semantic index 0, slot 0, at the element's offset,
   * per-vertex, with the format of its type.
   */
  function InputElements(layout: BL.BufferLayout): (ied: seq<InputElement>)
    ensures |ied| == |layout.elements|
    ensures forall i :: 0 <= i < |ied| ==>
              && ied[i].semanticName == layout.elements[i].name && ied[i].semanticIndex == 0
              && ied[i].inputSlot == 0 && ied[i].slotClass == PerVertexData && ied[i].stepRate == 0
    ensures forall i :: 0 <= i < |ied| ==>
              ied[i].alignedByteOffset == layout.elements[i].offset
              && DxgiFormatShape(ied[i].format) == SL.TypeShape(layout.elements[i].dataType)
  {
    seq(|layout.elements|, i requires 0 <= i < |layout.elements| =>
      var e := layout.elements[i];
      InputElement(e.name, 0, NativeFormat(e.dataType), 0, e.offset, PerVertexData, 0))
  }

  /**
   * The same layout gives both backends the same vertex: element `i` is read
   * from the same slot, at the same offset, with a format of the same shape,
   * as Vulkan's attribute at location `i`.
   */
  lemma InputLayoutsAgree(layout: BL.BufferLayout, i: nat)
    requires i < |layout.elements|
    ensures var d := InputElements(layout)[i];
            var v := Vk.VertexAttributes(layout)[i];
            && d.alignedByteOffset == v.offset && d.inputSlot == v.binding
            && DxgiFormatShape(d.format) == Vk.VkFormatShape(v.format)
            && v.location == i
  {
  }

  // ---------------------------------------------------------------------
  // Root signature
  // ---------------------------------------------------------------------

  datatype Visibility = VisibleToAll | VisibleToVertex | VisibleToPixel

  /** The register class a binding lives in: `b`, `t`, `u` or `s`. */
  datatype RegisterClass = ConstantRegister | TextureRegister | UnorderedRegister | SamplerRegister

  datatype RangeType = SrvRange | UavRange | CbvRange | SamplerRange

  datatype DescriptorRange = DescriptorRange(
    rangeType: RangeType, numDescriptors: nat, baseRegister: nat, registerSpace: nat, offsetInTable: nat)

  datatype RootParameter =
    | RootConstants(shaderRegister: nat, registerSpace: nat, num32BitValues: nat, visibility: Visibility)
    | DescriptorTable(ranges: seq<DescriptorRange>, visibility: Visibility)

  datatype AddressMode = Wrap | Mirror | Clamp | Border

  /** A `D3D12_STATIC_SAMPLER_DESC`; LOD bounds and bias are floating point and left out. */
  datatype StaticSampler = StaticSampler(
    comparisonLinearFilter: bool, addressU: AddressMode, addressV: AddressMode, addressW: AddressMode,
    maxAnisotropy: nat, comparison: SL.Comparison, shaderRegister: nat, registerSpace: nat, visibility: Visibility)

  datatype RootFlag = AllowInputAssemblerInputLayout | DenyDomainShaderRootAccess
                    | DenyHullShaderRootAccess | DenyGeometryShaderRootAccess

  datatype RootSignature = RootSignature(
    parameters: seq<RootParameter>, staticSamplers: seq<StaticSampler>, flags: set<RootFlag>)

  /**
   * `CreateGraphicsRootSignature`: 32 root constants at `b0` for the vertex
   * stage, a table of one shader resource view at `t0` for the pixel stage,
   * and one static sampler at `s0` for the pixel stage. The parameter count
   * is the array size over `sizeof(D3D12_ROOT_PARAMETER)`, which is 2
   * because the versioned structure has the same size.
   */
  const GraphicsRootSignature := RootSignature(
    [RootConstants(0, 0, 32, VisibleToVertex),
     DescriptorTable([DescriptorRange(SrvRange, 1, 0, 0, 0)], VisibleToPixel)],
    [StaticSampler(true, Wrap, Wrap, Wrap, 0, SL.Always, 0, 0, VisibleToPixel)],
    {AllowInputAssemblerInputLayout, DenyDomainShaderRootAccess, DenyHullShaderRootAccess, DenyGeometryShaderRootAccess})

  /** A register a root signature binds: its class, space and number, and which stages see it. */
  datatype Binding = Binding(registerClass: RegisterClass, space: nat, register: nat, visibility: Visibility)

  function RangeClass(t: RangeType): RegisterClass {
    match t
    case SrvRange => TextureRegister
    case UavRange => UnorderedRegister
    case CbvRange => ConstantRegister
    case SamplerRange => SamplerRegister
  }

  /** The registers one range binds. */
  function RangeBindings(r: DescriptorRange, v: Visibility): set<Binding> {
    set k | r.baseRegister <= k < r.baseRegister + r.numDescriptors :: Binding(RangeClass(r.rangeType), r.registerSpace, k, v)
  }

  /** The registers one root parameter binds. */
  function ParameterBindings(p: RootParameter): set<Binding> {
    match p
    case RootConstants(reg, space, _, v) => {Binding(ConstantRegister, space, reg, v)}
    case DescriptorTable(ranges, v) => set r, b | r in ranges && b in RangeBindings(r, v) :: b
  }

  /** Every register a root signature binds, from its parameters and its static samplers. */
  function SignatureBindings(rs: RootSignature): set<Binding> {
    (set p, b | p in rs.parameters && b in ParameterBindings(p) :: b)
    + (set s | s in rs.staticSamplers :: Binding(SamplerRegister, s.registerSpace, s.shaderRegister, s.visibility))
  }

  /**
   * The root signature binds exactly `b0` to the vertex stage and `t0` and
   * `s0` to the pixel stage, all in space 0; the vertex stage gets 32
   * 32-bit values, 128 bytes, of root constants.
   */
  lemma RootSignatureBindings()
    ensures SignatureBindings(GraphicsRootSignature) == {
              Binding(ConstantRegister, 0, 0, VisibleToVertex),
              Binding(TextureRegister, 0, 0, VisibleToPixel),
              Binding(SamplerRegister, 0, 0, VisibleToPixel)}
    ensures |GraphicsRootSignature.parameters| == 2
    ensures GraphicsRootSignature.parameters[0].num32BitValues * 4 == 128
  {
    var table := GraphicsRootSignature.parameters[1];
    var range := DescriptorRange(SrvRange, 1, 0, 0, 0);
    assert RangeBindings(range, VisibleToPixel) == {Binding(TextureRegister, 0, 0, VisibleToPixel)} by {
      forall b | b in RangeBindings(range, VisibleToPixel)
        ensures b == Binding(TextureRegister, 0, 0, VisibleToPixel)
      {
      }
      assert range.baseRegister <= 0 < range.baseRegister + range.numDescriptors;
      assert Binding(RangeClass(range.rangeType), range.registerSpace, 0, VisibleToPixel) in RangeBindings(range, VisibleToPixel);
    }
    assert ParameterBindings(table) == {Binding(TextureRegister, 0, 0, VisibleToPixel)} by {
      assert table.ranges == [range];
    }
    var params := GraphicsRootSignature.parameters;
    assert (set p, b | p in params && b in ParameterBindings(p) :: b)
           == {Binding(ConstantRegister, 0, 0, VisibleToVertex), Binding(TextureRegister, 0, 0, VisibleToPixel)} by {
      assert ParameterBindings(params[0]) == {Binding(ConstantRegister, 0, 0, VisibleToVertex)};
      assert params[1] == table;
      forall p, b | p in params && b in ParameterBindings(p)
        ensures b == Binding(ConstantRegister, 0, 0, VisibleToVertex) || b == Binding(TextureRegister, 0, 0, VisibleToPixel)
      {
      }
    }
  }

  // ---------------------------------------------------------------------
  // Fixed pipeline state
  // ---------------------------------------------------------------------

  datatype Blend = BlendZero | BlendOne | SrcAlpha | InvSrcAlpha
  datatype BlendOp = OpAdd | OpSubtract | OpMin | OpMax

  /** The blend state of render target 0. */
  datatype BlendDesc = BlendDesc(
    alphaToCoverage: bool, blendEnable: bool,
    srcBlend: Blend, destBlend: Blend, blendOp: BlendOp,
    srcBlendAlpha: Blend, destBlendAlpha: Blend, blendOpAlpha: BlendOp,
    writeAll: bool)

  datatype FillMode = Solid | Wireframe

  /** The rasterizer state; the depth-bias values are the API defaults and floating point, and left out. */
  datatype RasterizerDesc = RasterizerDesc(
    fillMode: FillMode, cullMode: SL.CullMode, frontCounterClockwise: bool, depthClip: bool,
    multisample: bool, antialiasedLine: bool, forcedSampleCount: nat, conservative: bool)

  datatype StencilOp = Keep | ZeroOp | Replace | IncrSat | DecrSat | Invert | Incr | Decr

  datatype StencilFace = StencilFace(failOp: StencilOp, depthFailOp: StencilOp, passOp: StencilOp, func: SL.Comparison)

  datatype DepthStencilDesc = DepthStencilDesc(
    depthEnable: bool, depthWriteAll: bool, depthFunc: SL.Comparison,
    stencilEnable: bool, frontFace: StencilFace, backFace: StencilFace)

  /** `BuildBlender`: straight alpha blending on render target 0. */
  const Blender := BlendDesc(false, true, SrcAlpha, InvSrcAlpha, OpAdd, BlendOne, InvSrcAlpha, OpAdd, true)

  /** `BuildRasterizer`. */
  const Rasterizer := RasterizerDesc(Solid, SL.CullBack, false, true, false, false, 0, false)

  /** `BuildDepthStencil`: the back face is a copy of the front face, made after it. */
  const DepthStencil :=
    var front := StencilFace(Keep, Keep, Keep, SL.Always);
    DepthStencilDesc(true, true, SL.LessEqual, true, front, front)

  /** A stencil operation applied to the stored 8-bit value with reference `ref`. */
  function ApplyStencil(op: StencilOp, stored: nat, ref: nat): (r: nat)
    requires stored < 256
    ensures r < 256
  {
    match op
    case Keep => stored
    case ZeroOp => 0
    case Replace => ref % 256
    case IncrSat => if stored == 255 then 255 else stored + 1
    case DecrSat => if stored == 0 then 0 else stored - 1
    case Invert => 255 - stored
    case Incr => (stored + 1) % 256
    case Decr => (stored + 255) % 256
  }

  /** What the stencil stage leaves in the buffer for a fragment, given whether its depth test passes. */
  function StencilAfter(face: StencilFace, stored: nat, ref: nat, depthPasses: bool): (r: nat)
    requires stored < 256
    ensures r < 256
  {
    if !SL.Passes(face.func, ref % 256, stored) then ApplyStencil(face.failOp, stored, ref)
    else if !depthPasses then ApplyStencil(face.depthFailOp, stored, ref)
    else ApplyStencil(face.passOp, stored, ref)
  }

  /**
   * The stencil test is on but inert: every fragment passes it, and whatever
   * the depth test says, both faces leave the stored value as it was.
   */
  lemma StencilIsInert(stored: nat, ref: nat, depthPasses: bool)
    requires stored < 256
    ensures DepthStencil.stencilEnable
    ensures SL.Passes(DepthStencil.frontFace.func, ref % 256, stored)
    ensures StencilAfter(DepthStencil.frontFace, stored, ref, depthPasses) == stored
    ensures StencilAfter(DepthStencil.backFace, stored, ref, depthPasses) == stored
  {
  }

  /**
   * Against the Vulkan shader: the same culling of back faces with clockwise
   * front faces, and the same depth test that keeps fragments no farther than
   * the stored depth; but Direct3D 12 blends with the source alpha where
   * Vulkan writes colours unblended.
   */
  lemma AgainstVulkanState(incoming: int, stored: int)
    ensures Rasterizer.cullMode == Vk.FixedState.cullMode
    ensures (if Rasterizer.frontCounterClockwise then SL.CounterClockwise else SL.Clockwise) == Vk.FixedState.frontFace
    ensures DepthStencil.depthEnable == Vk.FixedState.depthTest && DepthStencil.depthWriteAll == Vk.FixedState.depthWrite
    ensures SL.Passes(DepthStencil.depthFunc, incoming, stored) <==> SL.Passes(Vk.FixedState.depthCompare, incoming, stored)
    ensures Blender.blendEnable && !Vk.FixedState.blendEnable
  {
  }

  // ---------------------------------------------------------------------
  // Stage blobs and the pipeline description
  // ---------------------------------------------------------------------

  datatype TopologyType = TriangleTopology | LineTopology | PointTopology | PatchTopology
  datatype RenderTargetFormat = R8G8B8A8Unorm
  datatype DepthFormat = D24UnormS8Uint

  /** The parts of `D3D12_GRAPHICS_PIPELINE_STATE_DESC` the constructor sets. */
  datatype PipelineDesc = PipelineDesc(
    nodeMask: nat, inputLayout: seq<InputElement>, sampleMask: nat,
    numRenderTargets: nat, rtvFormat: RenderTargetFormat, dsvFormat: DepthFormat,
    topologyType: TopologyType, sampleCount: nat,
    vs: Option<Blob>, ps: Option<Blob>,
    blend: BlendDesc, rasterizer: RasterizerDesc, depthStencil: DepthStencilDesc)

  /** The description before any stage is pushed and before the `Build*` setters: zeroed state, no shaders. */
  function BaseDesc(layout: BL.BufferLayout): (d: PipelineDesc)
    ensures d.inputLayout == InputElements(layout) && d.vs.None? && d.ps.None?
    ensures d.sampleMask == U32 - 1 && d.numRenderTargets == 1 && d.sampleCount == 1
  {
    PipelineDesc(1, InputElements(layout), U32 - 1, 1, R8G8B8A8Unorm, D24UnormS8Uint, TriangleTopology, 1,
                 None, None,
                 BlendDesc(false, false, BlendZero, BlendZero, OpAdd, BlendZero, BlendZero, OpAdd, false),
                 RasterizerDesc(Solid, SL.CullNone, false, false, false, false, 0, false),
                 DepthStencilDesc(false, false, SL.Never, false, StencilFace(Keep, Keep, Keep, SL.Never),
                                  StencilFace(Keep, Keep, Keep, SL.Never)))
  }

  /** `s_ShaderPusher`: the stages whose blob goes into the description. */
  const ShaderPusher: set<string> := {"vs", "ps"}

  /**
   * `PushShader`: the blob path is read from the manifest; a missing or
   * unreadable blob leaves everything as it was. Otherwise the blob is kept
   * under its stage, and set as the vertex or pixel shader when the stage is
   * "vs" or "ps". Unlike the Vulkan shader there is no check for a stage
   * already loaded.
   */
  function PushShader(blobs: map<string, Blob>, desc: PipelineDesc, manifestPath: string, manifest: Manifest,
                      stage: string, fs: FileSystem, windows: bool): (r: Result<(map<string, Blob>, PipelineDesc), Error>)
    ensures r.Err? <==> Vk.Unindexable(manifest, stage)
    ensures r.Err? ==> r.error == JsonNotAnObject
    ensures r.Ok? ==>
              var path := SL.BlobPath(manifestPath, manifest, stage, windows).value;
              if path in fs.existing && path in fs.readable then
                && r.value.0 == blobs[stage := fs.readable[path]]
                && r.value.1.vs == (if stage == "vs" then Some(fs.readable[path]) else desc.vs)
                && r.value.1.ps == (if stage == "ps" then Some(fs.readable[path]) else desc.ps)
                && r.value.1 == desc.(vs := r.value.1.vs, ps := r.value.1.ps)
              else r.value == (blobs, desc)
  {
    var path :- SL.BlobPath(manifestPath, manifest, stage, windows);
    if path !in fs.existing || path !in fs.readable then Ok((blobs, desc))
    else
      var blob := fs.readable[path];
      var pushed := if stage !in ShaderPusher then desc
                    else if stage == "vs" then desc.(vs := Some(blob))
                    else desc.(ps := Some(blob));
      Ok((blobs[stage := blob], pushed))
  }

  /** A constructed `D3D12Shader`: the stage blobs, the description it created the pipeline from, and the root signature. */
  datatype D3D12Pipeline = D3D12Pipeline(blobs: map<string, Blob>, desc: PipelineDesc, rootSignature: RootSignature)

  /** `GetStride`: the stride of the layout the input elements came from. */
  function GetStride(layout: BL.BufferLayout): nat {
    layout.stride
  }

  /**
   * `D3D12Shader(context, json_controller_path, layout)`: the input layout,
   * the root signature, "vs" then "ps" pushed, then the blend, rasterizer and
   * depth-stencil setters. An exception from a bare-string manifest entry
   * ends the construction.
   */
  function BuildD3D12Shader(manifestPath: string, manifest: Manifest, layout: BL.BufferLayout,
                            fs: FileSystem, windows: bool): (r: Result<D3D12Pipeline, Error>)
    ensures r.Err? <==> Vk.Unindexable(manifest, "vs") || Vk.Unindexable(manifest, "ps")
    ensures r.Err? ==> r.error == JsonNotAnObject
    ensures r.Ok? ==> StageBlob(r.value.desc.vs, manifestPath, manifest, "vs", fs, windows)
                      && StageBlob(r.value.desc.ps, manifestPath, manifest, "ps", fs, windows)
    ensures r.Ok? ==> r.value.blobs.Keys <= {"vs", "ps"}
                      && ("vs" in r.value.blobs <==> r.value.desc.vs.Some?)
                      && ("vs" in r.value.blobs ==> r.value.desc.vs == Some(r.value.blobs["vs"]))
                      && ("ps" in r.value.blobs <==> r.value.desc.ps.Some?)
                      && ("ps" in r.value.blobs ==> r.value.desc.ps == Some(r.value.blobs["ps"]))
    ensures r.Ok? ==> r.value.desc.inputLayout == InputElements(layout) && r.value.rootSignature == GraphicsRootSignature
    ensures r.Ok? ==> r.value.desc.blend == Blender && r.value.desc.rasterizer == Rasterizer
                      && r.value.desc.depthStencil == DepthStencil
  {
    var desc := BaseDesc(layout);
    var (afterVs, vsDesc) :- PushShader(map[], desc, manifestPath, manifest, "vs", fs, windows);
    var (afterPs, psDesc) :- PushShader(afterVs, vsDesc, manifestPath, manifest, "ps", fs, windows);
    Ok(D3D12Pipeline(afterPs, psDesc.(blend := Blender, rasterizer := Rasterizer, depthStencil := DepthStencil),
                     GraphicsRootSignature))
  }

  /** What the description holds for `stage`: the blob the manifest names, exactly when it exists and is readable. */
  ghost predicate StageBlob(shader: Option<Blob>, manifestPath: string, manifest: Manifest, stage: string,
                            fs: FileSystem, windows: bool)
    requires !Vk.Unindexable(manifest, stage)
  {
    var path := SL.BlobPath(manifestPath, manifest, stage, windows).value;
    && (shader.Some? <==> path in fs.existing && path in fs.readable)
    && (shader.Some? ==> shader.value == fs.readable[path])
  }

  /**
   * From compiler to pipeline: given the two blobs the CSO compiler writes
   * for `dir/stem.hlsl` on disk, the Direct3D 12 shader the factory creates
   * from base path `dir/stem` reads the manifest the compiler writes last,
   * and sets its vertex and pixel shaders to exactly those blobs.
   */
  lemma LoadsWhatCsoWrote(base: C.Compiler, path: string, layout: BL.BufferLayout, fs: FileSystem)
    requires base.backend == C.CSO
    requires C.SplitShaderPath(path).Some?
    requires var (dir, stem) := C.SplitShaderPath(path).value;
             && |dir| >= 2 && !IsSeparator(dir[|dir| - 2], true)
             && forall i :: 0 <= i < |stem| ==> !IsSeparator(stem[i], true)
    requires var writes := C.ShaderOutputs(base, path, true);
             forall k :: 0 <= k < 2 ==> writes[k].path in fs.existing && writes[k].path in fs.readable
    ensures var (dir, stem) := C.SplitShaderPath(path).value;
            var writes := C.ShaderOutputs(base, path, true);
            && Sh.Instantiate(AS.D3D12Api, true, dir + stem) == Some(Sh.D3D12Shader(writes[2].path))
            && var r := BuildD3D12Shader(writes[2].path, writes[2].manifest, layout, fs, true);
               && r.Ok?
               && r.value.desc.vs == Some(fs.readable[writes[0].path])
               && r.value.desc.ps == Some(fs.readable[writes[1].path])
  {
    var writes := C.ShaderOutputs(base, path, true);
    assert writes[0].path in fs.existing && writes[1].path in fs.existing;
    Sh.ManifestRoundTrip(base, AS.D3D12Api, path);
    assert "vs" in C.PackedStages && "ps" in C.PackedStages;
    SL.BlobPathRoundTrip(base, path, "vs", true);
    SL.BlobPathRoundTrip(base, path, "ps", true);
  }
}

=== FILE: files.dfy ===
/**
 * The pieces of the outside world the core reads: the file system (as a
 * snapshot), the per-backend shader manifest (as the JSON values jsoncpp
 * hands back) and `std::filesystem::path::parent_path`.
 */
module Files {
  import opened Wrappers
  import opened Errors
  import opened Bytes
  import opened Text

  /**
   * A snapshot of the file system: `existing` answers `FileHandler::FileExists`,
   * `readable` holds what `FileHandler::ReadBinFile` returns for the files it
   * can read. A path that exists but is not readable is in the first only.
   */
  datatype FileSystem = FileSystem(existing: set<string>, readable: map<string, Blob>)

  /** The JSON value stored under `BinShaders[stage]`: a bare string, or an object of string fields. */
  datatype StageEntry = BareName(name: string) | Fields(fields: map<string, string>)

  /** A shader manifest: `{ "BinShaders": {...}, "HLSLFeatureLevel": ..., ["VulkanFeatureLevel": ...] }`. */
  datatype Manifest = Manifest(
    binShaders: map<string, StageEntry>,
    hlslFeatureLevel: string,
    vulkanFeatureLevel: Option<string>)

  /**
   * `m["BinShaders"][stage][field].asString()` on a non-const `Json::Value`.
   * A missing stage or field reads as null, whose `asString()` is "". A bare
   * string cannot be indexed by a key: jsoncpp throws.
   */
  function ReadStageField(m: Manifest, stage: string, field: string): (r: Result<string, Error>)
    ensures r.Err? <==> stage in m.binShaders && m.binShaders[stage].BareName?
    ensures r.Ok? && stage in m.binShaders && field in m.binShaders[stage].fields ==>
              r.value == m.binShaders[stage].fields[field]
    ensures r.Ok? && (stage !in m.binShaders || field !in m.binShaders[stage].fields) ==> r.value == ""
  {
    if stage !in m.binShaders then Ok("")
    else match m.binShaders[stage]
      case BareName(_) => Err(JsonNotAnObject)
      case Fields(f) => Ok(if field in f then f[field] else "")
  }

  /** A path separator: '/' everywhere, and also '\' when paths follow Windows rules. */
  predicate IsSeparator(c: char, windows: bool) {
    c == '/' || (windows && c == '\\')
  }

  /** The index of the last separator in `p`, or -1. */
  function LastSeparator(p: string, windows: bool): (k: int)
    ensures -1 <= k < |p|
    ensures k >= 0 ==> IsSeparator(p[k], windows)
    ensures forall j :: k < j < |p| ==> !IsSeparator(p[j], windows)
  {
    if |p| == 0 then -1
    else if IsSeparator(p[|p| - 1], windows) then |p| - 1
    else LastSeparator(p[..|p| - 1], windows)
  }

  /** The length of `p` once its trailing separators are dropped. */
  function TrimSeparators(p: string, windows: bool): (n: nat)
    ensures n <= |p|
    ensures n > 0 ==> !IsSeparator(p[n - 1], windows)
    ensures forall j :: n <= j < |p| ==> IsSeparator(p[j], windows)
  {
    if |p| == 0 || !IsSeparator(p[|p| - 1], windows) then |p|
    else TrimSeparators(p[..|p| - 1], windows)
  }

  /**
   * `std::filesystem::path(p).parent_path().string()` for a path that names a
   * file: everything before the separators that precede the file name; the
   * root itself when only the root precedes it; "" when there is no separator.
   */
  function ParentPath(p: string, windows: bool): (r: string)
    ensures LastSeparator(p, windows) < 0 ==> r == ""
    ensures LastSeparator(p, windows) >= 0 ==> |r| > 0 && StartsWith(p, r)
  {
    var k := LastSeparator(p, windows);
    if k < 0 then ""
    else
      var n := TrimSeparators(p[..k], windows);
      if n == 0 then p[..k + 1] else p[..n]
  }

  /**
   * The parent of `dir + name`, where `dir` ends in exactly one separator '/'
   * and `name` holds none, is `dir` without that separator.
   */
  lemma {:induction false} ParentOfFileInDir(dir: string, name: string, windows: bool)
    requires |dir| >= 2 && dir[|dir| - 1] == '/' && !IsSeparator(dir[|dir| - 2], windows)
    requires forall i :: 0 <= i < |name| ==> !IsSeparator(name[i], windows)
    ensures ParentPath(dir + name, windows) + "/" == dir
  {
    var p := dir + name;
    var k := LastSeparator(p, windows);
    assert p[|dir| - 1] == '/';
    assert forall j :: |dir| <= j < |p| ==> p[j] == name[j - |dir|];
    assert k == |dir| - 1;
    assert p[..k] == dir[..|dir| - 1];
    var n := TrimSeparators(p[..k], windows);
    assert p[..k][|dir| - 2] == dir[|dir| - 2];
    assert n == |dir| - 1;
    assert ParentPath(p, windows) == dir[..|dir| - 1];
    assert dir[..|dir| - 1] + "/" == dir;
  }
}

=== FILE: layer_stack.dfy ===
/**
 * The application's layer stack: one ordered list of layers with an
 * insertion index. Layers are inserted at the index, which then moves past
 * them; overlays are appended at the end. So long as every pop names an
 * entry of its own kind, the list is the layers followed by the overlays,
 * and the index is where the overlays begin.
 *
 * Layers are identified by their address (`LayerId`); the `OnAttach` and
 * `OnDetach` callbacks an operation makes are returned with the new stack.
 */
module LayerStack {
  /** The address of a layer. */
  type LayerId = nat

  /** A callback the stack makes on a layer. */
  datatype Callback = OnAttach(layer: LayerId) | OnDetach(layer: LayerId)

  /** The list of layers and the insertion index (where the next layer goes). */
  datatype LayerStack = LayerStack(entries: seq<LayerId>, insert: int)

  /** The stack after an operation, and the callbacks the operation made. */
  datatype Outcome = Outcome(stack: LayerStack, calls: seq<Callback>)

  /** The index points into the list (or just past it). */
  predicate WellFormed(st: LayerStack) {
    0 <= st.insert <= |st.entries|
  }

  /** `LayerStack()`: an empty list and index 0. */
  const Empty := LayerStack([], 0)

  /** The position `std::find` returns: the first occurrence. */
  function FirstIndex(s: seq<LayerId>, x: LayerId): (i: nat)
    requires x in s
    ensures i < |s| && s[i] == x
    ensures forall j :: 0 <= j < i ==> s[j] != x
  {
    if s[0] == x then 0 else 1 + FirstIndex(s[1..], x)
  }

  /** `erase(find(...))`: the first occurrence removed, if there is one. */
  function RemoveFirst(s: seq<LayerId>, x: LayerId): (r: seq<LayerId>)
    ensures x !in s ==> r == s
    ensures x in s ==> |r| == |s| - 1
  {
    if |s| == 0 then []
    else if s[0] == x then s[1..]
    else [s[0]] + RemoveFirst(s[1..], x)
  }

  /** The removal takes exactly one `x` out of the bag of entries. */
  lemma {:induction false} RemoveFirstMultiset(s: seq<LayerId>, x: LayerId)
    ensures multiset(RemoveFirst(s, x)) == multiset(s) - multiset{x}
  {
    if |s| > 0 {
      assert s == [s[0]] + s[1..];
      if s[0] != x {
        RemoveFirstMultiset(s[1..], x);
      }
    }
  }

  /** The removal cuts out exactly the entry `std::find` finds, keeping the order of the rest. */
  lemma {:induction false} RemoveFirstCutsFirst(s: seq<LayerId>, x: LayerId)
    requires x in s
    ensures RemoveFirst(s, x) == s[..FirstIndex(s, x)] + s[FirstIndex(s, x) + 1..]
  {
    if s[0] != x {
      RemoveFirstCutsFirst(s[1..], x);
      var i := FirstIndex(s[1..], x);
      assert s[..i + 1] == [s[0]] + s[1..][..i];
      assert s[i + 2..] == s[1..][i + 1..];
    }
  }

  /**
   * `PushLayer(layer)`: inserted at the index, attached once, and the index
   * moves past it; the entries before and after the index keep their order.
   */
  function PushLayer(st: LayerStack, layer: LayerId): (r: Outcome)
    requires WellFormed(st)
    ensures WellFormed(r.stack) && r.stack.insert == st.insert + 1
    ensures |r.stack.entries| == |st.entries| + 1 && r.stack.entries[st.insert] == layer
    ensures r.stack.entries[..st.insert] == st.entries[..st.insert]
    ensures r.stack.entries[st.insert + 1..] == st.entries[st.insert..]
    ensures r.calls == [OnAttach(layer)]
  {
    var entries := st.entries[..st.insert] + [layer] + st.entries[st.insert..];
    assert entries[..st.insert] == st.entries[..st.insert];
    assert entries[st.insert + 1..] == st.entries[st.insert..];
    Outcome(LayerStack(entries, st.insert + 1), [OnAttach(layer)])
  }

  /** `PushOverlay(overlay)`: appended at the end and attached once; the index does not move. */
  function PushOverlay(st: LayerStack, overlay: LayerId): (r: Outcome)
    ensures r.stack.insert == st.insert
    ensures r.stack.entries == st.entries + [overlay]
    ensures WellFormed(st) ==> WellFormed(r.stack)
    ensures r.calls == [OnAttach(overlay)]
  {
    Outcome(LayerStack(st.entries + [overlay], st.insert), [OnAttach(overlay)])
  }

  /**
   * `PopLayer(layer)`: the first occurrence is detached and cut out, the
   * rest keeping their order, and the index moves back one, whatever kind the entry was; an absent layer
   * changes nothing.
   */
  function PopLayer(st: LayerStack, layer: LayerId): (r: Outcome)
    ensures layer !in st.entries ==> r == Outcome(st, [])
    ensures layer in st.entries ==> r.stack.insert == st.insert - 1 && r.calls == [OnDetach(layer)]
    ensures layer in st.entries ==> multiset(r.stack.entries) == multiset(st.entries) - multiset{layer}
    ensures layer in st.entries ==>
              r.stack.entries == st.entries[..FirstIndex(st.entries, layer)] + st.entries[FirstIndex(st.entries, layer) + 1..]
  {
    RemoveFirstMultiset(st.entries, layer);
    if layer in st.entries then
      RemoveFirstCutsFirst(st.entries, layer);
      Outcome(LayerStack(RemoveFirst(st.entries, layer), st.insert - 1), [OnDetach(layer)])
    else Outcome(st, [])
  }

  /** `PopOverlay(overlay)`: the first occurrence is detached and cut out, the rest in order; the index does not move. */
  function PopOverlay(st: LayerStack, overlay: LayerId): (r: Outcome)
    ensures overlay !in st.entries ==> r == Outcome(st, [])
    ensures overlay in st.entries ==> r.stack.insert == st.insert && r.calls == [OnDetach(overlay)]
    ensures overlay in st.entries ==> multiset(r.stack.entries) == multiset(st.entries) - multiset{overlay}
    ensures overlay in st.entries ==>
              r.stack.entries == st.entries[..FirstIndex(st.entries, overlay)] + st.entries[FirstIndex(st.entries, overlay) + 1..]
  {
    RemoveFirstMultiset(st.entries, overlay);
    if overlay in st.entries then
      RemoveFirstCutsFirst(st.entries, overlay);
      Outcome(LayerStack(RemoveFirst(st.entries, overlay), st.insert), [OnDetach(overlay)])
    else Outcome(st, [])
  }

  // ---------------------------------------------------------------------
  // The two-list picture
  // ---------------------------------------------------------------------

  /** The four operations of the stack. */
  datatype Op = PushL(id: LayerId) | PushO(id: LayerId) | PopL(id: LayerId) | PopO(id: LayerId)

  /** Layers and overlays kept apart, each in its own order. */
  datatype Split = Split(layers: seq<LayerId>, overlays: seq<LayerId>)

  /** The stack a split describes: layers, then overlays, with the index between them. */
  function Stack(sp: Split): (st: LayerStack)
    ensures WellFormed(st)
  {
    LayerStack(sp.layers + sp.overlays, |sp.layers|)
  }

  /** One operation on the stack. */
  function Apply(st: LayerStack, op: Op): Outcome
    requires WellFormed(st)
  {
    match op
    case PushL(id) => PushLayer(st, id)
    case PushO(id) => PushOverlay(st, id)
    case PopL(id) => PopLayer(st, id)
    case PopO(id) => PopOverlay(st, id)
  }

  /** The same operation on the split: each kind lives in its own list. */
  function ApplySplit(sp: Split, op: Op): Split {
    match op
    case PushL(id) => sp.(layers := sp.layers + [id])
    case PushO(id) => sp.(overlays := sp.overlays + [id])
    case PopL(id) => sp.(layers := RemoveFirst(sp.layers, id))
    case PopO(id) => sp.(overlays := RemoveFirst(sp.overlays, id))
  }

  /**
   * A pop names an entry of its own kind, or one not on the stack at all:
   * the first occurrence of a popped layer is among the layers, that of a
   * popped overlay among the overlays.
   */
  predicate OwnKind(sp: Split, op: Op) {
    match op
    case PopL(id) => id in sp.layers || id !in sp.overlays
    case PopO(id) => id !in sp.layers
    case _ => true
  }

  /** Removing the first occurrence from a concatenation touches only the part holding it. */
  lemma {:induction false} RemoveFirstAppendLeft(a: seq<LayerId>, b: seq<LayerId>, x: LayerId)
    requires x in a
    ensures RemoveFirst(a + b, x) == RemoveFirst(a, x) + b
  {
    assert (a + b)[0] == a[0];
    if a[0] != x {
      assert (a + b)[1..] == a[1..] + b;
      assert x in a[1..];
      RemoveFirstAppendLeft(a[1..], b, x);
    } else {
      assert (a + b)[1..] == a[1..] + b;
    }
  }

  lemma {:induction false} RemoveFirstAppendRight(a: seq<LayerId>, b: seq<LayerId>, x: LayerId)
    requires x !in a
    ensures RemoveFirst(a + b, x) == a + RemoveFirst(b, x)
  {
    if |a| == 0 {
      assert a + b == b;
    } else {
      assert (a + b)[0] == a[0];
      assert (a + b)[1..] == a[1..] + b;
      RemoveFirstAppendRight(a[1..], b, x);
      assert a == [a[0]] + a[1..];
    }
  }

  /**
   * Every operation whose pop is of its own kind does to the stack what the
   * split operation does to the two lists: the stack stays layers-then-
   * overlays and the index stays at the boundary.
   */
  lemma Simulates(sp: Split, op: Op)
    requires OwnKind(sp, op)
    ensures Apply(Stack(sp), op).stack == Stack(ApplySplit(sp, op))
  {
    match op
    case PushL(id) =>
      assert (sp.layers + sp.overlays)[..|sp.layers|] == sp.layers;
      assert (sp.layers + sp.overlays)[|sp.layers|..] == sp.overlays;
    case PushO(id) =>
    case PopL(id) =>
      if id in sp.layers {
        RemoveFirstAppendLeft(sp.layers, sp.overlays, id);
      } else {
        RemoveFirstAppendRight(sp.layers, sp.overlays, id);
      }
    case PopO(id) =>
      RemoveFirstAppendRight(sp.layers, sp.overlays, id);
  }

  /** Every pop in `ops` is of its own kind at the point where it happens. */
  predicate AllOwnKind(sp: Split, ops: seq<Op>)
    decreases |ops|
  {
    |ops| == 0 || (OwnKind(sp, ops[0]) && AllOwnKind(ApplySplit(sp, ops[0]), ops[1..]))
  }

  /**
   * A run of operations from a stack. It stops once the index has left the
   * list, where the next `PushLayer` would insert at no valid position.
   */
  function Run(st: LayerStack, ops: seq<Op>): (r: LayerStack)
    requires WellFormed(st)
    decreases |ops|
  {
    if |ops| == 0 then st
    else
      var next := Apply(st, ops[0]).stack;
      if WellFormed(next) then Run(next, ops[1..]) else next
  }

  /** The two lists after a run. */
  function RunSplit(sp: Split, ops: seq<Op>): Split
    decreases |ops|
  {
    if |ops| == 0 then sp else RunSplit(ApplySplit(sp, ops[0]), ops[1..])
  }

  /**
   * From the empty stack, any run whose pops are of their own kind keeps
   * the layers in front of the overlays, with the index between them, so
   * `0 <= index <= |list|` holds throughout.
   */
  lemma {:induction false} RunSimulates(sp: Split, ops: seq<Op>)
    requires AllOwnKind(sp, ops)
    ensures Run(Stack(sp), ops) == Stack(RunSplit(sp, ops))
    ensures WellFormed(Run(Stack(sp), ops))
    decreases |ops|
  {
    if |ops| > 0 {
      Simulates(sp, ops[0]);
      RunSimulates(ApplySplit(sp, ops[0]), ops[1..]);
    }
  }

  /** The empty stack is the empty split. */
  lemma EmptyIsEmptySplit()
    ensures Empty == Stack(Split([], []))
    ensures WellFormed(Empty)
  {
  }

  /**
   * Popping an overlay with `PopLayer` still moves the index back: on a
   * stack holding one overlay, the index drops below zero.
   */
  lemma PopLayerOfOverlayUnderflows(overlay: LayerId)
    ensures var st := PushOverlay(Empty, overlay).stack;
            PopLayer(st, overlay).stack == LayerStack([], -1)
  {
    assert overlay in [overlay];
  }

  /**
   * With a layer and an overlay on the stack, popping the overlay as a
   * layer leaves the index in front of the remaining layer, so the next
   * layer pushed goes in front of it.
   */
  lemma WrongKindPopReordersLayers(a: LayerId, b: LayerId, c: LayerId)
    requires a != b
    ensures var st0 := PushOverlay(PushLayer(Empty, a).stack, b).stack;
            var st1 := PopLayer(st0, b).stack;
            st1 == LayerStack([a], 0) && PushLayer(st1, c).stack.entries == [c, a]
  {
    var pushed := PushLayer(Empty, a).stack;
    assert pushed == LayerStack([a], 1);
    var st0 := PushOverlay(pushed, b).stack;
    assert st0 == LayerStack([a, b], 1);
    assert RemoveFirst([a, b], b) == [a] by {
      assert [a, b][1..] == [b];
      assert RemoveFirst([b], b) == [];
    }
    var st1 := PopLayer(st0, b).stack;
    assert st1 == LayerStack([a], 0);
    assert PushLayer(st1, c).stack.entries == [] + [c] + [a];
  }
}

=== FILE: png_image.dfy ===
/**
 * The PNG image wrapper: an RGBA8 pixel buffer with its width, height and
 * channel count, built either from raw pixels or from a PNG stream whose
 * signature is checked and whose colour type is expanded to RGBA. The
 * decompression itself belongs to libpng and is an input here: what it
 * delivers after the signature is a `PngContents`.
 *
 * Widths, heights and the byte counts computed from them are `uint32_t`,
 * so the products wrap at 2^32.
 */
module PngImage {
  import opened Wrappers
  import opened Errors
  import opened Bytes

  datatype Image = Image(width: nat, height: nat, channels: nat, data: Blob)

  /** An image whose buffer holds exactly width * height pixels of `channels` bytes each. */
  predicate WellFormed(img: Image) {
    |img.data| == img.width * img.height * img.channels
  }

  // ---------------------------------------------------------------------
  // Raw-buffer constructor
  // ---------------------------------------------------------------------

  /** The byte count the raw-buffer constructor allocates and copies: `4 * width * height` in 32-bit arithmetic. */
  function RawCopySize(width: nat, height: nat): nat {
    (4 * width * height) % U32
  }

  /**
   * `PNGImage(rawBuffer, width, height)` as written: four channels, and a
   * copy of the first `4 * width * height` source bytes, a count that wraps
   * at 2^32. The source must hold at least that many bytes.
   */
  function RawImage(raw: Blob, width: nat, height: nat): (img: Image)
    requires width < U32 && height < U32
    requires RawCopySize(width, height) <= |raw|
    ensures img.width == width && img.height == height && img.channels == 4
    ensures |img.data| == RawCopySize(width, height) < U32
    ensures forall i :: 0 <= i < |img.data| ==> img.data[i] == raw[i]
  {
    Image(width, height, 4, raw[..RawCopySize(width, height)])
  }

  /**
   * A 32768 x 32768 image needs 2^32 bytes, which wraps to 0: the buffer
   * the constructor allocates and fills is empty, not one of 2^32 bytes.
   */
  lemma RawImageWrapsAround(raw: Blob)
    ensures RawImage(raw, 0x8000, 0x8000).data == []
    ensures !WellFormed(RawImage(raw, 0x8000, 0x8000))
  {
    assert 4 * 0x8000 * 0x8000 == U32;
  }

  /** The raw-buffer constructor with the byte count computed without wrap-around. */
  function RawImageExact(raw: Blob, width: nat, height: nat): (img: Image)
    requires 4 * width * height <= |raw|
    ensures img.width == width && img.height == height && img.channels == 4
    ensures WellFormed(img)
    ensures forall i :: 0 <= i < |img.data| ==> img.data[i] == raw[i]
  {
    Image(width, height, 4, raw[..4 * width * height])
  }

  /** Below 2^32 bytes the two constructors agree. */
  lemma RawImageAgreesWhenSmall(raw: Blob, width: nat, height: nat)
    requires width < U32 && height < U32
    requires 4 * width * height < U32 && 4 * width * height <= |raw|
    ensures RawImage(raw, width, height) == RawImageExact(raw, width, height)
  {
  }

  // ---------------------------------------------------------------------
  // Signature
  // ---------------------------------------------------------------------

  /** The eight bytes that open every PNG stream (section 5.2 of the PNG specification, ISO/IEC 15948). */
  const PngSignature: Blob := [137, 80, 78, 71, 13, 10, 26, 10]

  const NotPngMessage := "the first eight bytes are not the PNG signature"

  /** `ValidatePNGHeaders`: the first eight bytes must be the signature; what follows is left for the decoder. */
  function CheckSignature(buffer: Blob): (r: Result<Blob, Error>)
    requires |buffer| >= 8
    ensures r.Ok? <==> buffer[..8] == PngSignature
    ensures r.Err? ==> r.error == AssertionFailure(NotPngMessage)
    ensures r.Ok? ==> PngSignature + r.value == buffer
  {
    if buffer[..8] == PngSignature then Ok(buffer[8..]) else Err(AssertionFailure(NotPngMessage))
  }

  // ---------------------------------------------------------------------
  // Colour expansion
  // ---------------------------------------------------------------------

  /** The colour types of section 11.2.2 of the PNG specification. */
  datatype ColorType = Gray | Rgb | Palette | GrayAlpha | Rgba

  /** The colour-type byte of the image header. */
  function ColorTypeCode(ct: ColorType): nat {
    match ct
    case Gray => 0
    case Rgb => 2
    case Palette => 3
    case GrayAlpha => 4
    case Rgba => 6
  }

  /** Reads the colour-type byte; other values are not PNG colour types. */
  function ColorTypeOf(code: nat): (r: Option<ColorType>)
    ensures r.Some? ==> ColorTypeCode(r.value) == code
  {
    if code == 0 then Some(Gray)
    else if code == 2 then Some(Rgb)
    else if code == 3 then Some(Palette)
    else if code == 4 then Some(GrayAlpha)
    else if code == 6 then Some(Rgba)
    else None
  }

  /** Every colour type is read back from its code. */
  lemma ColorTypeCodeRoundTrip(ct: ColorType)
    ensures ColorTypeOf(ColorTypeCode(ct)) == Some(ct)
  {
  }

  /** Samples per pixel as stored, for 8-bit samples. */
  function Samples(ct: ColorType): nat {
    match ct
    case Gray => 1
    case Rgb => 3
    case Palette => 1
    case GrayAlpha => 2
    case Rgba => 4
  }

  /** The colour types `ExpandPNGToRGBA` handles. */
  predicate Expandable(ct: ColorType) {
    ct == Gray || ct == Rgb || ct == Rgba
  }

  const UnexpandableMessage := "colour type not expandable to RGBA"

  /** An opaque alpha sample. */
  const Opaque: Byte := 0xFF

  /**
   * `ExpandPNGToRGBA`, on one pixel: RGB gains an opaque alpha after its
   * samples; gray is copied into red, green and blue and then gains the
   * alpha; RGBA is left alone; every other colour type trips the assertion.
   */
  function ExpandPixel(ct: ColorType, px: seq<Byte>): (r: Result<seq<Byte>, Error>)
    requires |px| == Samples(ct)
    ensures r.Ok? <==> Expandable(ct)
    ensures r.Err? ==> r.error == AssertionFailure(UnexpandableMessage)
    ensures r.Ok? ==> |r.value| == 4
    ensures ct == Rgba ==> r == Ok(px)
    ensures ct == Rgb ==> r.value[..3] == px && r.value[3] == Opaque
    ensures ct == Gray ==> r.value[0] == r.value[1] == r.value[2] == px[0] && r.value[3] == Opaque
  {
    match ct
    case Rgb => Ok(px + [Opaque])
    case Gray => Ok([px[0], px[0], px[0], Opaque])
    case Rgba => Ok(px)
    case _ => Err(AssertionFailure(UnexpandableMessage))
  }

  // ---------------------------------------------------------------------
  // Decoded images and their rows
  // ---------------------------------------------------------------------

  /**
   * What libpng reports after the signature: the header fields and the
   * pixels in row-major order, as stored.
   */
  datatype PngContents = PngContents(width: nat, height: nat, colorType: ColorType, pixels: seq<seq<Byte>>)

  /** The largest width or height a PNG header may hold (section 11.2.2 of the PNG specification). */
  const MaxDimension: nat := 0x7FFF_FFFF

  /** Header values are in range, there are height rows of width pixels, and each has the colour type's samples. */
  predicate ValidContents(c: PngContents) {
    && c.width <= MaxDimension && c.height <= MaxDimension
    && |c.pixels| == c.height * c.width
    && forall k :: 0 <= k < |c.pixels| ==> |c.pixels[k]| == Samples(c.colorType)
  }

  /** Bytes per decoded row. */
  function RowBytes(width: nat): nat {
    width * 4
  }

  /** Multiplying by the same factor keeps the order, and a strict step adds at least one factor. */
  lemma {:induction false} MulMonotone(a: nat, b: nat, c: nat)
    ensures a <= b ==> a * c <= b * c
    ensures a < b ==> a * c + c <= b * c
    decreases c
  {
    if c > 0 {
      MulMonotone(a, b, c - 1);
      assert a * c == a * (c - 1) + a;
      assert b * c == b * (c - 1) + b;
    }
  }

  /** Concatenates four-byte pixels. */
  function Concat(ps: seq<seq<Byte>>): Blob {
    if |ps| == 0 then [] else ps[0] + Concat(ps[1..])
  }

  /** Four-byte pixels concatenate to four bytes each, pixel `k` at byte `4 * k`. */
  lemma {:induction false} ConcatAt(ps: seq<seq<Byte>>)
    requires forall k :: 0 <= k < |ps| ==> |ps[k]| == 4
    ensures |Concat(ps)| == 4 * |ps|
    ensures forall k, c :: 0 <= k < |ps| && 0 <= c < 4 ==> Concat(ps)[4 * k + c] == ps[k][c]
  {
    if |ps| > 0 {
      ConcatAt(ps[1..]);
      forall k, c | 0 <= k < |ps| && 0 <= c < 4 ensures Concat(ps)[4 * k + c] == ps[k][c] {
        if k > 0 {
          assert Concat(ps)[4 * k + c] == Concat(ps[1..])[4 * (k - 1) + c];
          assert ps[1..][k - 1] == ps[k];
        }
      }
    }
  }

  /** Expands every pixel of an expandable colour type. */
  function ExpandAll(ct: ColorType, ps: seq<seq<Byte>>): (r: seq<seq<Byte>>)
    requires Expandable(ct) && forall k :: 0 <= k < |ps| ==> |ps[k]| == Samples(ct)
    ensures |r| == |ps|
    ensures forall k :: 0 <= k < |ps| ==> |r[k]| == 4 && Ok(r[k]) == ExpandPixel(ct, ps[k])
  {
    seq(|ps|, k requires 0 <= k < |ps| => ExpandPixel(ct, ps[k]).value)
  }

  // ---------------------------------------------------------------------
  // Decoding as written: 32-bit allocation and row offsets
  // ---------------------------------------------------------------------

  /** `SetPNGMembers`: the buffer holds `width * height * channels` bytes, a product of `uint32_t`s that wraps at 2^32. */
  function AllocatedBytes(width: nat, height: nat): nat {
    (width * height * 4) % U32
  }

  /** `LoadPNGImage`: where row `i` starts, `i * width * channels` in 32-bit arithmetic. */
  function RowOffset(width: nat, i: nat): nat {
    (i * RowBytes(width)) % U32
  }

  /** Every row `LoadPNGImage` points at lies inside the allocation, so `png_read_image` writes in bounds. */
  predicate RowsInBounds(width: nat, height: nat) {
    forall i :: 0 <= i < height ==> RowOffset(width, i) + RowBytes(width) <= AllocatedBytes(width, height)
  }

  /** The image's byte count does not wrap in 32-bit arithmetic. */
  predicate FitsInBuffer(width: nat, height: nat) {
    height * RowBytes(width) < U32
  }

  /** Below 2^32 bytes row `i` starts at exactly `i` rows of bytes, within the buffer. */
  lemma RowOffsetExact(width: nat, height: nat, i: nat)
    requires FitsInBuffer(width, height) && i <= height
    ensures RowOffset(width, i) == i * RowBytes(width) <= height * RowBytes(width)
  {
    MulMonotone(i, height, RowBytes(width));
  }

  /** Without wrap-around the allocation is the whole image and every row ends within it. */
  lemma RowsInBoundsWhenSmall(width: nat, height: nat)
    requires FitsInBuffer(width, height)
    ensures AllocatedBytes(width, height) == height * RowBytes(width)
    ensures RowsInBounds(width, height)
  {
    var rb := RowBytes(width);
    assert width * height * 4 == height * rb;
    forall i | 0 <= i < height ensures RowOffset(width, i) + rb <= AllocatedBytes(width, height) {
      RowOffsetExact(width, height, i);
      MulMonotone(i, height, rb);
    }
  }

  /**
   * Once the byte count wraps, row `j`, the last to start below 2^32, ends
   * at or past 2^32, beyond any 32-bit allocation.
   */
  lemma RowPastAllocation(width: nat, height: nat) returns (j: nat)
    requires !FitsInBuffer(width, height)
    ensures j < height
    ensures RowOffset(width, j) == j * RowBytes(width) < U32 <= RowOffset(width, j) + RowBytes(width)
  {
    var rb := RowBytes(width);
    assert rb > 0;
    j := (U32 - 1) / rb;
    assert j * rb <= U32 - 1 < j * rb + rb;
    if j >= height {
      MulMonotone(height, j, rb);
    }
  }

  /** The rows stay inside the allocation exactly when the byte count does not wrap. */
  lemma RowsInBoundsIff(width: nat, height: nat)
    ensures RowsInBounds(width, height) <==> FitsInBuffer(width, height)
  {
    if FitsInBuffer(width, height) {
      RowsInBoundsWhenSmall(width, height);
    } else {
      var j := RowPastAllocation(width, height);
      assert AllocatedBytes(width, height) < U32;
    }
  }

  const OverrunMessage := "png_read_image writes past the end of the pixel buffer"

  /**
   * `SetPNGMembers`, `ExpandPNGToRGBA` and `LoadPNGImage` as written: the
   * buffer is allocated with the wrapped byte count, the colour type is
   * expanded, and the rows are read through the wrapped row pointers, which
   * write out of bounds as soon as one of them reaches past the buffer.
   */
  function DecodeAsWritten(c: PngContents): (r: Result<Image, Error>)
    requires ValidContents(c)
    ensures r.Ok? <==> Expandable(c.colorType) && RowsInBounds(c.width, c.height)
    ensures r.Err? && !Expandable(c.colorType) ==> r.error == AssertionFailure(UnexpandableMessage)
    ensures r.Err? && Expandable(c.colorType) ==> r.error == BufferOverrun(OverrunMessage)
    ensures r.Ok? ==> |r.value.data| == AllocatedBytes(c.width, c.height)
  {
    if !Expandable(c.colorType) then Err(AssertionFailure(UnexpandableMessage))
    else if !FitsInBuffer(c.width, c.height) then
      RowsInBoundsIff(c.width, c.height);
      Err(BufferOverrun(OverrunMessage))
    else
      RowsInBoundsWhenSmall(c.width, c.height);
      var expanded := ExpandAll(c.colorType, c.pixels);
      ConcatAt(expanded);
      assert |Concat(expanded)| == 4 * (c.height * c.width) == c.height * RowBytes(c.width);
      Ok(Image(c.width, c.height, 4, Concat(expanded)))
  }

  /**
   * A 32768 x 32768 image needs 2^32 bytes: `SetPNGMembers` allocates that
   * count wrapped to 0, yet `LoadPNGImage` points row 1 at byte 0x20000,
   * and the decoder writes past the empty buffer.
   */
  lemma DecodeWrapsAround(c: PngContents)
    requires ValidContents(c) && c.width == 0x8000 && c.height == 0x8000 && Expandable(c.colorType)
    ensures AllocatedBytes(c.width, c.height) == 0
    ensures RowOffset(c.width, 1) == 0x20000 > AllocatedBytes(c.width, c.height)
    ensures DecodeAsWritten(c) == Err(BufferOverrun(OverrunMessage))
  {
    assert 0x8000 * 0x8000 * 4 == U32;
    assert !FitsInBuffer(c.width, c.height);
  }

  // ---------------------------------------------------------------------
  // Decoding, corrected: the byte count and row offsets in full
  // ---------------------------------------------------------------------

  /** Where row `i` starts when the offset is computed in `size_t`: `i` whole rows, with no wrap-around below 2^64. */
  function ExactRowOffset(width: nat, i: nat): nat {
    i * RowBytes(width)
  }

  /**
   * From the stream after the signature to the image, with the byte count
   * and the row offsets computed without wrap-around: the members are set
   * to width, height and four channels, the colour type is expanded, and
   * the rows are read into the buffer.
   */
  function DecodeContents(c: PngContents): (r: Result<Image, Error>)
    requires ValidContents(c)
    ensures r.Ok? <==> Expandable(c.colorType)
    ensures r.Err? ==> r.error == AssertionFailure(UnexpandableMessage)
    ensures r.Ok? ==> r.value.width == c.width && r.value.height == c.height && r.value.channels == 4
    ensures r.Ok? ==> WellFormed(r.value)
  {
    if !Expandable(c.colorType) then Err(AssertionFailure(UnexpandableMessage))
    else
      var expanded := ExpandAll(c.colorType, c.pixels);
      ConcatAt(expanded);
      assert |Concat(expanded)| == c.width * c.height * 4;
      Ok(Image(c.width, c.height, 4, Concat(expanded)))
  }

  /** While the byte count fits in 32 bits, the source's decode and the corrected one agree, row pointers included. */
  lemma DecodeAgreesWhenSmall(c: PngContents)
    requires ValidContents(c) && FitsInBuffer(c.width, c.height)
    ensures DecodeAsWritten(c) == DecodeContents(c)
    ensures forall i :: 0 <= i <= c.height ==> RowOffset(c.width, i) == ExactRowOffset(c.width, i)
  {
    forall i | 0 <= i <= c.height ensures RowOffset(c.width, i) == ExactRowOffset(c.width, i) {
      RowOffsetExact(c.width, c.height, i);
    }
  }

  /**
   * The rows tile the buffer: row 0 starts at byte 0, each row ends where the
   * next one starts, and the row after the last starts at the end of the buffer.
   */
  lemma RowsTile(width: nat, height: nat, i: nat)
    requires i < height
    ensures ExactRowOffset(width, 0) == 0
    ensures ExactRowOffset(width, i) + RowBytes(width) == ExactRowOffset(width, i + 1)
    ensures ExactRowOffset(width, height) == width * height * 4
  {
  }

  /** A byte lies in row `j` only if `j` is its quotient by the row size. */
  lemma RowOfByte(rb: nat, b: nat, j: nat)
    requires rb > 0 && j * rb <= b < j * rb + rb
    ensures j == b / rb
  {
    var i := b / rb;
    assert i * rb <= b < i * rb + rb;
    MulMonotone(i, j, rb);
    MulMonotone(j, i, rb);
  }

  /** A byte below `height` rows lies in row `b / rb`, which is one of the `height` rows. */
  lemma QuotientRow(rb: nat, height: nat, b: nat)
    requires rb > 0 && b < height * rb
    ensures 0 <= b / rb < height
    ensures (b / rb) * rb <= b < (b / rb) * rb + rb
  {
    var i := b / rb;
    assert i * rb <= b < i * rb + rb;
    MulMonotone(height, i, rb);
  }

  /** Every byte of the buffer lies in exactly one row: row `b / RowBytes(width)`. */
  lemma ByteInOneRow(width: nat, height: nat, b: nat)
    requires b < height * RowBytes(width)
    ensures RowBytes(width) > 0 && 0 <= b / RowBytes(width) < height
    ensures ExactRowOffset(width, b / RowBytes(width)) <= b < ExactRowOffset(width, b / RowBytes(width)) + RowBytes(width)
    ensures forall j: nat :: j < height && ExactRowOffset(width, j) <= b < ExactRowOffset(width, j) + RowBytes(width) ==> j == b / RowBytes(width)
  {
    var rb := RowBytes(width);
    assert rb > 0;
    QuotientRow(rb, height, b);
    forall j: nat | j < height && ExactRowOffset(width, j) <= b < ExactRowOffset(width, j) + rb
      ensures j == b / rb
    {
      RowOfByte(rb, b, j);
    }
  }

  /** Pixel (x, y) is pixel `y * width + x` of the row-major order, at byte `4 * (y * width + x)`. */
  lemma PixelIndex(width: nat, height: nat, x: nat, y: nat)
    requires x < width && y < height
    ensures y * width + x < height * width
    ensures y * RowBytes(width) + 4 * x == 4 * (y * width + x)
  {
    MulMonotone(y, height, width);
  }

  /** Pixel (x, y) of the decoded image sits at column `4 * x` of row `y`, and is the expanded source pixel. */
  lemma DecodedPixelAt(c: PngContents, x: nat, y: nat, k: nat)
    requires ValidContents(c) && Expandable(c.colorType)
    requires x < c.width && y < c.height && k < 4
    ensures y * c.width + x < |c.pixels|
    ensures ExactRowOffset(c.width, y) + 4 * x + k < |DecodeContents(c).value.data|
    ensures DecodeContents(c).value.data[ExactRowOffset(c.width, y) + 4 * x + k]
            == ExpandPixel(c.colorType, c.pixels[y * c.width + x]).value[k]
  {
    PixelIndex(c.width, c.height, x, y);
    var expanded := ExpandAll(c.colorType, c.pixels);
    ConcatAt(expanded);
  }

  // ---------------------------------------------------------------------
  // Loading from memory
  // ---------------------------------------------------------------------

  /**
   * `PNGImage(buffer, size)`: the signature is checked and the decoder reads
   * on from byte 8; `inflate` is what libpng makes of the bytes it is given.
   */
  function LoadFromMemory(buffer: Blob, inflate: Blob -> PngContents): (r: Result<Image, Error>)
    requires |buffer| >= 8
    requires ValidContents(inflate(buffer[8..]))
    ensures buffer[..8] != PngSignature ==> r == Err(AssertionFailure(NotPngMessage))
    ensures r.Ok? <==> buffer[..8] == PngSignature && Expandable(inflate(buffer[8..]).colorType)
    ensures r.Ok? ==> r.value.channels == 4 && WellFormed(r.value)
  {
    var rest :- CheckSignature(buffer);
    DecodeContents(inflate(rest))
  }

  /** The decoder sees exactly what follows the signature, nothing of the signature itself. */
  lemma LoadResumesAfterSignature(tail: Blob, inflate: Blob -> PngContents)
    requires ValidContents(inflate(tail))
    ensures (PngSignature + tail)[8..] == tail
    ensures LoadFromMemory(PngSignature + tail, inflate) == DecodeContents(inflate(tail))
  {
    assert (PngSignature + tail)[..8] == PngSignature;
    assert (PngSignature + tail)[8..] == tail;
  }
}

=== FILE: sampler_layout.dfy ===
/**
 * Sampler descriptors: filter, anisotropy, address mode and comparison,
 * with the binding slot and shader register, and the layout that keys them
 * by shader register.
 */
module SamplerLayout {
  import opened SlotMap

  datatype SamplerFilter = Linear | Nearest | Anisotropic

  datatype AnisotropicFactor = Factor0 | Factor1 | Factor2 | Factor3 | Factor4

  datatype AddressMode = Repeat | Mirror | Clamp | Border | MirrorOnce

  datatype ComparisonPassMode = Never | Less | Equal | LessEqual | Greater | NotEqual | GreaterEqual | Always

  datatype SamplerElement = SamplerElement(
    filter: SamplerFilter,
    anisotropicFactor: AnisotropicFactor,
    addressMode: AddressMode,
    comparisonPassMode: ComparisonPassMode,
    bindingSlot: nat,
    shaderRegister: nat)

  /**
   * The default element: linear filtering, factor 0, repeat, never, slot 0.
   * The default constructor leaves the shader register uninitialised, so it
   * is whatever `indeterminate` holds.
   */
  function DefaultSamplerElement(indeterminate: nat): (e: SamplerElement)
    ensures e.filter == Linear && e.anisotropicFactor == Factor0
    ensures e.addressMode == Repeat && e.comparisonPassMode == Never && e.bindingSlot == 0
    ensures e.shaderRegister == indeterminate
  {
    SamplerElement(Linear, Factor0, Repeat, Never, 0, indeterminate)
  }

  /** Two default elements differ at most in their register. */
  lemma DefaultsDifferOnlyInRegister(a: nat, b: nat)
    ensures DefaultSamplerElement(a).(shaderRegister := b) == DefaultSamplerElement(b)
  {
  }

  /** `SamplerElement(filter, anisotropicFactor, addressMode, comparisonPassMode, bindingSlot, shaderRegister)`: all six are stored. */
  function NewSamplerElement(filter: SamplerFilter, anisotropicFactor: AnisotropicFactor, addressMode: AddressMode,
                             comparisonPassMode: ComparisonPassMode, bindingSlot: nat, shaderRegister: nat): (e: SamplerElement)
    ensures e.filter == filter && e.anisotropicFactor == anisotropicFactor
    ensures e.addressMode == addressMode && e.comparisonPassMode == comparisonPassMode
    ensures e.bindingSlot == bindingSlot && e.shaderRegister == shaderRegister
  {
    SamplerElement(filter, anisotropicFactor, addressMode, comparisonPassMode, bindingSlot, shaderRegister)
  }

  datatype SamplerLayout = SamplerLayout(samplers: map<nat, SamplerElement>)

  /** `SamplerLayout(elements)`: keyed by shader register, a later element replacing an earlier. */
  function NewSamplerLayout(es: seq<SamplerElement>): (l: SamplerLayout)
    ensures forall i :: 0 <= i < |es| ==> es[i].shaderRegister in l.samplers
    ensures forall k :: k in l.samplers ==> exists i :: LastWithKey(es, (e: SamplerElement) => e.shaderRegister, k, i)
                                                       && l.samplers[k] == es[i]
    ensures forall k :: k in l.samplers ==> l.samplers[k].shaderRegister == k
  {
    KeyedKeepsLast(es, (e: SamplerElement) => e.shaderRegister);
    SamplerLayout(Keyed(es, (e: SamplerElement) => e.shaderRegister))
  }

  /**
   * `GetElement`: the declared element, or a default one that the layout
   * keeps from then on; the register of that default is `indeterminate`.
   */
  function GetSamplerElement(l: SamplerLayout, shaderRegister: nat, indeterminate: nat): (r: (SamplerElement, SamplerLayout))
    ensures shaderRegister in l.samplers ==> r == (l.samplers[shaderRegister], l)
    ensures shaderRegister !in l.samplers ==> r.0 == DefaultSamplerElement(indeterminate)
    ensures r.1.samplers.Keys == l.samplers.Keys + {shaderRegister}
    ensures forall k :: k in l.samplers ==> r.1.samplers[k] == l.samplers[k]
  {
    var (e, samplers) := GetOrInsert(l.samplers, shaderRegister, DefaultSamplerElement(indeterminate));
    (e, SamplerLayout(samplers))
  }

  /** A declared register is found whatever the uninitialised memory holds. */
  lemma DeclaredLookupIgnoresIndeterminate(es: seq<SamplerElement>, i: nat, a: nat, b: nat)
    requires i < |es| && forall j :: i < j < |es| ==> es[j].shaderRegister != es[i].shaderRegister
    ensures GetSamplerElement(NewSamplerLayout(es), es[i].shaderRegister, a).0 == es[i]
    ensures GetSamplerElement(NewSamplerLayout(es), es[i].shaderRegister, a) == GetSamplerElement(NewSamplerLayout(es), es[i].shaderRegister, b)
  {
    var l := NewSamplerLayout(es);
    var k := es[i].shaderRegister;
    var j :| LastWithKey(es, (e: SamplerElement) => e.shaderRegister, k, j) && l.samplers[k] == es[j];
    assert LastWithKey(es, (e: SamplerElement) => e.shaderRegister, k, i);
  }
}

=== FILE: sdl3_window.dfy ===
/**
 * The SDL3 window's flags and its event loop: `Update` folds the pending
 * events over the minimized, should-close and fullscreen flags, forwarding
 * resizes to the connected resizer and fullscreen changes to SDL. The
 * window's width and height are fixed at construction.
 */
module Sdl3Window {
  import opened Bytes

  /** The window's state; `resizer` says whether a resize callback is connected. */
  datatype Window = Window(
    width: nat,
    height: nat,
    id: nat,
    minimized: bool,
    shouldClose: bool,
    fullScreen: bool,
    resizer: bool)

  /** The events `Update` reacts to; anything else is `OtherEvent`. */
  datatype Event =
    | WindowMinimized
    | WindowRestored
    | WindowResized(data1: int, data2: int)
    | Quit
    | CloseRequested(windowId: nat)
    | KeyDown(key: nat)
    | OtherEvent

  /** The calls `Update` makes out of the window: the resize callback and SDL's fullscreen switch. */
  datatype Call = Resize(width: nat, height: nat) | SetFullscreen(on: bool)

  /** `SDLK_SPACE`. */
  const SpaceKey: nat := 0x20

  /** `SDL3Window(width, height, title)`: nothing minimized, closing or fullscreen, and no resizer. */
  function NewWindow(width: nat, height: nat, id: nat): (w: Window)
    ensures !w.minimized && !w.shouldClose && !w.fullScreen && !w.resizer
    ensures w.width == width && w.height == height && w.id == id
  {
    Window(width, height, id, false, false, false, false)
  }

  /** `ConnectResizer`: from now on resizes are forwarded. */
  function ConnectResizer(w: Window): (r: Window)
    ensures r.resizer
    ensures r.(resizer := w.resizer) == w
  {
    w.(resizer := true)
  }

  /** Whether an event asks this window to close: a quit, or a close request carrying its id. */
  predicate Closes(e: Event, id: nat) {
    e.Quit? || (e.CloseRequested? && e.windowId == id)
  }

  /** Whether an event toggles fullscreen: a press of the space key. */
  predicate Toggles(e: Event) {
    e.KeyDown? && e.key == SpaceKey
  }

  /** One turn of the event loop. The `Sint32` resize data is passed on as `uint32_t`. */
  function Handle(w: Window, e: Event): (Window, seq<Call>) {
    match e
    case WindowMinimized => (w.(minimized := true), [])
    case WindowRestored => (w.(minimized := false), [])
    case WindowResized(d1, d2) =>
      if !w.minimized && w.resizer then (w, [Resize(d1 % U32, d2 % U32)]) else (w, [])
    case Quit => (w.(shouldClose := true), [])
    case CloseRequested(id) => if id == w.id then (w.(shouldClose := true), []) else (w, [])
    case KeyDown(key) =>
      if key == SpaceKey then (w.(fullScreen := !w.fullScreen), [SetFullscreen(!w.fullScreen)]) else (w, [])
    case OtherEvent => (w, [])
  }

  /**
   * `Update()`: the events in order. Width, height, id and the resizer are
   * never changed by an event.
   */
  function Update(w: Window, es: seq<Event>): (r: (Window, seq<Call>))
    ensures r.0.width == w.width && r.0.height == w.height && r.0.id == w.id && r.0.resizer == w.resizer
    decreases |es|
  {
    if |es| == 0 then (w, [])
    else
      var (next, calls) := Handle(w, es[0]);
      var (last, more) := Update(next, es[1..]);
      (last, calls + more)
  }

  /** Updating on `a` and then on `b` is updating on `a + b`. */
  lemma {:induction false} UpdateAppend(w: Window, a: seq<Event>, b: seq<Event>)
    ensures var (m, ca) := Update(w, a);
            var (r, cb) := Update(m, b);
            Update(w, a + b) == (r, ca + cb)
    decreases |a|
  {
    if |a| == 0 {
      assert a + b == b;
      var (r, cb) := Update(w, b);
      assert [] + cb == cb;
    } else {
      assert (a + b)[0] == a[0];
      assert (a + b)[1..] == a[1..] + b;
      var (next, calls) := Handle(w, a[0]);
      UpdateAppend(next, a[1..], b);
      var (m, ca) := Update(next, a[1..]);
      var (r, cb) := Update(m, b);
      assert calls + (ca + cb) == (calls + ca) + cb;
    }
  }

  // ---------------------------------------------------------------------
  // The flags, event by event
  // ---------------------------------------------------------------------

  /** Minimized as the last minimize or restore event left it, else as it was. */
  function LastMinimize(es: seq<Event>, initial: bool): bool
    decreases |es|
  {
    if |es| == 0 then initial
    else
      var e := es[|es| - 1];
      if e.WindowMinimized? then true
      else if e.WindowRestored? then false
      else LastMinimize(es[..|es| - 1], initial)
  }

  /** The number of fullscreen toggles among the events. */
  function TogglesIn(es: seq<Event>): (n: nat)
    ensures n <= |es|
    decreases |es|
  {
    if |es| == 0 then 0 else (if Toggles(es[0]) then 1 else 0) + TogglesIn(es[1..])
  }

  /** After the events, minimized is what the last minimize or restore event set. */
  lemma {:induction false} MinimizedFollowsLastEvent(w: Window, es: seq<Event>)
    ensures Update(w, es).0.minimized == LastMinimize(es, w.minimized)
    decreases |es|
  {
    if |es| > 0 {
      var front := es[..|es| - 1];
      var e := es[|es| - 1];
      assert es == front + [e];
      UpdateAppend(w, front, [e]);
      MinimizedFollowsLastEvent(w, front);
      var m := Update(w, front).0;
      assert [e][1..] == [];
      assert Update(m, [e]).0 == Handle(m, e).0;
    }
  }

  /**
   * Should-close is sticky: after the events it is set exactly when it was
   * set before or one of the events asked this window to close.
   */
  lemma {:induction false} CloseIsSticky(w: Window, es: seq<Event>)
    ensures Update(w, es).0.shouldClose <==> w.shouldClose || exists i :: 0 <= i < |es| && Closes(es[i], w.id)
    decreases |es|
  {
    if |es| > 0 {
      var next := Handle(w, es[0]).0;
      CloseIsSticky(next, es[1..]);
      assert next.shouldClose <==> w.shouldClose || Closes(es[0], w.id);
      if exists i :: 0 <= i < |es[1..]| && Closes(es[1..][i], w.id) {
        var i :| 0 <= i < |es[1..]| && Closes(es[1..][i], w.id);
        assert Closes(es[i + 1], w.id);
      }
      if exists i :: 0 <= i < |es| && Closes(es[i], w.id) {
        var i :| 0 <= i < |es| && Closes(es[i], w.id);
        if i > 0 {
          assert Closes(es[1..][i - 1], w.id);
        }
      }
    }
  }

  /** Fullscreen flips once per space press, so it ends flipped iff the presses are odd in number. */
  lemma {:induction false} FullScreenParity(w: Window, es: seq<Event>)
    ensures Update(w, es).0.fullScreen == (w.fullScreen != (TogglesIn(es) % 2 == 1))
    decreases |es|
  {
    if |es| > 0 {
      FullScreenParity(Handle(w, es[0]).0, es[1..]);
    }
  }

  /** Pressing space twice restores the fullscreen state, telling SDL about each change. */
  lemma TwoPressesRestore(w: Window)
    ensures var (r, calls) := Update(w, [KeyDown(SpaceKey), KeyDown(SpaceKey)]);
            r == w && calls == [SetFullscreen(!w.fullScreen), SetFullscreen(w.fullScreen)]
  {
    var e := KeyDown(SpaceKey);
    var w1 := w.(fullScreen := !w.fullScreen);
    assert [e][1..] == [];
    assert Update(w1, [e]) == (w, [SetFullscreen(w.fullScreen)] + []);
    assert [e, e][1..] == [e];
    assert Update(w, [e, e]) == (w, [SetFullscreen(!w.fullScreen)] + ([SetFullscreen(w.fullScreen)] + []));
  }

  /** No resize reaches anyone while no resizer is connected. */
  lemma {:induction false} NoResizerNoResize(w: Window, es: seq<Event>)
    requires !w.resizer
    ensures forall i :: 0 <= i < |Update(w, es).1| ==> !Update(w, es).1[i].Resize?
    decreases |es|
  {
    if |es| > 0 {
      var (next, calls) := Handle(w, es[0]);
      NoResizerNoResize(next, es[1..]);
      var more := Update(next, es[1..]).1;
      assert Update(w, es).1 == calls + more;
    }
  }

  /** A minimized window swallows resizes until it is restored. */
  lemma {:induction false} MinimizedSwallowsResizes(w: Window, es: seq<Event>)
    requires w.minimized
    requires forall i :: 0 <= i < |es| ==> !es[i].WindowRestored?
    ensures forall i :: 0 <= i < |Update(w, es).1| ==> !Update(w, es).1[i].Resize?
    decreases |es|
  {
    if |es| > 0 {
      var (next, calls) := Handle(w, es[0]);
      assert next.minimized;
      MinimizedSwallowsResizes(next, es[1..]);
      var more := Update(next, es[1..]).1;
      assert Update(w, es).1 == calls + more;
    }
  }

  /** A resize on a visible window with a resizer is forwarded as it came, in 32-bit unsigned. */
  lemma ResizeIsForwarded(w: Window, d1: int, d2: int)
    requires !w.minimized && w.resizer
    ensures Update(w, [WindowResized(d1, d2)]) == (w, [Resize(d1 % U32, d2 % U32)])
  {
    assert [WindowResized(d1, d2)][1..] == [];
    assert [Resize(d1 % U32, d2 % U32)] + [] == [Resize(d1 % U32, d2 % U32)];
  }

  /** Width and height stay at their constructor values whatever the events: a resize does not update them. */
  lemma SizeIsFixed(width: nat, height: nat, id: nat, es: seq<Event>)
    ensures var r := Update(ConnectResizer(NewWindow(width, height, id)), es).0;
            r.width == width && r.height == height
  {
  }
}

=== FILE: shader.dfy ===
/**
 * The backend-independent shader factory: from the current graphics API and
 * a manifest base path to the backend shader that reads the manifest.
 */
module Shader {
  import opened Wrappers
  import opened Errors
  import opened ApplicationStarter
  import C = Compiler
  import Cso = CsoCompiler

  /** The backend shader `Instantiate` creates, with the manifest it is given. */
  datatype ShaderInstance = D3D12Shader(manifestPath: string) | VulkanShader(manifestPath: string)

  const D3D12ManifestSuffix := ".d3d12.json"
  const VulkanManifestSuffix := ".vk.json"

  /**
   * `Shader::Instantiate`: the manifest is the base path with the API's
   * suffix. Direct3D 12 exists only in a Windows build; without it that API
   * falls to the default branch, and the result is a null pointer.
   */
  function Instantiate(api: GraphicsApi, windows: bool, jsonBasepath: string): (r: Option<ShaderInstance>)
    ensures r.None? <==> api == D3D12Api && !windows
    ensures r.Some? && api == D3D12Api ==> r.value == D3D12Shader(jsonBasepath + D3D12ManifestSuffix)
    ensures r.Some? && api == VulkanApi ==> r.value == VulkanShader(jsonBasepath + VulkanManifestSuffix)
    ensures r.Some? ==> |r.value.manifestPath| > |jsonBasepath| && r.value.manifestPath[..|jsonBasepath|] == jsonBasepath
  {
    match api
    case D3D12Api => if windows then Some(D3D12Shader(jsonBasepath + D3D12ManifestSuffix)) else None
    case VulkanApi => Some(VulkanShader(jsonBasepath + VulkanManifestSuffix))
  }

  /** Which compiler backend writes the manifests an API reads. */
  function BackendFor(api: GraphicsApi): C.HLSLBackend {
    match api
    case D3D12Api => C.CSO
    case VulkanApi => C.SPV
  }

  /**
   * For every source `dir/stem.hlsl`, the manifest a compiler for the API's
   * backend writes is the one the API's shader reads from base path `dir/stem`.
   */
  lemma ManifestRoundTrip(c: C.Compiler, api: GraphicsApi, path: string)
    requires api == VulkanApi || c.backend == C.CSO
    requires c.backend == BackendFor(api)
    requires C.SplitShaderPath(path).Some?
    ensures var (dir, stem) := C.SplitShaderPath(path).value;
            var r := Instantiate(api, true, dir + stem);
            r.Some? && r.value.manifestPath == C.ManifestPath(c, dir + stem)
  {
  }

  /**
   * The packed build of the CSO compiler: a source that compiles writes its
   * manifest last, and the Direct3D 12 shader created from base path
   * `dir/stem` reads exactly that file.
   */
  lemma CsoManifestIsRead(base: C.Compiler, checks: C.EntryChecks, argList: seq<string>, path: string, env: C.BuildEnv)
    requires base.backend == C.CSO
    requires C.SplitShaderPath(path).Some?
    requires Cso.CsoShaderFile(base, checks, argList, path, env).0.thrown.None?
    ensures var (dir, stem) := C.SplitShaderPath(path).value;
            var writes := Cso.CsoShaderFile(base, checks, argList, path, env).0.writes;
            && |writes| > 0 && writes[|writes| - 1].ManifestWrite?
            && Instantiate(D3D12Api, true, dir + stem) == Some(D3D12Shader(writes[|writes| - 1].path))
  {
    Cso.CsoShaderFileWrites(base, checks, argList, path, env);
    var writes := Cso.CsoShaderFile(base, checks, argList, path, env).0.writes;
    assert writes == C.ShaderOutputs(base, path, true);
    ManifestRoundTrip(base, D3D12Api, path);
  }
}

=== FILE: shader_data.dfy ===
/**
 * The vertex attribute types a layout is described in, with their byte
 * sizes and component counts.
 */
module ShaderData {
  import W = Wrappers
  import opened Errors

  datatype ShaderDataType = None | Float | Float2 | Float3 | Float4 | Mat4 | Uint | Uint2 | Uint3 | Uint4 | Bool

  /** How the components of a type are read. */
  datatype ScalarKind = FloatScalar | UintScalar | BoolScalar

  const UnknownTypeMessage := "Unknown ShaderDataType!"

  /** `ShaderDataTypeSize`: the byte size of a type; `None` trips the assertion. */
  function ShaderDataTypeSize(t: ShaderDataType): (r: W.Result<nat, Error>)
    ensures r.Err? <==> t == None
    ensures r.Err? ==> r.error == AssertionFailure(UnknownTypeMessage)
    ensures r.Ok? ==> 1 <= r.value <= 64
    ensures r.Ok? ==> (r.value == 1 <==> t == Bool)
  {
    match t
    case None => W.Err(AssertionFailure(UnknownTypeMessage))
    case Float => W.Ok(4)
    case Float2 => W.Ok(4 * 2)
    case Float3 => W.Ok(4 * 3)
    case Float4 => W.Ok(4 * 4)
    case Mat4 => W.Ok(4 * 4 * 4)
    case Uint => W.Ok(4)
    case Uint2 => W.Ok(4 * 2)
    case Uint3 => W.Ok(4 * 3)
    case Uint4 => W.Ok(4 * 4)
    case Bool => W.Ok(1)
  }

  /**
   * `GetComponentCount`: the number of scalars in a type; `None` trips the
   * assertion. The size table is this one scaled by the scalar's width:
   * four bytes, one for `Bool`.
   */
  function ComponentCount(t: ShaderDataType): (r: W.Result<nat, Error>)
    ensures r.Err? <==> t == None
    ensures r.Err? ==> r.error == AssertionFailure(UnknownTypeMessage)
    ensures r.Ok? ==> ShaderDataTypeSize(t).value == r.value * (if Kind(t) == BoolScalar then 1 else 4)
  {
    match t
    case None => W.Err(AssertionFailure(UnknownTypeMessage))
    case Float => W.Ok(1)
    case Float2 => W.Ok(2)
    case Float3 => W.Ok(3)
    case Float4 => W.Ok(4)
    case Mat4 => W.Ok(4 * 4)
    case Uint => W.Ok(1)
    case Uint2 => W.Ok(2)
    case Uint3 => W.Ok(3)
    case Uint4 => W.Ok(4)
    case Bool => W.Ok(1)
  }

  /** The scalar kind of every type but `None`. */
  function Kind(t: ShaderDataType): ScalarKind
    requires t != None
  {
    match t
    case Float | Float2 | Float3 | Float4 | Mat4 => FloatScalar
    case Uint | Uint2 | Uint3 | Uint4 => UintScalar
    case Bool => BoolScalar
  }
}

=== FILE: shader_loading.dfy ===
/**
 * What the two backend shaders share: the shape of the vertex formats a
 * layout's types call for, and where a stage's blob is looked for (the
 * manifest's directory, then the file name the manifest gives the stage).
 */
module ShaderLoading {
  import opened Wrappers
  import opened Errors
  import opened Files
  import opened Text
  import SD = ShaderData
  import C = Compiler

  /** How the channels of a vertex format are read. */
  datatype Numeric = SignedFloat | UnsignedInt

  /** A vertex format: how many channels, how wide each is, and how it is read. */
  datatype FormatShape = FormatShape(channels: nat, bits: nat, numeric: Numeric)

  function FormatBytes(s: FormatShape): nat {
    s.channels * s.bits / 8
  }

  /**
   * The format an attribute of type `t` needs: as many 32-bit channels as it
   * has components, float or unsigned as its scalar; one 8-bit unsigned
   * channel for `Bool`. A matrix and `None` have no single format.
   */
  function TypeShape(t: SD.ShaderDataType): (r: Option<FormatShape>)
    ensures r.None? <==> t == SD.ShaderDataType.None || t == SD.Mat4
    ensures r.Some? ==> FormatBytes(r.value) == SD.ShaderDataTypeSize(t).value
    ensures r.Some? ==> r.value.channels == SD.ComponentCount(t).value
    ensures r.Some? ==> (r.value.numeric == SignedFloat <==> SD.Kind(t) == SD.FloatScalar)
  {
    match t
    case None => Option.None
    case Mat4 => Option.None
    case Float => Some(FormatShape(1, 32, SignedFloat))
    case Float2 => Some(FormatShape(2, 32, SignedFloat))
    case Float3 => Some(FormatShape(3, 32, SignedFloat))
    case Float4 => Some(FormatShape(4, 32, SignedFloat))
    case Uint => Some(FormatShape(1, 32, UnsignedInt))
    case Uint2 => Some(FormatShape(2, 32, UnsignedInt))
    case Uint3 => Some(FormatShape(3, 32, UnsignedInt))
    case Uint4 => Some(FormatShape(4, 32, UnsignedInt))
    case Bool => Some(FormatShape(1, 8, UnsignedInt))
  }

  /** A depth or stencil comparison, as both APIs name them. */
  datatype Comparison = Never | Less | Equal | LessEqual | Greater | NotEqual | GreaterEqual | Always

  /** Whether a fragment at depth `incoming` passes against `stored` under `op`. */
  predicate Passes(op: Comparison, incoming: int, stored: int) {
    match op
    case Never => false
    case Less => incoming < stored
    case Equal => incoming == stored
    case LessEqual => incoming <= stored
    case Greater => incoming > stored
    case NotEqual => incoming != stored
    case GreaterEqual => incoming >= stored
    case Always => true
  }

  /** Which faces the rasterizer drops. */
  datatype CullMode = CullNone | CullFront | CullBack

  /** The winding that makes a triangle front-facing. */
  datatype Winding = Clockwise | CounterClockwise

  /** The stages both backends load, in order. */
  const PipelineStages: seq<string> := ["vs", "ps"]

  /**
   * `InitJsonAndPaths` then `PushShader`: the blob of `stage` is the manifest's
   * `filename` field, in the manifest's directory. A bare-string entry cannot
   * be indexed and jsoncpp throws.
   */
  function BlobPath(manifestPath: string, manifest: Manifest, stage: string, windows: bool): (r: Result<string, Error>)
    ensures r.Err? <==> stage in manifest.binShaders && manifest.binShaders[stage].BareName?
    ensures r.Err? ==> r.error == JsonNotAnObject
    ensures r.Ok? ==> StartsWith(r.value, ParentPath(manifestPath, windows) + "/")
  {
    var name :- ReadStageField(manifest, stage, "filename");
    var dir := ParentPath(manifestPath, windows);
    assert (dir + "/" + name)[..|dir + "/"|] == dir + "/";
    Ok(dir + "/" + name)
  }

  /** No character of the manifest suffix is a separator. */
  lemma ManifestSuffixHasNoSeparator(c: C.Compiler, windows: bool)
    ensures forall i :: 0 <= i < |C.ApiExtension(c.backend) + ".json"| ==> !IsSeparator((C.ApiExtension(c.backend) + ".json")[i], windows)
  {
  }

  /** A stem without separators keeps none once the manifest suffix is added. */
  lemma ManifestNameHasNoSeparator(c: C.Compiler, stem: string, windows: bool)
    requires forall i :: 0 <= i < |stem| ==> !IsSeparator(stem[i], windows)
    ensures var name := stem + C.ApiExtension(c.backend) + ".json";
            forall i :: 0 <= i < |name| ==> !IsSeparator(name[i], windows)
  {
    var suffix := C.ApiExtension(c.backend) + ".json";
    var name := stem + suffix;
    assert name == stem + C.ApiExtension(c.backend) + ".json";
    ManifestSuffixHasNoSeparator(c, windows);
    forall i | 0 <= i < |name| ensures !IsSeparator(name[i], windows) {
      if i >= |stem| {
        assert name[i] == suffix[i - |stem|];
      }
    }
  }

  /**
   * For a source `dir/stem.hlsl`, a backend that reads the manifest the
   * compiler writes next to it, with nested stage entries, looks for each
   * stage's blob exactly where the compiler wrote it.
   */
  lemma BlobPathRoundTrip(c: C.Compiler, path: string, stage: string, windows: bool)
    requires C.SplitShaderPath(path).Some?
    requires stage in C.PackedStages
    requires var (dir, stem) := C.SplitShaderPath(path).value;
             && |dir| >= 2 && !IsSeparator(dir[|dir| - 2], windows)
             && forall i :: 0 <= i < |stem| ==> !IsSeparator(stem[i], windows)
    ensures var (dir, stem) := C.SplitShaderPath(path).value;
            BlobPath(C.ManifestPath(c, dir + stem), C.ManifestFor(c, stem, true), stage, windows)
              == Ok(C.StageOutputPath(c, dir + stem, stage))
  {
    var (dir, stem) := C.SplitShaderPath(path).value;
    var name := stem + C.ApiExtension(c.backend) + ".json";
    assert C.ManifestPath(c, dir + stem) == dir + name;
    ManifestNameHasNoSeparator(c, stem, windows);
    ParentOfFileInDir(dir, name, windows);
    C.CorrectedManifestNamesBlobs(c, stem, stage);
    assert ParentPath(dir + name, windows) + "/" + C.StageFilename(c, stem, stage) == C.StageOutputPath(c, dir + stem, stage);
  }

  /** With the manifest as the compiler writes it, a backend asking for a packed stage's blob gets an exception. */
  lemma AsWrittenManifestHasNoBlobPath(c: C.Compiler, stem: string, manifestPath: string, stage: string, windows: bool)
    requires stage in C.PackedStages
    ensures BlobPath(manifestPath, C.ManifestFor(c, stem, false), stage, windows) == Err(JsonNotAnObject)
  {
    C.AsWrittenManifestIsUnreadable(c, stem, stage);
  }
}

=== FILE: slot_map.dfy ===
/**
 * The shape every resource layout shares: elements stored in a hash map
 * under a key read from each element (binding slot or shader register), a
 * later element replacing an earlier one with the same key, and
 * `operator[]` lookups that insert a default element on a miss.
 */
module SlotMap {

  /** The map the layout constructors build, inserting the elements in order. */
  function Keyed<T>(es: seq<T>, key: T -> nat): (m: map<nat, T>)
    decreases |es|
  {
    if |es| == 0 then map[] else Keyed(es[..|es| - 1], key)[key(es[|es| - 1]) := es[|es| - 1]]
  }

  /** Element `i` is the last one with key `k`. */
  ghost predicate LastWithKey<T>(es: seq<T>, key: T -> nat, k: nat, i: int) {
    0 <= i < |es| && key(es[i]) == k && forall j :: i < j < |es| ==> key(es[j]) != k
  }

  /**
   * Every element's key is present, and each key maps to the last element
   * carrying it: a later duplicate replaces an earlier one.
   */
  lemma {:induction false} KeyedKeepsLast<T>(es: seq<T>, key: T -> nat)
    ensures forall i :: 0 <= i < |es| ==> key(es[i]) in Keyed(es, key)
    ensures forall k :: k in Keyed(es, key) ==> exists i :: LastWithKey(es, key, k, i) && Keyed(es, key)[k] == es[i]
    decreases |es|
  {
    if |es| > 0 {
      var init := es[..|es| - 1];
      var last := es[|es| - 1];
      KeyedKeepsLast(init, key);
      var m := Keyed(es, key);
      forall i | 0 <= i < |es| ensures key(es[i]) in m {
        if i < |es| - 1 {
          assert es[i] == init[i];
        }
      }
      forall k | k in m ensures exists i :: LastWithKey(es, key, k, i) && m[k] == es[i] {
        if k == key(last) {
          assert LastWithKey(es, key, k, |es| - 1);
        } else {
          var i :| LastWithKey(init, key, k, i) && Keyed(init, key)[k] == init[i];
          assert es[i] == init[i];
          assert LastWithKey(es, key, k, i);
        }
      }
    }
  }

  /**
   * `operator[]`: the stored element, or a default one, which is stored
   * under the key from then on. The map is returned with the element.
   */
  function GetOrInsert<T>(m: map<nat, T>, k: nat, default: T): (r: (T, map<nat, T>))
    ensures k in r.1 && r.1[k] == r.0
    ensures k in m ==> r.0 == m[k]
    ensures k !in m ==> r.0 == default
    ensures r.1.Keys == m.Keys + {k}
    ensures forall j :: j in m ==> r.1[j] == m[j]
  {
    if k in m then (m[k], m) else (default, m[k := default])
  }

  /** A second lookup of the same key finds what the first returned and changes nothing. */
  lemma GetOrInsertSettles<T>(m: map<nat, T>, k: nat, default: T)
    ensures var (e, m1) := GetOrInsert(m, k, default);
            GetOrInsert(m1, k, default) == (e, m1)
  {
  }
}

=== FILE: target.dfy ===
/**
 * The program path the Windows entry point hands to the application:
 * `ReadCmdArg` reads the first whitespace-delimited token of the command
 * line with `operator>>`, then erases every double quote from it. A
 * quoted path holding a space is therefore cut; `ProgramPath` is the
 * reading that honours the quotes.
 */
module CmdArg {
  import opened Text

  /** The number of leading characters `operator>>` skips. */
  function LeadingSpaces(s: string): (k: nat)
    ensures k <= |s|
    ensures forall j :: 0 <= j < k ==> IsSpace(s[j])
    ensures k < |s| ==> !IsSpace(s[k])
  {
    if |s| == 0 || !IsSpace(s[0]) then 0 else 1 + LeadingSpaces(s[1..])
  }

  /** The length of the run of non-space characters `s` starts with. */
  function TokenLength(s: string): (k: nat)
    ensures k <= |s|
    ensures forall j :: 0 <= j < k ==> !IsSpace(s[j])
    ensures k < |s| ==> IsSpace(s[k])
  {
    if |s| == 0 || IsSpace(s[0]) then 0 else 1 + TokenLength(s[1..])
  }

  /**
   * `buffer >> *output`: leading white space is skipped and the token runs
   * up to the next white space or the end; white space only gives the
   * empty string.
   */
  function FirstToken(s: string): (t: string)
    ensures forall j :: 0 <= j < |t| ==> !IsSpace(t[j])
    ensures LeadingSpaces(s) + |t| <= |s| && t == s[LeadingSpaces(s)..LeadingSpaces(s) + |t|]
    ensures LeadingSpaces(s) + |t| < |s| ==> IsSpace(s[LeadingSpaces(s) + |t|])
  {
    var rest := s[LeadingSpaces(s)..];
    rest[..TokenLength(rest)]
  }

  /** The string with every double quote taken out and the other characters in order. */
  function RemoveQuotes(s: string): (r: string)
    ensures '"' !in r
    ensures |r| <= |s|
    decreases |s|
  {
    if |s| == 0 then ""
    else (if s[0] == '"' then "" else [s[0]]) + RemoveQuotes(s[1..])
  }

  /** Removing quotes distributes over concatenation. */
  lemma {:induction false} RemoveQuotesAppend(a: string, b: string)
    ensures RemoveQuotes(a + b) == RemoveQuotes(a) + RemoveQuotes(b)
    decreases |a|
  {
    if |a| == 0 {
      assert a + b == b;
    } else {
      assert (a + b)[0] == a[0];
      assert (a + b)[1..] == a[1..] + b;
      RemoveQuotesAppend(a[1..], b);
    }
  }

  /** A string without quotes is left as it is. */
  lemma {:induction false} RemoveQuotesKeepsUnquoted(s: string)
    requires forall j :: 0 <= j < |s| ==> s[j] != '"'
    ensures RemoveQuotes(s) == s
    decreases |s|
  {
    if |s| > 0 {
      assert s == [s[0]] + s[1..];
      RemoveQuotesKeepsUnquoted(s[1..]);
    }
  }

  /** Quote removal is idempotent. */
  lemma RemoveQuotesIdempotent(s: string)
    ensures RemoveQuotes(RemoveQuotes(s)) == RemoveQuotes(s)
  {
    RemoveQuotesKeepsUnquoted(RemoveQuotes(s));
  }

  /** Erasing one quote does not change what quote removal gives. */
  lemma EraseOneQuote(a: string, b: string)
    ensures RemoveQuotes(a + b) == RemoveQuotes(a + ['"'] + b)
  {
    var qb := ['"'] + b;
    assert qb[1..] == b;
    assert RemoveQuotes(qb) == RemoveQuotes(b);
    RemoveQuotesAppend(a, qb);
    RemoveQuotesAppend(a, b);
    assert a + ['"'] + b == a + qb;
  }

  /**
   * The erase loop of `ReadCmdArg`: find a quote from `pos`, erase it, and
   * search again from the same position until none is left. What remains
   * is the string with its quotes removed.
   */
  method EraseQuotes(s: string) returns (r: string)
    ensures r == RemoveQuotes(s)
  {
    r := s;
    var pos := 0;
    while true
      invariant pos <= |r|
      invariant RemoveQuotes(r) == RemoveQuotes(s)
      invariant forall j :: 0 <= j < pos ==> r[j] != '"'
      decreases |r| - pos
    {
      var k := IndexOf(r[pos..], '"');
      if pos + k == |r| {
        assert forall j :: 0 <= j < |r| ==> r[j] != '"' by {
          forall j | pos <= j < |r| ensures r[j] != '"' {
            assert r[j] == r[pos..][j - pos];
          }
        }
        RemoveQuotesKeepsUnquoted(r);
        return;
      }
      var found := pos + k;
      assert r[found] == '"';
      assert forall j :: 0 <= j < found ==> r[j] != '"' by {
        forall j | pos <= j < found ensures r[j] != '"' {
          assert r[j] == r[pos..][j - pos];
        }
      }
      var front, back := r[..found], r[found + 1..];
      assert r == front + ['"'] + back;
      EraseOneQuote(front, back);
      assert forall j :: 0 <= j < found ==> (front + back)[j] == r[j];
      r, pos := front + back, found;
    }
  }

  /** What `ReadCmdArg` leaves in its output. */
  function CleanArg(argv: string): string {
    RemoveQuotes(FirstToken(argv))
  }

  /**
   * `ReadCmdArg(output, argv)`: the first token, with its quotes erased.
   * The result has no quote and no white space.
   */
  method ReadCmdArg(argv: string) returns (output: string)
    ensures output == CleanArg(argv)
    ensures '"' !in output
    ensures forall j :: 0 <= j < |output| ==> !IsSpace(output[j])
  {
    output := FirstToken(argv);
    output := EraseQuotes(output);
    NoSpaceSurvives(FirstToken(argv));
  }

  /** Erasing quotes adds no character, so a token without white space stays without. */
  lemma {:induction false} NoSpaceSurvives(s: string)
    requires forall j :: 0 <= j < |s| ==> !IsSpace(s[j])
    ensures forall j :: 0 <= j < |RemoveQuotes(s)| ==> !IsSpace(RemoveQuotes(s)[j])
    decreases |s|
  {
    if |s| > 0 {
      NoSpaceSurvives(s[1..]);
    }
  }

  /**
   * The partner of `FirstToken`: white space, then a word, then the end or
   * white space, tokenises to that word.
   */
  lemma {:induction false} FirstTokenOfWord(spaces: string, word: string, rest: string)
    requires forall j :: 0 <= j < |spaces| ==> IsSpace(spaces[j])
    requires |word| > 0 && forall j :: 0 <= j < |word| ==> !IsSpace(word[j])
    requires |rest| > 0 ==> IsSpace(rest[0])
    ensures FirstToken(spaces + word + rest) == word
  {
    var s := spaces + word + rest;
    LeadingSpacesOf(spaces, word + rest);
    assert s == spaces + (word + rest);
    assert s[|spaces|..] == word + rest;
    TokenLengthOf(word, rest);
  }

  lemma {:induction false} LeadingSpacesOf(spaces: string, rest: string)
    requires forall j :: 0 <= j < |spaces| ==> IsSpace(spaces[j])
    requires |rest| > 0 && !IsSpace(rest[0])
    ensures LeadingSpaces(spaces + rest) == |spaces|
    decreases |spaces|
  {
    if |spaces| == 0 {
      assert spaces + rest == rest;
    } else {
      assert (spaces + rest)[1..] == spaces[1..] + rest;
      LeadingSpacesOf(spaces[1..], rest);
    }
  }

  lemma {:induction false} TokenLengthOf(word: string, rest: string)
    requires forall j :: 0 <= j < |word| ==> !IsSpace(word[j])
    requires |rest| > 0 ==> IsSpace(rest[0])
    ensures TokenLength(word + rest) == |word|
    decreases |word|
  {
    if |word| == 0 {
      assert word + rest == rest;
    } else {
      assert (word + rest)[1..] == word[1..] + rest;
      TokenLengthOf(word[1..], rest);
    }
  }

  /** A quoted program path followed by arguments is cleaned to the path itself. */
  lemma QuotedPathIsUnquoted(path: string, args: string)
    requires forall j :: 0 <= j < |path| ==> !IsSpace(path[j]) && path[j] != '"'
    requires |args| > 0 ==> IsSpace(args[0])
    ensures CleanArg(" " + "\"" + path + "\"" + args) == path
  {
    var word := "\"" + path + "\"";
    assert " " + "\"" + path + "\"" + args == " " + word + args;
    FirstTokenOfWord(" ", word, args);
    RemoveQuotesAppend("\"" + path, "\"");
    RemoveQuotesAppend("\"", path);
    RemoveQuotesKeepsUnquoted(path);
  }

  /**
   * Tokenising comes before quote removal, so a quoted path with a space in
   * it is cut at the space: only the part before the space survives.
   */
  lemma QuotedSpaceIsCut(head: string, tail: string)
    requires forall j :: 0 <= j < |head| ==> !IsSpace(head[j]) && head[j] != '"'
    ensures CleanArg("\"" + head + " " + tail + "\"") == head
  {
    var word := "\"" + head;
    assert "\"" + head + " " + tail + "\"" == "" + word + (" " + tail + "\"");
    FirstTokenOfWord("", word, " " + tail + "\"");
    RemoveQuotesAppend("\"", head);
    RemoveQuotesKeepsUnquoted(head);
  }

  /** A command line of white space only gives the empty string. */
  lemma {:induction false} BlankLineGivesEmpty(s: string)
    requires forall j :: 0 <= j < |s| ==> IsSpace(s[j])
    ensures CleanArg(s) == ""
  {
    assert LeadingSpaces(s) == |s|;
  }

  /** Reading the argument out of an argument already read gives it back. */
  lemma CleanArgIdempotent(argv: string)
    ensures CleanArg(CleanArg(argv)) == CleanArg(argv)
  {
    var w := CleanArg(argv);
    if |w| > 0 {
      NoSpaceSurvives(FirstToken(argv));
      FirstTokenOfWord("", w, "");
      assert "" + w + "" == w;
      RemoveQuotesIdempotent(FirstToken(argv));
    }
  }

  // ---------------------------------------------------------------------
  // Reading the program path as Windows quotes it
  // ---------------------------------------------------------------------

  /**
   * `GetCommandLineA` puts the program path in double quotes when it holds
   * a space. A reader that honours them takes characters up to the first
   * white space outside quotes, dropping the quotes; `quoted` says whether
   * an opening quote is still unmatched.
   */
  function QuotedArgument(s: string, quoted: bool): (r: string)
    ensures '"' !in r
    ensures |r| <= |s|
    decreases |s|
  {
    if |s| == 0 then ""
    else if s[0] == '"' then QuotedArgument(s[1..], !quoted)
    else if IsSpace(s[0]) && !quoted then ""
    else [s[0]] + QuotedArgument(s[1..], quoted)
  }

  /** The program path with quoting honoured: leading white space skipped, then one argument. */
  function ProgramPath(argv: string): (r: string)
    ensures '"' !in r
  {
    QuotedArgument(argv[LeadingSpaces(argv)..], false)
  }

  /** Inside quotes white space is kept, and the closing quote hands over to the unquoted rules. */
  lemma {:induction false} QuotedArgumentInside(path: string, rest: string)
    requires '"' !in path
    ensures QuotedArgument(path + "\"" + rest, true) == path + QuotedArgument(rest, false)
    decreases |path|
  {
    if |path| == 0 {
      assert path + "\"" + rest == "\"" + rest;
      assert ("\"" + rest)[1..] == rest;
    } else {
      assert (path + "\"" + rest)[0] == path[0];
      assert (path + "\"" + rest)[1..] == path[1..] + "\"" + rest;
      QuotedArgumentInside(path[1..], rest);
      assert [path[0]] + path[1..] == path;
    }
  }

  /**
   * The corrected reading keeps a quoted path whole, white space and all,
   * whatever arguments follow it.
   */
  lemma QuotedPathIsKept(path: string, args: string)
    requires '"' !in path
    requires |args| > 0 ==> IsSpace(args[0])
    ensures ProgramPath("\"" + path + "\"" + args) == path
  {
    var argv := "\"" + path + "\"" + args;
    assert LeadingSpaces(argv) == 0;
    assert argv[1..] == path + "\"" + args;
    QuotedArgumentInside(path, args);
    if |args| > 0 {
      assert QuotedArgument(args, false) == "";
    }
    assert path + "" == path;
  }

  /** On a word with no quote in it both readings give the word. */
  lemma {:induction false} UnquotedWordAgrees(word: string, rest: string)
    requires forall j :: 0 <= j < |word| ==> !IsSpace(word[j]) && word[j] != '"'
    requires |rest| > 0 ==> IsSpace(rest[0])
    ensures QuotedArgument(word + rest, false) == word
    decreases |word|
  {
    if |word| == 0 {
      assert word + rest == rest;
    } else {
      assert (word + rest)[0] == word[0];
      assert (word + rest)[1..] == word[1..] + rest;
      UnquotedWordAgrees(word[1..], rest);
      assert [word[0]] + word[1..] == word;
    }
  }

  /** Where the source is right, with no quote in the first token, the corrected reading agrees with it. */
  lemma ProgramPathAgreesUnquoted(spaces: string, word: string, rest: string)
    requires forall j :: 0 <= j < |spaces| ==> IsSpace(spaces[j])
    requires |word| > 0 && forall j :: 0 <= j < |word| ==> !IsSpace(word[j]) && word[j] != '"'
    requires |rest| > 0 ==> IsSpace(rest[0])
    ensures ProgramPath(spaces + word + rest) == CleanArg(spaces + word + rest) == word
  {
    var argv := spaces + word + rest;
    FirstTokenOfWord(spaces, word, rest);
    RemoveQuotesKeepsUnquoted(word);
    LeadingSpacesOf(spaces, word + rest);
    assert argv == spaces + (word + rest);
    assert argv[|spaces|..] == word + rest;
    UnquotedWordAgrees(word, rest);
  }

  /** A program installed under `C:\Program Files` is read by the source as `C:\Program`... */
  lemma InstalledPathIsCut(argv: string)
    requires argv == "\"C:\\Program Files\\Render.exe\""
    ensures CleanArg(argv) == "C:\\Program"
  {
    var head, tail := "C:\\Program", "Files\\Render.exe";
    assert argv == "\"" + head + " " + tail + "\"";
    QuotedSpaceIsCut(head, tail);
  }

  /** ...and by the corrected reading as its whole path. */
  lemma InstalledPathIsKept(argv: string)
    requires argv == "\"C:\\Program Files\\Render.exe\""
    ensures ProgramPath(argv) == "C:\\Program Files\\Render.exe"
  {
    var path := argv[1..|argv| - 1];
    assert argv == "\"" + path + "\"" + "";
    QuoteFreeMiddle(argv);
    QuotedPathIsKept(path, "");
  }

  /** The installed path between its quotes holds no quote of its own. */
  lemma QuoteFreeMiddle(argv: string)
    requires argv == "\"C:\\Program Files\\Render.exe\""
    ensures '"' !in argv[1..|argv| - 1]
  {
    assert forall j :: 1 <= j < |argv| - 1 ==> argv[j] != '"';
  }
}

=== FILE: text.dfy ===
/**
 * Character classes and decimal digit strings, as the C++ standard library sees
 * them in the "C" locale: `\d`, `\w`, `isspace`, stream extraction of unsigned
 * integers and stream insertion of integers.
 */
module Text {

  /** `\d` and `isdigit`. */
  predicate IsDigit(c: char) {
    '0' <= c <= '9'
  }

  predicate IsAsciiLetter(c: char) {
    ('a' <= c <= 'z') || ('A' <= c <= 'Z')
  }

  /** `\w`: letters, digits and the underscore. */
  predicate IsWordChar(c: char) {
    IsAsciiLetter(c) || IsDigit(c) || c == '_'
  }

  /** `isspace` in the "C" locale, which is what `operator>>` skips and stops at. */
  predicate IsSpace(c: char) {
    c == ' ' || c == '\t' || c == '\n' || c == '\r' || c == '\U{000B}' || c == '\U{000C}'
  }

  predicate AllDigits(s: string) {
    forall i :: 0 <= i < |s| ==> IsDigit(s[i])
  }

  /** A non-empty run of decimal digits, what `(\d+)` captures. */
  predicate IsDigitRun(s: string) {
    |s| > 0 && AllDigits(s)
  }

  function DigitValue(c: char): (d: nat)
    requires IsDigit(c)
    ensures d < 10
  {
    (c as int - '0' as int) as nat
  }

  function DigitChar(d: nat): (c: char)
    requires d < 10
    ensures IsDigit(c) && DigitValue(c) == d
  {
    ('0' as int + d) as char
  }

  /** The number a run of digits denotes, leading zeros allowed. */
  function DecimalValue(s: string): nat
    requires AllDigits(s)
  {
    if |s| == 0 then 0 else DecimalValue(s[..|s| - 1]) * 10 + DigitValue(s[|s| - 1])
  }

  /** The text `operator<<` prints for a non-negative integer. */
  function ToDecimal(n: nat): (s: string)
    ensures IsDigitRun(s)
    ensures |s| == 1 || s[0] != '0'
    decreases n
  {
    if n < 10 then [DigitChar(n)] else ToDecimal(n / 10) + [DigitChar(n % 10)]
  }

  /** Printing a number and reading it back gives the same number. */
  lemma {:induction false} DecimalRoundTrip(n: nat)
    ensures DecimalValue(ToDecimal(n)) == n
    decreases n
  {
    if n >= 10 {
      var s := ToDecimal(n);
      assert s[..|s| - 1] == ToDecimal(n / 10);
      DecimalRoundTrip(n / 10);
    }
  }

  /** The first index of `c` in `s`, or `|s|` when `c` does not occur. */
  function IndexOf(s: string, c: char): (k: nat)
    ensures k <= |s|
    ensures k < |s| ==> s[k] == c
    ensures forall j :: 0 <= j < k ==> s[j] != c
  {
    if |s| == 0 then 0
    else if s[0] == c then 0
    else 1 + IndexOf(s[1..], c)
  }

  /** The last index of `c` in `s`, or -1 when `c` does not occur. */
  function LastIndexOf(s: string, c: char): (k: int)
    ensures -1 <= k < |s|
    ensures k >= 0 ==> s[k] == c
    ensures forall j :: k < j < |s| ==> s[j] != c
  {
    if |s| == 0 then -1
    else if s[|s| - 1] == c then |s| - 1
    else LastIndexOf(s[..|s| - 1], c)
  }

  predicate StartsWith(s: string, prefix: string) {
    |prefix| <= |s| && s[..|prefix|] == prefix
  }

  predicate EndsWith(s: string, suffix: string) {
    |suffix| <= |s| && s[|s| - |suffix|..] == suffix
  }
}

=== FILE: texture_layout.dfy ===
/**
 * Texture descriptors: an image with its tensor rank, depth and the
 * binding slot, shader register, register space and sampler register it is
 * bound at, and the layout that keys them by shader register.
 */
module TextureLayout {
  import opened Bytes
  import opened PngImage
  import opened SlotMap

  /** The rank of a texture: 1D, 2D or 3D, numbered from 1. */
  datatype TextureTensor = Tensor1 | Tensor2 | Tensor3

  function TensorRank(t: TextureTensor): nat {
    match t
    case Tensor1 => 1
    case Tensor2 => 2
    case Tensor3 => 3
  }

  datatype TextureElement = TextureElement(
    image: Image,
    tensor: TextureTensor,
    depth: nat,
    bindingSlot: nat,
    shaderRegister: nat,
    spaceSet: nat,
    samplerRegister: nat)

  /** The 32-bit pixel 0xffffffff, byte by byte: opaque white. */
  const WhitePixel: Blob := [0xff, 0xff, 0xff, 0xff]

  /**
   * The default element: a 1 x 1 image of one white pixel, made by the
   * raw-buffer constructor; depth 1, rank 2, slot 0xffff and every register 0.
   */
  function DefaultTextureElement(): (e: TextureElement)
    ensures WellFormed(e.image)
    ensures e.image.width == 1 && e.image.height == 1 && e.image.channels == 4
    ensures e.image.data == WhitePixel
    ensures e.depth == 1 && e.tensor == Tensor2 && TensorRank(e.tensor) == 2
    ensures e.bindingSlot == 0xffff && e.shaderRegister == 0 && e.spaceSet == 0 && e.samplerRegister == 0
  {
    var img := RawImageExact(WhitePixel, 1, 1);
    assert img.data == WhitePixel;
    TextureElement(img, Tensor2, 1, 0xffff, 0, 0, 0)
  }

  /** The raw-buffer constructor as written gives the same white pixel: four bytes do not wrap. */
  lemma DefaultImageAsWritten()
    ensures RawImage(WhitePixel, 1, 1) == DefaultTextureElement().image
  {
    RawImageAgreesWhenSmall(WhitePixel, 1, 1);
  }

  /**
   * `TextureElement(img, bindingSlot, shaderRegister, spaceSet,
   * samplerRegister, tensor, depth)`: every argument is stored, except that
   * a depth of 0 is raised to 1.
   */
  function NewTextureElement(img: Image, bindingSlot: nat, shaderRegister: nat, spaceSet: nat,
                             samplerRegister: nat, tensor: TextureTensor, depth: nat): (e: TextureElement)
    ensures e.depth >= 1 && (depth >= 1 ==> e.depth == depth) && (depth == 0 ==> e.depth == 1)
    ensures e.image == img && e.tensor == tensor && e.bindingSlot == bindingSlot
    ensures e.shaderRegister == shaderRegister && e.spaceSet == spaceSet && e.samplerRegister == samplerRegister
  {
    TextureElement(img, tensor, if depth < 1 then 1 else depth, bindingSlot, shaderRegister, spaceSet, samplerRegister)
  }

  /**
   * `GetDepth`: the depth is stored as `size_t` and returned as `uint32_t`,
   * so it reads back modulo 2^32.
   */
  function GetDepth(e: TextureElement): (d: nat)
    ensures d < U32
    ensures e.depth < U32 ==> d == e.depth
  {
    e.depth % U32
  }

  /** A depth of 2^32 survives the clamp but reads back as 0. */
  lemma DepthReadsBackTruncated(img: Image, tensor: TextureTensor)
    ensures GetDepth(NewTextureElement(img, 0, 0, 0, 0, tensor, U32)) == 0
  {
  }

  /** Width, height and channels come from the wrapped image. */
  lemma ImageFieldsComeFromImage(img: Image, bindingSlot: nat, shaderRegister: nat, spaceSet: nat,
                                 samplerRegister: nat, tensor: TextureTensor, depth: nat)
    ensures var e := NewTextureElement(img, bindingSlot, shaderRegister, spaceSet, samplerRegister, tensor, depth);
            e.image.width == img.width && e.image.height == img.height
            && e.image.channels == img.channels && e.image.data == img.data
  {
  }

  datatype TextureLayout = TextureLayout(textures: map<nat, TextureElement>)

  /** `TextureLayout(elements)`: keyed by shader register, a later element replacing an earlier. */
  function NewTextureLayout(es: seq<TextureElement>): (l: TextureLayout)
    ensures forall i :: 0 <= i < |es| ==> es[i].shaderRegister in l.textures
    ensures forall k :: k in l.textures ==> exists i :: LastWithKey(es, (e: TextureElement) => e.shaderRegister, k, i)
                                                       && l.textures[k] == es[i]
    ensures forall k :: k in l.textures ==> l.textures[k].shaderRegister == k
  {
    KeyedKeepsLast(es, (e: TextureElement) => e.shaderRegister);
    TextureLayout(Keyed(es, (e: TextureElement) => e.shaderRegister))
  }

  /** `GetElement`: the declared element, or a default one that the layout keeps from then on. */
  function GetTextureElement(l: TextureLayout, shaderRegister: nat): (r: (TextureElement, TextureLayout))
    ensures shaderRegister in l.textures ==> r == (l.textures[shaderRegister], l)
    ensures shaderRegister !in l.textures ==> r.0 == DefaultTextureElement()
    ensures r.1.textures.Keys == l.textures.Keys + {shaderRegister}
    ensures forall k :: k in l.textures ==> r.1.textures[k] == l.textures[k]
  {
    var (e, textures) := GetOrInsert(l.textures, shaderRegister, DefaultTextureElement());
    (e, TextureLayout(textures))
  }

  /**
   * A miss stores the default element, whose register is 0, under the
   * register asked for: afterwards the key and the element disagree.
   */
  lemma MissStoresRegisterZero(l: TextureLayout, shaderRegister: nat)
    requires shaderRegister !in l.textures && shaderRegister != 0
    ensures GetTextureElement(l, shaderRegister).1.textures[shaderRegister].shaderRegister != shaderRegister
  {
  }
}

=== FILE: uniforms_layout.dfy ===
/**
 * Push-constant ("small buffer") and constant-buffer ("uniform") layouts:
 * elements whose size must be a multiple of the backend's alignment,
 * keyed by binding slot, with the set of shader stages allowed to read them.
 */
module UniformsLayout {
  import W = Wrappers
  import opened Errors
  import opened Text
  import opened SlotMap

  /** The slot a default element claims. */
  const UnboundSlot: nat := 0xffff

  const MismatchPrefix := "Is expected the buffer be multiple of "
  /** What separates the two numbers; it opens with the comma that ends the first. */
  const MismatchMiddle := "," + " but the module of the division between the buffer size and the expected attachment is "

  /** The reason `AttachmentMismatchException` carries: the attachment, then the remainder of the size by it. */
  function MismatchMessage(size: nat, attachment: nat): string
    requires attachment > 0
  {
    MismatchPrefix + ToDecimal(attachment) + MismatchMiddle + ToDecimal(size % attachment)
  }

  /** Reads the two numbers back out of a mismatch message. */
  function ParseMismatchMessage(s: string): W.Option<(nat, nat)> {
    if !StartsWith(s, MismatchPrefix) then W.None
    else
      var rest := s[|MismatchPrefix|..];
      var k := IndexOf(rest, ',');
      if k == 0 || !AllDigits(rest[..k]) || !StartsWith(rest[k..], MismatchMiddle) then W.None
      else
        var tail := rest[k..][|MismatchMiddle|..];
        if IsDigitRun(tail) then W.Some((DecimalValue(rest[..k]), DecimalValue(tail))) else W.None
  }

  /** A run of digits followed by a comma splits at that comma. */
  lemma DigitsThenComma(a: string, t: string)
    requires IsDigitRun(a) && |t| > 0 && t[0] == ','
    ensures IndexOf(a + t, ',') == |a|
    ensures (a + t)[..|a|] == a && (a + t)[|a|..] == t
  {
    assert (a + t)[|a|] == ',';
  }

  /** A prefix is found at the head of what follows it, and removing it leaves the rest. */
  lemma PrefixThenRest(p: string, t: string)
    ensures StartsWith(p + t, p) && (p + t)[|p|..] == t
  {
    assert (p + t)[..|p|] == p;
  }

  /** The message names the expected attachment and the remainder, and both can be read back from it. */
  lemma MismatchMessageReadsBack(size: nat, attachment: nat)
    requires attachment > 0
    ensures ParseMismatchMessage(MismatchMessage(size, attachment)) == W.Some((attachment, size % attachment))
  {
    var a := ToDecimal(attachment);
    var b := ToDecimal(size % attachment);
    var tail := MismatchMiddle + b;
    var rest := a + tail;
    assert tail[0] == ',';
    assert MismatchMessage(size, attachment) == MismatchPrefix + rest;
    PrefixThenRest(MismatchPrefix, rest);
    DigitsThenComma(a, tail);
    PrefixThenRest(MismatchMiddle, b);
    DecimalRoundTrip(attachment);
    DecimalRoundTrip(size % attachment);
  }

  /** The error thrown when `size` is not a multiple of `attachment`. */
  function AttachmentError(size: nat, attachment: nat): Error
    requires attachment > 0
  {
    AttachmentMismatch(size, attachment, MismatchMessage(size, attachment))
  }

  // ---------------------------------------------------------------------
  // Small buffers (push constants)
  // ---------------------------------------------------------------------

  datatype SmallBufferElement = SmallBufferElement(offset: nat, size: nat, bindingSlot: nat)

  /** The default element: empty, at offset 0, on slot 0xffff. */
  const DefaultSmallBufferElement := SmallBufferElement(0, 0, UnboundSlot)

  /**
   * `SmallBufferElement(offset, size, bindingSlot, smallAttachment)`: the
   * size must be a multiple of the attachment. The source divides by the
   * attachment, so it must not be zero.
   */
  function NewSmallBufferElement(offset: nat, size: nat, bindingSlot: nat, smallAttachment: nat)
    : (r: W.Result<SmallBufferElement, Error>)
    requires smallAttachment > 0
    ensures r.Err? <==> size % smallAttachment != 0
    ensures r.Err? ==> r.error == AttachmentError(size, smallAttachment)
    ensures r.Ok? ==> r.value.offset == offset && r.value.size == size && r.value.bindingSlot == bindingSlot
  {
    if size % smallAttachment == 0 then W.Ok(SmallBufferElement(offset, size, bindingSlot))
    else W.Err(AttachmentError(size, smallAttachment))
  }

  datatype SmallBufferLayout = SmallBufferLayout(buffers: map<nat, SmallBufferElement>, stages: nat)

  /** `SmallBufferLayout(elements, stages)`: the elements keyed by binding slot, a later one replacing an earlier. */
  function NewSmallBufferLayout(es: seq<SmallBufferElement>, stages: nat): (l: SmallBufferLayout)
    ensures l.stages == stages
    ensures forall i :: 0 <= i < |es| ==> es[i].bindingSlot in l.buffers
    ensures forall k :: k in l.buffers ==> exists i :: LastWithKey(es, (e: SmallBufferElement) => e.bindingSlot, k, i)
                                                      && l.buffers[k] == es[i]
  {
    KeyedKeepsLast(es, (e: SmallBufferElement) => e.bindingSlot);
    SmallBufferLayout(Keyed(es, (e: SmallBufferElement) => e.bindingSlot), stages)
  }

  /** `GetElement`: the declared element, or a default one that the layout keeps from then on. */
  function GetSmallBufferElement(l: SmallBufferLayout, bindingSlot: nat): (r: (SmallBufferElement, SmallBufferLayout))
    ensures bindingSlot in l.buffers ==> r == (l.buffers[bindingSlot], l)
    ensures bindingSlot !in l.buffers ==> r.0 == DefaultSmallBufferElement
    ensures r.1.stages == l.stages && r.1.buffers.Keys == l.buffers.Keys + {bindingSlot}
    ensures forall k :: k in l.buffers ==> r.1.buffers[k] == l.buffers[k]
  {
    var (e, buffers) := GetOrInsert(l.buffers, bindingSlot, DefaultSmallBufferElement);
    (e, l.(buffers := buffers))
  }

  // ---------------------------------------------------------------------
  // Uniforms (constant buffers)
  // ---------------------------------------------------------------------

  /** The buffer kinds; only the invalid marker is spelled out, the rest are carried by number. */
  datatype BufferType = InvalidBufferType | BufferKind(code: nat)

  datatype UniformElement = UniformElement(bufferType: BufferType, size: nat, bindingSlot: nat, shaderRegister: nat)

  /** The default element: invalid type, empty, on slot 0xffff, register 0. */
  const DefaultUniformElement := UniformElement(InvalidBufferType, 0, UnboundSlot, 0)

  /** `UniformElement(type, size, bindingSlot, shaderRegister, bufferAttachment)`: the same alignment rule. */
  function NewUniformElement(bufferType: BufferType, size: nat, bindingSlot: nat, shaderRegister: nat, bufferAttachment: nat)
    : (r: W.Result<UniformElement, Error>)
    requires bufferAttachment > 0
    ensures r.Err? <==> size % bufferAttachment != 0
    ensures r.Err? ==> r.error == AttachmentError(size, bufferAttachment)
    ensures r.Ok? ==> r.value.bufferType == bufferType && r.value.size == size
                      && r.value.bindingSlot == bindingSlot && r.value.shaderRegister == shaderRegister
  {
    if size % bufferAttachment == 0 then W.Ok(UniformElement(bufferType, size, bindingSlot, shaderRegister))
    else W.Err(AttachmentError(size, bufferAttachment))
  }

  datatype UniformLayout = UniformLayout(buffers: map<nat, UniformElement>, stages: nat)

  /** `UniformLayout(elements, allowedStages)`: keyed by binding slot, a later element replacing an earlier. */
  function NewUniformLayout(es: seq<UniformElement>, allowedStages: nat): (l: UniformLayout)
    ensures l.stages == allowedStages
    ensures forall i :: 0 <= i < |es| ==> es[i].bindingSlot in l.buffers
    ensures forall k :: k in l.buffers ==> exists i :: LastWithKey(es, (e: UniformElement) => e.bindingSlot, k, i)
                                                      && l.buffers[k] == es[i]
  {
    KeyedKeepsLast(es, (e: UniformElement) => e.bindingSlot);
    UniformLayout(Keyed(es, (e: UniformElement) => e.bindingSlot), allowedStages)
  }

  /** `GetElement`: the declared element, or a default one that the layout keeps from then on. */
  function GetUniformElement(l: UniformLayout, bindingSlot: nat): (r: (UniformElement, UniformLayout))
    ensures bindingSlot in l.buffers ==> r == (l.buffers[bindingSlot], l)
    ensures bindingSlot !in l.buffers ==> r.0 == DefaultUniformElement
    ensures r.1.stages == l.stages && r.1.buffers.Keys == l.buffers.Keys + {bindingSlot}
    ensures forall k :: k in l.buffers ==> r.1.buffers[k] == l.buffers[k]
  {
    var (e, buffers) := GetOrInsert(l.buffers, bindingSlot, DefaultUniformElement);
    (e, l.(buffers := buffers))
  }

  /** Two elements on one slot: the layout keeps the second. */
  lemma LaterUniformWins(a: UniformElement, b: UniformElement, stages: nat)
    requires a.bindingSlot == b.bindingSlot
    ensures NewUniformLayout([a, b], stages).buffers == map[b.bindingSlot := b]
  {
    assert [a, b][..1] == [a];
    assert [a][..0] == [];
  }
}

=== FILE: vk_buffer.dfy ===
/**
 * Vulkan vertex and index buffers: the memory-type search, and the upload
 * through a staging buffer as a trace of device operations run against an
 * abstract device that holds buffer contents and a queue of pending copies.
 * Native handles are plain ids.
 */
module VkBuffer {
  import opened Wrappers
  import opened Errors
  import opened Bytes
  import Vk = VkShader
  import BL = BufferLayout

  // ---------------------------------------------------------------------
  // Memory types
  // ---------------------------------------------------------------------

  /** `VK_MAX_MEMORY_TYPES`: the size of the memory-type array of a physical device. */
  const MaxMemoryTypes := 32

  /** Memory type `i` is allowed by `typeFilter` and has every property asked for. */
  predicate Suitable(typeFilter: bv32, propertyFlags: seq<bv32>, properties: bv32, i: nat)
    requires i < |propertyFlags| <= MaxMemoryTypes
  {
    typeFilter & (1 << i) != 0 && propertyFlags[i] & properties == properties
  }

  /**
   * `FindMemoryType`: the first memory type that is allowed by the filter
   * and has all the properties; when there is none the source asserts.
   */
  method FindMemoryType(typeFilter: bv32, propertyFlags: seq<bv32>, properties: bv32) returns (r: Result<nat, Error>)
    requires |propertyFlags| <= MaxMemoryTypes
    ensures r.Ok? ==> r.value < |propertyFlags| && Suitable(typeFilter, propertyFlags, properties, r.value)
    ensures r.Ok? ==> forall j :: 0 <= j < r.value ==> !Suitable(typeFilter, propertyFlags, properties, j)
    ensures r.Err? <==> forall j :: 0 <= j < |propertyFlags| ==> !Suitable(typeFilter, propertyFlags, properties, j)
    ensures r.Err? ==> r.error == AssertionFailure("false")
  {
    var i := 0;
    while i < |propertyFlags|
      invariant 0 <= i <= |propertyFlags|
      invariant forall j :: 0 <= j < i ==> !Suitable(typeFilter, propertyFlags, properties, j)
    {
      if typeFilter & (1 << i) != 0 && propertyFlags[i] & properties == properties {
        assert Suitable(typeFilter, propertyFlags, properties, i);
        return Ok(i);
      }
      i := i + 1;
    }
    return Err(AssertionFailure("false"));
  }

  // ---------------------------------------------------------------------
  // The device, abstractly
  // ---------------------------------------------------------------------

  type BufferId = nat

  datatype Usage = TransferSrc | TransferDst | VertexUsage | IndexUsage

  datatype MemoryProperty = DeviceLocal | HostVisible | HostCoherent

  /** How VMA is asked to allocate: its usage and creation flags. */
  datatype AllocationRequest = AllocationRequest(autoUsage: bool, dedicatedMemory: bool, hostSequentialWrite: bool)

  /** One recorded copy of the first `size` bytes of `src` into `dst`. */
  datatype Copy = Copy(src: BufferId, dst: BufferId, size: nat)

  /** The device operations the buffers issue. */
  datatype Event =
    | CreateBuffer(id: BufferId, size: nat, usage: set<Usage>, request: AllocationRequest)
    | MapAndFill(id: BufferId, data: Blob)
    | AllocateCommandBuffer
    | RecordCopy(copy: Copy)
    | Submit
    | WaitQueueIdle
    | WaitDeviceIdle
    | FreeCommandBuffer
    | DestroyBuffer(id: BufferId)

  /**
   * The device: the contents of each live buffer, the copies recorded in
   * the open command buffer, the copies submitted but not yet known to be
   * done, and how many command buffers are allocated.
   */
  datatype Device = Device(buffers: map<BufferId, Blob>, recorded: seq<Copy>, queued: seq<Copy>, commandBuffers: nat)

  /** Nothing recorded and nothing in flight. */
  predicate Idle(d: Device) {
    d.recorded == [] && d.queued == []
  }

  /** Whether any copy in `cs` reads or writes buffer `id`. */
  predicate Uses(cs: seq<Copy>, id: BufferId) {
    exists c :: c in cs && (c.src == id || c.dst == id)
  }

  /** Runs one copy; the buffers must exist and hold at least `size` bytes. */
  function RunCopy(buffers: map<BufferId, Blob>, c: Copy): (r: Option<map<BufferId, Blob>>)
    ensures r.Some? <==> c.src in buffers && c.dst in buffers && c.size <= |buffers[c.src]| && c.size <= |buffers[c.dst]|
    ensures r.Some? ==> r.value.Keys == buffers.Keys && |r.value[c.dst]| == |buffers[c.dst]|
    ensures r.Some? ==> r.value[c.dst][..c.size] == buffers[c.src][..c.size]
    ensures r.Some? ==> r.value[c.dst][c.size..] == buffers[c.dst][c.size..]
    ensures r.Some? ==> forall k :: k in buffers && k != c.dst ==> r.value[k] == buffers[k]
  {
    if c.src in buffers && c.dst in buffers && c.size <= |buffers[c.src]| && c.size <= |buffers[c.dst]| then
      var dst := buffers[c.src][..c.size] + buffers[c.dst][c.size..];
      assert dst[..c.size] == buffers[c.src][..c.size];
      Some(buffers[c.dst := dst])
    else None
  }

  /** Runs the copies in order. */
  function RunCopies(buffers: map<BufferId, Blob>, cs: seq<Copy>): Option<map<BufferId, Blob>>
    decreases |cs|
  {
    if |cs| == 0 then Some(buffers)
    else match RunCopy(buffers, cs[0])
      case None => None
      case Some(next) => RunCopies(next, cs[1..])
  }

  /** A new buffer's contents: unspecified in Vulkan, modelled as zeros. */
  function Zeros(n: nat): (z: Blob)
    ensures |z| == n
  {
    seq(n, _ => 0 as Byte)
  }

  /** Waiting for the queue or the device: every submitted copy has run. */
  function Drain(d: Device): (r: Option<Device>)
    ensures r.Some? ==> r.value.queued == [] && r.value.recorded == d.recorded
  {
    match RunCopies(d.buffers, d.queued)
    case None => None
    case Some(buffers) => Some(d.(buffers := buffers, queued := []))
  }

  /**
   * One device operation; `None` is a misuse: a handle created twice, a
   * write past the end, a copy or free without a command buffer, or a buffer
   * destroyed while a submitted copy may still use it.
   */
  function Step(d: Device, e: Event): Option<Device> {
    match e
    case CreateBuffer(id, size, _, _) =>
      if id in d.buffers then None else Some(d.(buffers := d.buffers[id := Zeros(size)]))
    case MapAndFill(id, data) =>
      if id in d.buffers && |data| <= |d.buffers[id]| then
        Some(d.(buffers := d.buffers[id := data + d.buffers[id][|data|..]]))
      else None
    case AllocateCommandBuffer => Some(d.(commandBuffers := d.commandBuffers + 1))
    case RecordCopy(c) => if d.commandBuffers > 0 then Some(d.(recorded := d.recorded + [c])) else None
    case Submit => Some(d.(recorded := [], queued := d.queued + d.recorded))
    case WaitQueueIdle => Drain(d)
    case WaitDeviceIdle => Drain(d)
    case FreeCommandBuffer => if d.commandBuffers > 0 then Some(d.(commandBuffers := d.commandBuffers - 1)) else None
    case DestroyBuffer(id) =>
      if id in d.buffers && !Uses(d.queued, id) then Some(d.(buffers := d.buffers - {id})) else None
  }

  /** Runs a trace of operations, stopping at the first misuse. */
  function Run(d: Device, es: seq<Event>): Option<Device>
    decreases |es|
  {
    if |es| == 0 then Some(d)
    else match Step(d, es[0])
      case None => None
      case Some(next) => Run(next, es[1..])
  }

  /** Running two traces one after the other is running their concatenation. */
  lemma {:induction false} RunAppend(d: Device, a: seq<Event>, b: seq<Event>)
    ensures Run(d, a + b) == (match Run(d, a) case None => None case Some(m) => Run(m, b))
    decreases |a|
  {
    if |a| > 0 {
      assert (a + b)[0] == a[0];
      assert (a + b)[1..] == a[1..] + b;
      match Step(d, a[0])
      case None =>
      case Some(next) => RunAppend(next, a[1..], b);
    } else {
      assert a + b == b;
    }
  }

  // ---------------------------------------------------------------------
  // The upload
  // ---------------------------------------------------------------------

  /** Every buffer's allocation request: automatic memory, dedicated, written sequentially by the host. */
  const VmaRequest := AllocationRequest(true, true, true)

  /**
   * `CreateBuffer(size, usage, properties, ...)`: the requested memory
   * properties are not passed on; every buffer gets the same allocation
   * request.
   */
  function CreateBufferEvent(id: BufferId, size: nat, usage: set<Usage>, properties: set<MemoryProperty>): (e: Event)
    ensures e.CreateBuffer? && e.id == id && e.size == size && e.usage == usage
  {
    CreateBuffer(id, size, usage, VmaRequest)
  }

  /** Whatever properties are asked for, the same buffer is created: a device-local request gets host-writable memory. */
  lemma CreateBufferIgnoresProperties(id: BufferId, size: nat, usage: set<Usage>, p: set<MemoryProperty>, q: set<MemoryProperty>)
    ensures CreateBufferEvent(id, size, usage, p) == CreateBufferEvent(id, size, usage, q)
    ensures CreateBufferEvent(id, size, usage, {DeviceLocal}).request.hostSequentialWrite
  {
  }

  /** `CopyBuffer`: one command buffer, allocated, recorded with the copy, submitted, waited on and freed. */
  function CopyTrace(src: BufferId, dst: BufferId, size: nat): (t: seq<Event>)
    ensures |t| == 5 && t[0] == AllocateCommandBuffer && t[|t| - 1] == FreeCommandBuffer
  {
    [AllocateCommandBuffer, RecordCopy(Copy(src, dst, size)), Submit, WaitQueueIdle, FreeCommandBuffer]
  }

  /**
   * `BuildBufferInstance(data, size, bufferType)`: a staging buffer is
   * created and filled with the first `size` bytes of the data, the
   * destination is created, the staging buffer is copied into it, and the
   * staging buffer is destroyed.
   */
  function BuildTrace(data: Blob, size: nat, usage: Usage, staging: BufferId, dest: BufferId): seq<Event>
    requires size <= |data|
  {
    [CreateBufferEvent(staging, size, {TransferSrc}, {HostVisible, HostCoherent}),
     MapAndFill(staging, data[..size]),
     CreateBufferEvent(dest, size, {TransferDst, usage}, {DeviceLocal})]
    + CopyTrace(staging, dest, size)
    + [DestroyBuffer(staging)]
  }

  /** One operation as a trace of its own. */
  lemma RunOne(d: Device, e: Event)
    ensures Run(d, [e]) == Step(d, e)
  {
    assert [e][1..] == [];
  }

  /** Running `a` then `b` from `d`, when `a` is known to reach `m`. */
  lemma RunThrough(d: Device, t: seq<Event>, a: seq<Event>, m: Device, b: seq<Event>)
    requires t == a + b && Run(d, a) == Some(m)
    ensures Run(d, t) == Run(m, b)
  {
    RunAppend(d, a, b);
  }

  /** The first three operations of the upload: the staging buffer holds the data, the destination zeros. */
  lemma UploadPrepares(d: Device, data: Blob, size: nat, usage: Usage, staging: BufferId, dest: BufferId)
    requires staging != dest && staging !in d.buffers && dest !in d.buffers
    requires size <= |data|
    ensures Run(d, [CreateBufferEvent(staging, size, {TransferSrc}, {HostVisible, HostCoherent}),
                    MapAndFill(staging, data[..size]),
                    CreateBufferEvent(dest, size, {TransferDst, usage}, {DeviceLocal})])
            == Some(d.(buffers := d.buffers[staging := data[..size]][dest := Zeros(size)]))
  {
    var e0 := CreateBufferEvent(staging, size, {TransferSrc}, {HostVisible, HostCoherent});
    var e1 := MapAndFill(staging, data[..size]);
    var e2 := CreateBufferEvent(dest, size, {TransferDst, usage}, {DeviceLocal});
    var d1 := d.(buffers := d.buffers[staging := Zeros(size)]);
    var d2 := d.(buffers := d.buffers[staging := data[..size]]);
    var d3 := d.(buffers := d.buffers[staging := data[..size]][dest := Zeros(size)]);
    assert Step(d, e0) == Some(d1);
    assert data[..size] + Zeros(size)[size..] == data[..size];
    assert d1.buffers[staging := data[..size]] == d.buffers[staging := data[..size]];
    assert Step(d1, e1) == Some(d2);
    assert Step(d2, e2) == Some(d3);
    RunOne(d2, e2);
    RunAppend(d1, [e1], [e2]);
    RunOne(d1, e1);
    RunAppend(d, [e0], [e1] + [e2]);
    RunOne(d, e0);
    assert [e0] + ([e1] + [e2]) == [e0, e1, e2];
  }

  /** A trace that starts with an operation that succeeds goes on from the state it leaves. */
  lemma RunCons(d: Device, e: Event, rest: seq<Event>, next: Device)
    requires Step(d, e) == Some(next)
    ensures Run(d, [e] + rest) == Run(next, rest)
  {
    assert ([e] + rest)[1..] == rest;
  }

  /** Recording and submitting one copy on an idle device: one more command buffer, and the copy in flight. */
  lemma SubmitQueues(d: Device, c: Copy)
    requires Idle(d)
    ensures Run(d, [AllocateCommandBuffer, RecordCopy(c), Submit])
            == Some(d.(commandBuffers := d.commandBuffers + 1, queued := [c]))
  {
    var d1 := d.(commandBuffers := d.commandBuffers + 1);
    var d2 := d1.(recorded := [c]);
    var d3 := d1.(queued := [c]);
    assert d1.recorded + [c] == [c];
    assert Step(d1, RecordCopy(c)) == Some(d2);
    assert d2.queued + d2.recorded == [c];
    assert Step(d2, Submit) == Some(d3);
    RunOne(d2, Submit);
    RunCons(d1, RecordCopy(c), [Submit], d2);
    RunCons(d, AllocateCommandBuffer, [RecordCopy(c), Submit], d1);
    assert [AllocateCommandBuffer] + ([RecordCopy(c)] + [Submit]) == [AllocateCommandBuffer, RecordCopy(c), Submit];
  }

  /** Waiting on a queue holding one copy that can run, then freeing the command buffer. */
  lemma WaitRunsCopy(d: Device, c: Copy)
    requires d.queued == [c] && d.commandBuffers > 0 && RunCopy(d.buffers, c).Some?
    ensures Run(d, [WaitQueueIdle, FreeCommandBuffer])
            == Some(d.(buffers := RunCopy(d.buffers, c).value, queued := [], commandBuffers := d.commandBuffers - 1))
  {
    var copied := RunCopy(d.buffers, c).value;
    assert RunCopies(d.buffers, [c]) == Some(copied) by {
      assert [c][1..] == [];
    }
    var d4 := d.(buffers := copied, queued := []);
    assert Step(d, WaitQueueIdle) == Some(d4);
    RunOne(d4, FreeCommandBuffer);
    RunCons(d, WaitQueueIdle, [FreeCommandBuffer], d4);
  }

  /**
   * `CopyBuffer` on an idle device whose buffers can take the copy: the
   * destination's first `size` bytes become the source's, the command
   * buffer is freed, and the device is idle again.
   */
  lemma CopyCompletes(d: Device, src: BufferId, dst: BufferId, size: nat)
    requires Idle(d) && src in d.buffers && dst in d.buffers
    requires size <= |d.buffers[src]| && size <= |d.buffers[dst]|
    ensures var c := Copy(src, dst, size);
            Run(d, CopyTrace(src, dst, size)) == Some(d.(buffers := RunCopy(d.buffers, c).value))
  {
    CopyRuns(d, Copy(src, dst, size));
  }

  /** The copy trace of one copy that can run, from an idle device. */
  lemma CopyRuns(d: Device, c: Copy)
    requires Idle(d) && RunCopy(d.buffers, c).Some?
    ensures Run(d, [AllocateCommandBuffer, RecordCopy(c), Submit, WaitQueueIdle, FreeCommandBuffer])
            == Some(d.(buffers := RunCopy(d.buffers, c).value))
  {
    var submitted := d.(commandBuffers := d.commandBuffers + 1, queued := [c]);
    SubmitQueues(d, c);
    WaitRunsCopy(submitted, c);
    RunThrough(d, [AllocateCommandBuffer, RecordCopy(c), Submit, WaitQueueIdle, FreeCommandBuffer],
               [AllocateCommandBuffer, RecordCopy(c), Submit], submitted, [WaitQueueIdle, FreeCommandBuffer]);
  }

  /**
   * From an idle device on which neither handle is live: the upload goes
   * through without a misuse, the destination ends up holding exactly the
   * first `size` bytes of the data, the staging buffer is gone, every other
   * buffer is untouched, and no command buffer is left allocated.
   */
  lemma UploadDeliversData(d: Device, data: Blob, size: nat, usage: Usage, staging: BufferId, dest: BufferId)
    requires Idle(d) && staging != dest && staging !in d.buffers && dest !in d.buffers
    requires size <= |data|
    ensures var r := Run(d, BuildTrace(data, size, usage, staging, dest));
            && r.Some? && Idle(r.value)
            && r.value.buffers == d.buffers[dest := data[..size]]
            && r.value.commandBuffers == d.commandBuffers
  {
    var head := [CreateBufferEvent(staging, size, {TransferSrc}, {HostVisible, HostCoherent}),
                 MapAndFill(staging, data[..size]),
                 CreateBufferEvent(dest, size, {TransferDst, usage}, {DeviceLocal})];
    var copy := CopyTrace(staging, dest, size);
    var tail := [DestroyBuffer(staging)];
    var trace := BuildTrace(data, size, usage, staging, dest);
    assert trace == head + (copy + tail);

    var prepared := d.(buffers := d.buffers[staging := data[..size]][dest := Zeros(size)]);
    UploadPrepares(d, data, size, usage, staging, dest);
    RunThrough(d, trace, head, prepared, copy + tail);

    var c := Copy(staging, dest, size);
    CopyCompletes(prepared, staging, dest, size);
    var copied := RunCopy(prepared.buffers, c).value;
    var done := prepared.(buffers := copied);
    RunThrough(prepared, copy + tail, copy, done, tail);

    assert copied[dest] == data[..size] by {
      assert copied[dest] == copied[dest][..size] + copied[dest][size..];
    }
    assert !Uses(done.queued, staging);
    RunOne(done, DestroyBuffer(staging));
    assert copied - {staging} == d.buffers[dest := data[..size]];
  }

  /**
   * The order matters: were the staging buffer destroyed right after the
   * submit, before the wait, the copy might still be reading it.
   */
  lemma DestroyBeforeWaitIsMisuse(d: Device, data: Blob, size: nat, usage: Usage, staging: BufferId, dest: BufferId)
    requires Idle(d) && staging != dest && staging !in d.buffers && dest !in d.buffers
    requires size <= |data|
    ensures var early := [CreateBufferEvent(staging, size, {TransferSrc}, {HostVisible, HostCoherent}),
                          MapAndFill(staging, data[..size]),
                          CreateBufferEvent(dest, size, {TransferDst, usage}, {DeviceLocal}),
                          AllocateCommandBuffer, RecordCopy(Copy(staging, dest, size)), Submit,
                          DestroyBuffer(staging)];
            Run(d, early).None?
  {
    var head := [CreateBufferEvent(staging, size, {TransferSrc}, {HostVisible, HostCoherent}),
                 MapAndFill(staging, data[..size]),
                 CreateBufferEvent(dest, size, {TransferDst, usage}, {DeviceLocal})];
    var c := Copy(staging, dest, size);
    var rest := [AllocateCommandBuffer, RecordCopy(c), Submit, DestroyBuffer(staging)];
    var prepared := d.(buffers := d.buffers[staging := data[..size]][dest := Zeros(size)]);
    UploadPrepares(d, data, size, usage, staging, dest);
    RunThrough(d, head + rest, head, prepared, rest);
    var d1 := prepared.(commandBuffers := prepared.commandBuffers + 1);
    var d2 := d1.(recorded := [c]);
    var d3 := d1.(queued := [c]);
    assert d2.queued + d2.recorded == [c];
    assert Step(d2, Submit) == Some(d3);
    assert Uses(d3.queued, staging);
    RunOne(d3, DestroyBuffer(staging));
    RunCons(d2, Submit, [DestroyBuffer(staging)], d3);
    RunCons(d1, RecordCopy(c), [Submit, DestroyBuffer(staging)], d2);
    RunCons(prepared, AllocateCommandBuffer, [RecordCopy(c), Submit, DestroyBuffer(staging)], d1);
    assert head + rest == [CreateBufferEvent(staging, size, {TransferSrc}, {HostVisible, HostCoherent}),
                           MapAndFill(staging, data[..size]),
                           CreateBufferEvent(dest, size, {TransferDst, usage}, {DeviceLocal}),
                           AllocateCommandBuffer, RecordCopy(c), Submit, DestroyBuffer(staging)];
  }

  /**
   * `DestroyBuffer`: waiting for the device first finishes every submitted
   * copy, so a live buffer can always be destroyed, whatever was in flight,
   * as long as the submitted copies themselves can run.
   */
  lemma DestroyAfterDeviceIdle(d: Device, id: BufferId)
    requires RunCopies(d.buffers, d.queued).Some? && id in RunCopies(d.buffers, d.queued).value
    ensures var r := Run(d, [WaitDeviceIdle, DestroyBuffer(id)]);
            r.Some? && id !in r.value.buffers && r.value.queued == []
  {
    var m := RunCopies(d.buffers, d.queued).value;
    var d1 := d.(buffers := m, queued := []);
    assert Step(d, WaitDeviceIdle) == Some(d1);
    assert !Uses(d1.queued, id);
    RunOne(d1, DestroyBuffer(id));
    RunCons(d, WaitDeviceIdle, [DestroyBuffer(id)], d1);
  }

  // ---------------------------------------------------------------------
  // Vertex and index buffers
  // ---------------------------------------------------------------------

  /** `vkCmdBindVertexBuffers` and `vkCmdBindIndexBuffer` as `Stage` records them. */
  datatype BindCommand =
    | BindVertexBuffers(firstBinding: nat, buffer: BufferId, offset: nat)
    | BindIndexBuffer(buffer: BufferId, offset: nat, indexBytes: nat)

  /** `VKVertexBuffer::Stage`: the buffer at binding 0, from its start. */
  function StageVertexBuffer(buffer: BufferId): BindCommand {
    BindVertexBuffers(0, buffer, 0)
  }

  /** The vertex buffer is bound where the Vulkan shader's one vertex binding reads. */
  lemma VertexBufferFeedsTheBinding(buffer: BufferId, layout: BL.BufferLayout)
    ensures var b := Vk.VertexInputOf(layout).bindings;
            |b| == 1 && StageVertexBuffer(buffer).firstBinding == b[0].binding
            && StageVertexBuffer(buffer).offset == 0
  {
  }

  /** A built index buffer: how many indices it reports and how many bytes it uploaded. */
  datatype IndexBuffer = IndexBuffer(count: nat, bytes: nat, buffer: BufferId)

  /**
   * `VKIndexBuffer(context, data, count)`: the count is stored as
   * `uint32_t`, so it wraps at 2^32, and the upload is four bytes per stored
   * index.
   */
  function NewIndexBuffer(count: nat, dest: BufferId): (ib: IndexBuffer)
    ensures ib.count < U32 && (count < U32 ==> ib.count == count)
    ensures ib.bytes == 4 * ib.count && ib.buffer == dest
  {
    var stored := count % U32;
    IndexBuffer(stored, 4 * stored, dest)
  }

  /** `GetCount`: the stored count. */
  function GetCount(ib: IndexBuffer): nat {
    ib.count
  }

  /** `VKIndexBuffer::Stage`: the buffer from its start, with 32-bit indices. */
  function StageIndexBuffer(ib: IndexBuffer): (c: BindCommand)
    ensures c.BindIndexBuffer? && c.buffer == ib.buffer && c.offset == 0
  {
    BindIndexBuffer(ib.buffer, 0, 4)
  }

  /** The bound buffer is read as 32-bit indices, exactly as many as were uploaded. */
  lemma IndexBytesMatchCount(count: nat, dest: BufferId)
    ensures var ib := NewIndexBuffer(count, dest);
            StageIndexBuffer(ib).indexBytes * GetCount(ib) == ib.bytes
  {
  }

  /** A count of 2^32 indices is stored as 0: the count and the byte size both wrap to 0. */
  lemma IndexCountWraps(dest: BufferId)
    ensures GetCount(NewIndexBuffer(U32, dest)) == 0 && NewIndexBuffer(U32, dest).bytes == 0
  {
  }
}

=== FILE: vk_shader.dfy ===
/**
 * The Vulkan shader: the vertex input it derives from a buffer layout, the
 * stage modules it loads through the manifest, and the fixed pipeline state
 * it sets. Device calls are left out; a created module is the blob it was
 * created from.
 */
module VkShader {
  import opened Wrappers
  import opened Errors
  import opened Files
  import opened Bytes
  import SD = ShaderData
  import BL = BufferLayout
  import SL = ShaderLoading
  import C = Compiler

  // ---------------------------------------------------------------------
  // Formats and vertex input
  // ---------------------------------------------------------------------

  /** The `VkFormat` values the shader uses. */
  datatype VkFormat =
    | Undefined
    | R32Sfloat | R32G32Sfloat | R32G32B32Sfloat | R32G32B32A32Sfloat
    | R32Uint | R32G32Uint | R32G32B32Uint | R32G32B32A32Uint
    | R8Uint

  /** What a format's name says: its channels, their width and how they are read; nothing for `UNDEFINED`. */
  function VkFormatShape(f: VkFormat): Option<SL.FormatShape> {
    match f
    case Undefined => None
    case R32Sfloat => Some(SL.FormatShape(1, 32, SL.SignedFloat))
    case R32G32Sfloat => Some(SL.FormatShape(2, 32, SL.SignedFloat))
    case R32G32B32Sfloat => Some(SL.FormatShape(3, 32, SL.SignedFloat))
    case R32G32B32A32Sfloat => Some(SL.FormatShape(4, 32, SL.SignedFloat))
    case R32Uint => Some(SL.FormatShape(1, 32, SL.UnsignedInt))
    case R32G32Uint => Some(SL.FormatShape(2, 32, SL.UnsignedInt))
    case R32G32B32Uint => Some(SL.FormatShape(3, 32, SL.UnsignedInt))
    case R32G32B32A32Uint => Some(SL.FormatShape(4, 32, SL.UnsignedInt))
    case R8Uint => Some(SL.FormatShape(1, 8, SL.UnsignedInt))
  }

  /**
   * `GetNativeFormat`: the format whose shape is the one the type needs;
   * `UNDEFINED` for a matrix and for `None`.
   */
  function NativeFormat(t: SD.ShaderDataType): (f: VkFormat)
    ensures VkFormatShape(f) == SL.TypeShape(t)
    ensures f == Undefined <==> t == SD.ShaderDataType.None || t == SD.Mat4
  {
    match t
    case Float => R32Sfloat
    case Float2 => R32G32Sfloat
    case Float3 => R32G32B32Sfloat
    case Float4 => R32G32B32A32Sfloat
    case Uint => R32Uint
    case Uint2 => R32G32Uint
    case Uint3 => R32G32B32Uint
    case Uint4 => R32G32B32A32Uint
    case Bool => R8Uint
    case _ => Undefined
  }

  /** Different types that have a format get different formats. */
  lemma NativeFormatInjective(s: SD.ShaderDataType, t: SD.ShaderDataType)
    requires NativeFormat(s) != Undefined && NativeFormat(s) == NativeFormat(t)
    ensures s == t
  {
    assert SL.TypeShape(s) == SL.TypeShape(t);
  }

  datatype InputRate = PerVertex | PerInstance

  /** A `VkVertexInputBindingDescription`. */
  datatype VertexBinding = VertexBinding(binding: nat, stride: nat, inputRate: InputRate)

  /** A `VkVertexInputAttributeDescription`. */
  datatype VertexAttribute = VertexAttribute(location: nat, binding: nat, format: VkFormat, offset: nat)

  /** A `VkPipelineVertexInputStateCreateInfo`: its bindings and attributes. */
  datatype VertexInput = VertexInput(bindings: seq<VertexBinding>, attributes: seq<VertexAttribute>)

  /**
   * The attribute loop of the constructor: one attribute per layout element,
   * at location `i` of binding 0, with the element's offset and the format
   * of its type.
   */
  function VertexAttributes(layout: BL.BufferLayout): (attrs: seq<VertexAttribute>)
    ensures |attrs| == |layout.elements|
    ensures forall i :: 0 <= i < |attrs| ==> attrs[i].location == i && attrs[i].binding == 0
    ensures forall i :: 0 <= i < |attrs| ==>
              attrs[i].offset == layout.elements[i].offset
              && VkFormatShape(attrs[i].format) == SL.TypeShape(layout.elements[i].dataType)
  {
    seq(|layout.elements|, i requires 0 <= i < |layout.elements| =>
      VertexAttribute(i, 0, NativeFormat(layout.elements[i].dataType), layout.elements[i].offset))
  }

  /**
   * The vertex input state: a single per-vertex binding 0 with the layout's
   * stride, which every attribute reads from.
   */
  function VertexInputOf(layout: BL.BufferLayout): (v: VertexInput)
    ensures v.bindings == [VertexBinding(0, layout.stride, PerVertex)]
    ensures v.attributes == VertexAttributes(layout)
    ensures forall a :: a in v.attributes ==> a.binding < |v.bindings| && v.bindings[a.binding].binding == a.binding
  {
    VertexInput([VertexBinding(0, layout.stride, PerVertex)], VertexAttributes(layout))
  }

  /** The bytes an attribute's format reads. */
  function AttributeBytes(a: VertexAttribute): nat {
    match VkFormatShape(a.format)
    case None => 0
    case Some(s) => SL.FormatBytes(s)
  }

  /**
   * For a layout built from elements sized by their types, none a matrix,
   * and below 2^32 in total: each attribute's format ends exactly where the
   * next attribute begins, and the last ends at the binding's stride. The
   * attributes tile a vertex with neither gaps nor overlaps.
   */
  lemma AttributesTileStride(es: seq<BL.BufferElement>, i: nat)
    requires BL.TotalSize(es) < U32
    requires forall k :: 0 <= k < |es| ==> BL.Sized(es[k]) && es[k].dataType != SD.Mat4
    requires i < |es|
    ensures var v := VertexInputOf(BL.NewBufferLayout(es));
            v.attributes[i].offset + AttributeBytes(v.attributes[i])
              == if i + 1 < |es| then v.attributes[i + 1].offset else v.bindings[0].stride
  {
    var l := BL.NewBufferLayout(es);
    var a := VertexAttributes(l)[i];
    assert BL.Sized(es[i]);
    assert l.elements[i].dataType == es[i].dataType;
    assert AttributeBytes(a) == es[i].size;
    BL.ExactWhenSmall(es, i);
    if i + 1 < |es| {
      BL.ExactWhenSmall(es, i + 1);
    }
  }

  /** A matrix element gets an attribute, but one without a format. */
  lemma MatrixAttributeIsUndefined(layout: BL.BufferLayout, i: nat)
    requires i < |layout.elements| && layout.elements[i].dataType == SD.Mat4
    ensures VertexAttributes(layout)[i].format == Undefined
  {
  }

  // ---------------------------------------------------------------------
  // Stage modules
  // ---------------------------------------------------------------------

  datatype StageFlag = VertexBit | FragmentBit

  /** `s_StageCaster`: the stages the shader can load, and their flags. */
  const StageCaster: map<string, StageFlag> := map["vs" := VertexBit, "ps" := FragmentBit]

  /** A `VkPipelineShaderStageCreateInfo` as `PushShader` fills it: the stage, its module and entry point. */
  datatype StageInfo = StageInfo(stage: StageFlag, shaderModule: Blob, entryPoint: string)

  /**
   * The shader's `m_Modules` and `m_ModulesEntrypoint`: a null module is
   * `None`, a created one the blob it came from.
   */
  datatype VkModules = VkModules(modules: map<string, Option<Blob>>, entryPoints: map<string, string>)

  const NoModules := VkModules(map[], map[])

  /** Whether `stage` already has a module. */
  predicate Loaded(m: VkModules, stage: string) {
    stage in m.modules && m.modules[stage].Some?
  }

  /**
   * `PushShader`: an unknown stage, or one already loaded, is left alone.
   * Otherwise the stage's module slot exists from then on (`operator[]`
   * inserts a null), the blob path and the entry point are read from the
   * manifest, the entry point is kept, and the module is created only when
   * the blob exists and can be read. Only then is the stage description
   * filled in.
   */
  function PushShader(m: VkModules, manifestPath: string, manifest: Manifest, stage: string,
                      fs: FileSystem, windows: bool): (r: Result<(VkModules, Option<StageInfo>), Error>)
    ensures r.Err? <==> stage in StageCaster && !Loaded(m, stage)
                        && stage in manifest.binShaders && manifest.binShaders[stage].BareName?
    ensures r.Err? ==> r.error == JsonNotAnObject
    ensures stage !in StageCaster || Loaded(m, stage) ==> r == Ok((m, None))
    ensures r.Ok? && r.value.1.Some? <==>
              && stage in StageCaster && !Loaded(m, stage) && r.Ok?
              && var path := SL.BlobPath(manifestPath, manifest, stage, windows).value;
                 path in fs.existing && path in fs.readable
    ensures r.Ok? && r.value.1.Some? ==>
              var path := SL.BlobPath(manifestPath, manifest, stage, windows).value;
              && r.value.1.value == StageInfo(StageCaster[stage], fs.readable[path],
                                              ReadStageField(manifest, stage, "entrypoint").value)
              && Loaded(r.value.0, stage) && r.value.0.modules[stage] == Some(fs.readable[path])
    ensures r.Ok? && stage in StageCaster ==> stage in r.value.0.modules
    ensures r.Ok? ==> forall s :: s != stage ==>
              (s in r.value.0.modules <==> s in m.modules)
              && (s in m.modules ==> r.value.0.modules[s] == m.modules[s])
              && (s in r.value.0.entryPoints <==> s in m.entryPoints)
              && (s in m.entryPoints ==> r.value.0.entryPoints[s] == m.entryPoints[s])
  {
    if stage !in StageCaster || Loaded(m, stage) then Ok((m, None))
    else
      var modules := m.modules[stage := None];
      var path :- SL.BlobPath(manifestPath, manifest, stage, windows);
      var entryPoint := ReadStageField(manifest, stage, "entrypoint").value;
      var kept := VkModules(modules, m.entryPoints[stage := entryPoint]);
      if path !in fs.existing || path !in fs.readable then Ok((kept, None))
      else
        var blob := fs.readable[path];
        Ok((kept.(modules := modules[stage := Some(blob)]), Some(StageInfo(StageCaster[stage], blob, entryPoint))))
  }

  /** A stage that was loaded is not loaded again: the second push changes nothing and describes nothing. */
  lemma PushShaderOnce(m: VkModules, manifestPath: string, manifest: Manifest, stage: string, fs: FileSystem, windows: bool)
    requires var r := PushShader(m, manifestPath, manifest, stage, fs, windows);
             r.Ok? && r.value.1.Some?
    ensures var m' := PushShader(m, manifestPath, manifest, stage, fs, windows).value.0;
            PushShader(m', manifestPath, manifest, stage, fs, windows) == Ok((m', None))
  {
  }

  // ---------------------------------------------------------------------
  // Fixed pipeline state
  // ---------------------------------------------------------------------

  datatype Topology = TriangleList | TriangleStrip | LineList | PointList

  datatype PolygonMode = Fill | Line | Point

  datatype DynamicState = DynamicViewport | DynamicScissor

  datatype ColorChannel = Red | Green | Blue | Alpha

  /**
   * The state the setters fill in: input assembly, viewport and multisample
   * counts, rasterizer, colour blend and depth-stencil. Line width and blend
   * constants are floating point and left out.
   */
  datatype VkFixedState = VkFixedState(
    topology: Topology, primitiveRestart: bool,
    viewportCount: nat, scissorCount: nat, sampleShading: bool, sampleCount: nat,
    depthClamp: bool, rasterizerDiscard: bool, polygonMode: PolygonMode,
    cullMode: SL.CullMode, frontFace: SL.Winding, depthBias: bool,
    colorWriteMask: set<ColorChannel>, blendEnable: bool, logicOpEnable: bool, attachmentCount: nat,
    depthTest: bool, depthWrite: bool, depthCompare: SL.Comparison, depthBoundsTest: bool, stencilTest: bool,
    dynamicStates: seq<DynamicState>)

  /** `SetInputAssemblyViewportAndMultisampling`, `SetRasterizer`, `SetBlend`, `SetDepthStencil` and the dynamic states. */
  const FixedState := VkFixedState(
    TriangleList, false,
    1, 1, false, 1,
    false, false, Fill,
    SL.CullBack, SL.Clockwise, false,
    {Red, Green, Blue, Alpha}, false, false, 1,
    true, true, SL.LessEqual, false, false,
    [DynamicViewport, DynamicScissor])

  /**
   * What the depth state does to a fragment: it is kept, and its depth
   * written, exactly when it is no farther than what is stored.
   */
  lemma DepthKeepsNearerOrEqual(incoming: int, stored: int)
    ensures FixedState.depthTest && FixedState.depthWrite
    ensures SL.Passes(FixedState.depthCompare, incoming, stored) <==> incoming <= stored
  {
  }

  // ---------------------------------------------------------------------
  // The shader
  // ---------------------------------------------------------------------

  /** A constructed `VKShader`: the stage descriptions, the vertex input, the fixed state and its modules. */
  datatype VkPipeline = VkPipeline(
    stages: seq<Option<StageInfo>>,
    vertexInput: VertexInput,
    state: VkFixedState,
    modules: VkModules)

  /** `GetStride`: the stride of the one binding. */
  function GetStride(p: VkPipeline): nat {
    if |p.vertexInput.bindings| > 0 then p.vertexInput.bindings[0].stride else 0
  }

  /** `GetOffset`: always 0. */
  function GetOffset(p: VkPipeline): nat {
    0
  }

  /** The constructor's last loop: every module is destroyed and its slot set back to null. */
  function ReleaseModules(m: VkModules): (r: VkModules)
    ensures r.modules.Keys == m.modules.Keys && r.entryPoints == m.entryPoints
    ensures forall s :: !Loaded(r, s)
  {
    VkModules(map s | s in m.modules :: None, m.entryPoints)
  }

  /** Whether the manifest's entry for `stage` is a bare string, which jsoncpp cannot index by key. */
  predicate Unindexable(manifest: Manifest, stage: string) {
    stage in manifest.binShaders && manifest.binShaders[stage].BareName?
  }

  /**
   * What the constructor's slot for `stage` holds: a description exactly
   * when the blob the manifest names exists and is readable, with the
   * stage's flag and a module made from that blob.
   */
  ghost predicate StageSlot(slot: Option<StageInfo>, manifestPath: string, manifest: Manifest, stage: string,
                            fs: FileSystem, windows: bool)
    requires stage in StageCaster && !Unindexable(manifest, stage)
  {
    var path := SL.BlobPath(manifestPath, manifest, stage, windows).value;
    && (slot.Some? <==> path in fs.existing && path in fs.readable)
    && (slot.Some? ==> slot.value.stage == StageCaster[stage] && slot.value.shaderModule == fs.readable[path])
  }

  /**
   * `VKShader(context, json_controller_path, layout)`: "vs" then "ps" are
   * pushed; a stage whose push did nothing still gets a slot, holding an
   * uninitialised description (`None`). Then the vertex input, the fixed
   * state, and the modules are released. An exception from a bare-string
   * manifest entry ends the construction.
   */
  function BuildVkShader(manifestPath: string, manifest: Manifest, layout: BL.BufferLayout,
                         fs: FileSystem, windows: bool): (r: Result<VkPipeline, Error>)
    ensures r.Err? <==> Unindexable(manifest, "vs") || Unindexable(manifest, "ps")
    ensures r.Err? ==> r.error == JsonNotAnObject
    ensures r.Ok? ==> |r.value.stages| == |SL.PipelineStages|
    ensures r.Ok? ==> StageSlot(r.value.stages[0], manifestPath, manifest, "vs", fs, windows)
                      && StageSlot(r.value.stages[1], manifestPath, manifest, "ps", fs, windows)
    ensures r.Ok? ==> r.value.vertexInput == VertexInputOf(layout) && r.value.state == FixedState
    ensures r.Ok? ==> GetStride(r.value) == layout.stride && GetOffset(r.value) == 0
    ensures r.Ok? ==> forall s :: !Loaded(r.value.modules, s)
  {
    var (afterVs, vs) :- PushShader(NoModules, manifestPath, manifest, "vs", fs, windows);
    assert !Loaded(afterVs, "ps");
    var (afterPs, ps) :- PushShader(afterVs, manifestPath, manifest, "ps", fs, windows);
    Ok(VkPipeline([vs, ps], VertexInputOf(layout), FixedState, ReleaseModules(afterPs)))
  }

  /**
   * With the manifest the base compiler writes, whose stage entries are bare
   * strings, the Vulkan shader cannot be built: jsoncpp throws on the first
   * stage.
   */
  lemma AsWrittenManifestIsRejected(c: C.Compiler, stem: string, manifestPath: string, layout: BL.BufferLayout,
                                    fs: FileSystem, windows: bool)
    ensures BuildVkShader(manifestPath, C.ManifestFor(c, stem, false), layout, fs, windows) == Err(JsonNotAnObject)
  {
    assert "vs" in SL.PipelineStages;
  }

  /**
   * With a manifest whose stage entries name their blobs, next to blobs the
   * SPIR-V compiler wrote for `dir/stem.hlsl`: both stages get modules made
   * from exactly those blobs. The manifest names no entry point, so each
   * stage's entry point is the empty string.
   */
  lemma LoadsWhatTheCompilerWrote(c: C.Compiler, path: string, layout: BL.BufferLayout, fs: FileSystem, windows: bool)
    requires C.SplitShaderPath(path).Some?
    requires var (dir, stem) := C.SplitShaderPath(path).value;
             && |dir| >= 2 && !IsSeparator(dir[|dir| - 2], windows)
             && forall i :: 0 <= i < |stem| ==> !IsSeparator(stem[i], windows)
    requires var (dir, stem) := C.SplitShaderPath(path).value;
             forall s :: s in C.PackedStages ==>
               C.StageOutputPath(c, dir + stem, s) in fs.existing && C.StageOutputPath(c, dir + stem, s) in fs.readable
    ensures var (dir, stem) := C.SplitShaderPath(path).value;
            var r := BuildVkShader(C.ManifestPath(c, dir + stem), C.ManifestFor(c, stem, true), layout, fs, windows);
            && r.Ok? && |r.value.stages| == 2
            && r.value.stages[0] == Some(StageInfo(VertexBit, fs.readable[C.StageOutputPath(c, dir + stem, "vs")], ""))
            && r.value.stages[1] == Some(StageInfo(FragmentBit, fs.readable[C.StageOutputPath(c, dir + stem, "ps")], ""))
  {
    var (dir, stem) := C.SplitShaderPath(path).value;
    var manifestPath := C.ManifestPath(c, dir + stem);
    var manifest := C.ManifestFor(c, stem, true);
    assert "vs" in C.PackedStages && "ps" in C.PackedStages;
    SL.BlobPathRoundTrip(c, path, "vs", windows);
    SL.BlobPathRoundTrip(c, path, "ps", windows);
    var r1 := PushShader(NoModules, manifestPath, manifest, "vs", fs, windows);
    assert r1.Ok? && r1.value.1 == Some(StageInfo(VertexBit, fs.readable[C.StageOutputPath(c, dir + stem, "vs")], ""));
    var r2 := PushShader(r1.value.0, manifestPath, manifest, "ps", fs, windows);
    assert !Loaded(r1.value.0, "ps");
    assert r2.Ok? && r2.value.1 == Some(StageInfo(FragmentBit, fs.readable[C.StageOutputPath(c, dir + stem, "ps")], ""));
  }
}

=== FILE: win32_window.dfy ===
/**
 * The Win32 window's message procedure: close requests, the
 * minimize/maximize/restore flags and the resizes it forwards, computed as
 * the window's stored size plus the change in outer size. Every message
 * ends in the default window procedure.
 *
 * The outer rectangle `AdjustWindowRectEx` gives for the stored size is an
 * input (`frame`), as is the rectangle a `WM_SIZING` message points to. A
 * `WM_SIZE` message carries no rectangle: its `lParam` packs the new client
 * size, width in the low word and height in the high word.
 */
module Win32Window {
  import opened Wrappers
  import opened Bytes

  /** A `RECT`. */
  datatype Rect = Rect(left: int, top: int, right: int, bottom: int)

  function RectWidth(r: Rect): int {
    r.right - r.left
  }

  function RectHeight(r: Rect): int {
    r.bottom - r.top
  }

  /** The window's state; `resizer` says whether a resize callback is connected. */
  datatype Window = Window(width: nat, height: nat, minimized: bool, maximized: bool, shouldClose: bool, resizer: bool)

  /** The messages the procedure tells apart; `WmOther` is everything else. */
  datatype Message =
    | WmClose
    | WmQuit
    | WmSize(wParam: nat, lParam: nat)
    | WmSizing(rect: Rect)
    | WmOther(id: nat)

  /** `SIZE_RESTORED`, `SIZE_MINIMIZED` and `SIZE_MAXIMIZED`. */
  const SizeRestored: nat := 0
  const SizeMinimized: nat := 1
  const SizeMaximized: nat := 2

  /**
   * What the procedure does that can be observed: the resize callback,
   * `DefWindowProcW`, and a read of a `RECT` through an integer that is not
   * the address of one, which is undefined behaviour.
   */
  datatype Call = Resize(width: nat, height: nat) | DefWindowProc | ReadRectAt(address: nat)

  /** The calls a message may make before the default procedure: resizes and invalid reads. */
  predicate Forwarding(c: Call) {
    c.Resize? || c.ReadRectAt?
  }

  /** `Win32Window(width, height, title)`: no flag set and no resizer connected. */
  function NewWindow(width: nat, height: nat): (w: Window)
    ensures w.width == width && w.height == height
    ensures !w.minimized && !w.maximized && !w.shouldClose && !w.resizer
  {
    Window(width, height, false, false, false, false)
  }

  /**
   * `Win32Window::ConnectResizer`: from now on resizes are forwarded. This is
   * the Win32 class's member; `Sdl3Window.ConnectResizer` models the SDL3 one.
   */
  function ConnectResizer(w: Window): (r: Window)
    ensures r.resizer
    ensures r.(resizer := w.resizer) == w
  {
    w.(resizer := true)
  }

  /**
   * `ApplyWindowResize`: the change in outer size between `frame` (the
   * outer rectangle of the stored size) and `newRect`, added to the stored
   * size in 32-bit unsigned arithmetic, goes to the resizer if there is
   * one. The stored size itself is left alone.
   */
  function ApplyWindowResize(w: Window, frame: Rect, newRect: Rect): (calls: seq<Call>)
    ensures !w.resizer ==> calls == []
    ensures w.resizer ==> |calls| == 1 && calls[0].Resize?
  {
    var deltaWidth := RectWidth(newRect) - RectWidth(frame);
    var deltaHeight := RectHeight(newRect) - RectHeight(frame);
    if w.resizer then [Resize((w.width + deltaWidth) % U32, (w.height + deltaHeight) % U32)] else []
  }

  /** The outer rectangle of a client area at `(x, y)` of size `width` x `height`, given the border widths. */
  function Framed(x: int, y: int, width: nat, height: nat, borders: Rect): Rect {
    Rect(x - borders.left, y - borders.top, x + width + borders.right, y + height + borders.bottom)
  }

  /**
   * When the frame and the new rectangle share their borders, the resizer
   * receives exactly the new client size: the stored size cancels out.
   */
  lemma ResizeDeliversClientSize(w: Window, borders: Rect, x: int, y: int, width: nat, height: nat)
    requires w.resizer && width < U32 && height < U32
    ensures ApplyWindowResize(w, Framed(0, 0, w.width, w.height, borders), Framed(x, y, width, height, borders))
            == [Resize(width, height)]
  {
  }

  /**
   * `Win32Callback::WindowResizer`: with no window attached, only the
   * default procedure runs. Otherwise close and quit set should-close;
   * `WM_SIZE` sets minimized on a minimize, and on a maximize, or on a
   * restore of a window flagged maximized (which also clears minimized),
   * hands `lParam` to `ApplyWindowResize` as a `RECT` pointer; `WM_SIZING`
   * forwards the rectangle it points to. The default procedure always runs
   * last.
   */
  function WindowResizer(attached: Option<Window>, msg: Message, frame: Rect): (r: (Option<Window>, seq<Call>))
    ensures attached.None? ==> r == (None, [DefWindowProc])
    ensures r.0.Some? <==> attached.Some?
    ensures |r.1| >= 1 && r.1[|r.1| - 1] == DefWindowProc
    ensures forall i :: 0 <= i < |r.1| - 1 ==> Forwarding(r.1[i])
  {
    match attached
    case None => (None, [DefWindowProc])
    case Some(w) =>
      var (next, calls) := Handle(w, msg, frame);
      (Some(next), calls + [DefWindowProc])
  }

  /**
   * What an attached window does with a message, before the default
   * procedure. `ApplyWindowResize` dereferences its rectangle before it
   * looks at the resizer, so a `WM_SIZE` that reaches it reads through the
   * packed size whether or not a resizer is connected.
   */
  function Handle(w: Window, msg: Message, frame: Rect): (r: (Window, seq<Call>))
    ensures r.0.width == w.width && r.0.height == w.height && r.0.maximized == w.maximized && r.0.resizer == w.resizer
    ensures forall i :: 0 <= i < |r.1| ==> Forwarding(r.1[i])
    ensures msg.WmSize? && msg.wParam == SizeMaximized ==> r == (w, [ReadRectAt(msg.lParam)])
    ensures msg.WmSize? && msg.wParam == SizeRestored ==>
              r == (w.(minimized := false), if w.maximized then [ReadRectAt(msg.lParam)] else [])
    ensures msg.WmSizing? ==> r == (w, ApplyWindowResize(w, frame, msg.rect))
    ensures (exists i :: 0 <= i < |r.1| && r.1[i].ReadRectAt?) ==> msg.WmSize?
  {
    match msg
    case WmClose => (w.(shouldClose := true), [])
    case WmQuit => (w.(shouldClose := true), [])
    case WmSize(wParam, lParam) =>
      if wParam == SizeMinimized then (w.(minimized := true), [])
      else if wParam == SizeMaximized then (w, [ReadRectAt(lParam)])
      else if wParam == SizeRestored then
        (w.(minimized := false), if w.maximized then [ReadRectAt(lParam)] else [])
      else (w, [])
    case WmSizing(rect) => (w, ApplyWindowResize(w, frame, rect))
    case WmOther(_) => (w, [])
  }

  /** Close and quit set should-close, and nothing else changes. */
  lemma CloseSetsShouldClose(w: Window, msg: Message, frame: Rect)
    requires msg == WmClose || msg == WmQuit
    ensures WindowResizer(Some(w), msg, frame) == (Some(w.(shouldClose := true)), [DefWindowProc])
  {
    assert [] + [DefWindowProc] == [DefWindowProc];
  }

  /** A minimize sets minimized and a restore clears it. */
  lemma MinimizeAndRestore(w: Window, lParam: nat, frame: Rect)
    ensures WindowResizer(Some(w), WmSize(SizeMinimized, lParam), frame).0 == Some(w.(minimized := true))
    ensures WindowResizer(Some(w), WmSize(SizeRestored, lParam), frame).0 == Some(w.(minimized := false))
  {
  }

  /** Messages in order, to an attached window, under one frame. */
  function Run(w: Window, msgs: seq<Message>, frame: Rect): (r: (Window, seq<Call>))
    decreases |msgs|
  {
    if |msgs| == 0 then (w, [])
    else
      var (next, calls) := WindowResizer(Some(w), msgs[0], frame);
      var (last, more) := Run(next.value, msgs[1..], frame);
      (last, calls + more)
  }

  /**
   * Nothing sets the maximized flag, so on a window made by the constructor
   * it stays false through any messages, and the stored size never changes.
   */
  lemma {:induction false} MaximizedNeverSet(w: Window, msgs: seq<Message>, frame: Rect)
    ensures Run(w, msgs, frame).0.maximized == w.maximized
    ensures Run(w, msgs, frame).0.width == w.width && Run(w, msgs, frame).0.height == w.height
    decreases |msgs|
  {
    if |msgs| > 0 {
      var next := Handle(w, msgs[0], frame).0;
      MaximizedNeverSet(next, msgs[1..], frame);
    }
  }

  /**
   * Hence a restore never resizes a constructed window, whatever came
   * before it: only the default procedure runs.
   */
  lemma RestoreNeverResizes(width: nat, height: nat, connect: bool, msgs: seq<Message>, lParam: nat, frame: Rect)
    ensures var w0 := if connect then ConnectResizer(NewWindow(width, height)) else NewWindow(width, height);
            var w := Run(w0, msgs, frame).0;
            WindowResizer(Some(w), WmSize(SizeRestored, lParam), frame).1 == [DefWindowProc]
  {
    var w0 := if connect then ConnectResizer(NewWindow(width, height)) else NewWindow(width, height);
    MaximizedNeverSet(w0, msgs, frame);
  }

  /** A sizing message forwards the new client size when the borders match the frame's. */
  lemma SizingForwardsSize(w: Window, borders: Rect, x: int, y: int, width: nat, height: nat)
    requires w.resizer && width < U32 && height < U32
    ensures var frame := Framed(0, 0, w.width, w.height, borders);
            WindowResizer(Some(w), WmSizing(Framed(x, y, width, height, borders)), frame)
              == (Some(w), [Resize(width, height), DefWindowProc])
  {
    ResizeDeliversClientSize(w, borders, x, y, width, height);
    assert [Resize(width, height)] + [DefWindowProc] == [Resize(width, height), DefWindowProc];
  }

  // ---------------------------------------------------------------------
  // The client size a WM_SIZE message packs
  // ---------------------------------------------------------------------

  /** `MAKELPARAM(width, height)`: the client size as `WM_SIZE` delivers it. */
  function PackSize(width: nat, height: nat): nat {
    height * 0x10000 + width
  }

  /** `LOWORD(lParam)` and `HIWORD(lParam)`: the width and the height a `WM_SIZE` message carries. */
  function ClientSizeOf(lParam: nat): (size: (nat, nat))
    ensures size.0 < 0x10000 && size.1 < 0x10000
  {
    (lParam % 0x10000, (lParam / 0x10000) % 0x10000)
  }

  /** Sizes that fit in a word are read back from their packing. */
  lemma ClientSizeRoundTrip(width: nat, height: nat)
    requires width < 0x10000 && height < 0x10000
    ensures ClientSizeOf(PackSize(width, height)) == (width, height)
  {
  }

  /**
   * A window maximized to a 1920 x 1017 client area receives `lParam`
   * 0x03F90780, and the source reads a `RECT` at that number as if it were
   * an address, connected resizer or not.
   */
  lemma MaximizeReadsSizeAsPointer(w: Window, frame: Rect)
    ensures PackSize(1920, 1017) == 0x03F9_0780
    ensures WindowResizer(Some(w), WmSize(SizeMaximized, PackSize(1920, 1017)), frame)
            == (Some(w), [ReadRectAt(0x03F9_0780), DefWindowProc])
  {
    assert [ReadRectAt(0x03F9_0780)] + [DefWindowProc] == [ReadRectAt(0x03F9_0780), DefWindowProc];
  }

  /**
   * The procedure with `WM_SIZE` read as Win32 delivers it: a maximize, or
   * a restore of a window flagged maximized, forwards the client size
   * packed in `lParam`. Every other message is handled as before.
   */
  function HandleCorrected(w: Window, msg: Message, frame: Rect): (r: (Window, seq<Call>))
    ensures r.0 == Handle(w, msg, frame).0
    ensures forall i :: 0 <= i < |r.1| ==> r.1[i].Resize?
    ensures !w.resizer ==> r.1 == []
    ensures w.resizer && msg.WmSize? && msg.wParam == SizeMaximized ==>
              r.1 == [Resize(ClientSizeOf(msg.lParam).0, ClientSizeOf(msg.lParam).1)]
    ensures !msg.WmSize? ==> r == Handle(w, msg, frame)
  {
    match msg
    case WmSize(wParam, lParam) =>
      var forward := if w.resizer then [Resize(ClientSizeOf(lParam).0, ClientSizeOf(lParam).1)] else [];
      if wParam == SizeMinimized then (w.(minimized := true), [])
      else if wParam == SizeMaximized then (w, forward)
      else if wParam == SizeRestored then (w.(minimized := false), if w.maximized then forward else [])
      else (w, [])
    case _ => Handle(w, msg, frame)
  }

  /** Corrected, maximizing to a client area that fits in a word forwards exactly that size, and reads nothing. */
  lemma CorrectedMaximizeForwardsSize(w: Window, width: nat, height: nat, frame: Rect)
    requires w.resizer && width < 0x10000 && height < 0x10000
    ensures HandleCorrected(w, WmSize(SizeMaximized, PackSize(width, height)), frame) == (w, [Resize(width, height)])
  {
    ClientSizeRoundTrip(width, height);
  }
}

=== FILE: wrappers.dfy ===
/** Failure-carrying datatypes shared by every module of the model. */
module Wrappers {

  /** A value that may be absent (a null pointer, a missing map entry, "no match"). */
  datatype Option<+T> = None | Some(value: T) {
    function GetOr(default: T): T {
      match this
      case Some(v) => v
      case None => default
    }
  }

  /** The outcome of an operation that either returns a value or throws. */
  datatype Result<+T, +E> = Ok(value: T) | Err(error: E) {
    predicate IsFailure() {
      Err?
    }

    function PropagateFailure<U>(): Result<U, E>
      requires Err?
    {
      Err(error)
    }

    function Extract(): T
      requires Ok?
    {
      value
    }
  }
}

/**
 * The exceptions and fatal assertions of the system, collapsed into one datatype.
 * Each constructor names the exception class (or the failing assertion) it stands for.
 */
module Errors {
  import opened Wrappers

  datatype Error =
    | InvalidHLSLVersion(reason: string)
    | InvalidVulkanVersion(reason: string)
    | InvalidName(reason: string)
    | InvalidPipeline(reason: string)
    | InvalidFilepath(reason: string)
      /** AttachmentMismatchException: the size, the expected attachment and the message. */
    | AttachmentMismatch(size: nat, attachment: nat, reason: string)
      /** jsoncpp refuses to index a non-object value with a string key. */
    | JsonNotAnObject
      /** jsoncpp refuses to convert an array or an object to a string. */
    | JsonNotConvertibleToString
      /** A failing `assert` in the source; the process would abort. */
    | AssertionFailure(what: string)
      /** A write past the end of an allocation: undefined behaviour in the source. */
    | BufferOverrun(what: string)

  /**
   * The effect of a member function that may throw: the object afterwards and
   * the exception, if one escaped. Where the source validates before it
   * assigns, a thrown exception leaves the object as it was.
   */
  datatype Outcome<S> = Outcome(after: S, thrown: Option<Error>)
}

/** Bytes as the C++ code handles them (`std::byte`, `uint8_t`, `png_byte`). */
module Bytes {
  newtype Byte = b: int | 0 <= b < 0x100

  type Blob = seq<Byte>

  /** The modulus of `uint32_t` arithmetic: sums and products of 32-bit unsigned values wrap at it. */
  const U32: nat := 0x1_0000_0000

  /** The modulus of `uint64_t` and 64-bit `size_t` arithmetic. */
  const U64: nat := 0x1_0000_0000_0000_0000
}
